=== FILE: README.md ===
# GDAS → GraphCast pipeline: naming, pairing and selection rules in Dafny

The pipeline fetches NOAA GDAS/GFS GRIB2 forecast files and cuts them into
GraphCast inputs with wgrib2. It pairs forecast steps into small Zarr stores,
runs GraphCast over every store it finds, and merges the runs. Around that
heavy numerical work sit small deterministic rules: which files a cycle
consists of, which run instants a download visits, which variables and levels
are extracted from which file, how runs are named, parsed, ordered and paired,
and how two time axes are aligned. This project models those rules as pure
Dafny functions over strings, integer-hour timestamps, a set-of-paths
filesystem and dictionaries kept in insertion order. It then proves what they
promise.

Modules, one per source file plus shared support:

- `Base`: `Option` and `Result`.
- `Strings`: decimal fields, `str.split`/`join`/`replace`, `re.findall(r'\d+')`, code-point order.
- `Calendar`: hour-resolution `datetime` with its validity range, `+ timedelta(hours=6)`, the `strftime` forms.
- `Paths`: `pathlib` name/parent/suffix/stem/join; a filesystem as the set of existing paths.
- `Sorting`: sorting by an integer key and sorting strings.
- `Dicts`: a Python `dict` as a list of pairs in insertion order.
- `GdasPlanning`: `gdas_utility_fixed.py` covering the format tables, the 6-hour download loop, the output file name and the forecast pairs.
- `GdasExtraction`: the extraction table of `process_data_with_wgrib2` and the wgrib2 level counts.
- `GdasWalk`: the walk over the downloaded tree, the wgrib2 commands and the first-time-step rule.
- `GraphcastSchedule`: `run_graphcast_forecast.py`.
- `GribSteps`: what both `04_zarr.py` scripts share.
- `ZarrKeys`: `04_zarr.py`.
- `ZarrKeysLegacy`: `old_code/04_zarr.py`.
- `TimeAlign`: `06_nc_zarr.py`.

## Model

| member | source | states |
|---|---|---|
| GdasPlanning.ForecastCodeRoundTrip | gdas_utility_fixed.py:59 | an offset code `f{h:03d}` is four characters and reads back as `h` |
| GdasPlanning.ForecastCodesAreOffsets | gdas_utility_fixed.py:59 | there are 12 codes, code `h` reads back as `h`, no code appears twice |
| GdasPlanning.PrimaryIsNotSecondary | gdas_utility_fixed.py:60-62 | no `pgrb2.0p25.` format equals a `pgrb2b.0p25.` format |
| GdasPlanning.FileFormatsPerCode | gdas_utility_fixed.py:59-62 | 24 formats for 37 levels and 12 otherwise; every code has its `pgrb2` format; a code's `pgrb2b` format is present iff levels == 37; nothing else is listed |
| GdasPlanning.LocalBaseDirectoryParts | gdas_utility_fixed.py:53-56 | the base directory is `noaa-gfs-bdp-pds_<levels>` inside the download directory, or inside the working directory when none is given |
| GdasPlanning.VisitCountFromBounds | gdas_utility_fixed.py:130-135 | a visit count bounded by the interval length (zero when end precedes start) is floor((end−start)/6h)+1 |
| GdasPlanning.SixHourlyInstants | gdas_utility_fixed.py:133-153 | the loop yields that many instants, the k-th at start+6k h, none after end; OverflowError is raised exactly when the step after the last instant passes year 9999 |
| GdasPlanning.PlanDownloads | gdas_utility_fixed.py:133-153 | one visit per instant, in that order, each in directory base/YYYYMMDD/HH of its instant |
| GdasPlanning.OutputFileNameFields | gdas_utility_fixed.py:336-347 | the name fails only when start+6h passes year 9999; it starts `source-gdas_date-`, its ten date digits decode to start+6h, they are followed by `_res-0.25_levels-<n>_steps-<k>` with the given level and step counts, and it always ends `_fh-<codes joined by _>.nc`, using `f000_f006` when no codes are given |
| GdasPlanning.ForecastPairsShape | gdas_utility_fixed.py:368-373 | six pairs; pair i is (code i, code i+6); the first halves are codes 0–5 and the second halves codes 6–11; no code repeats |
| GdasExtraction.PressurePatternRuns | gdas_utility_fixed.py:245-251 | the digit runs of a `:(l1\|…) mb:` pattern are exactly its levels, so `-nc_nlev` is the number of levels |
| GdasExtraction.PressureLevelCounts | gdas_utility_fixed.py:245-254 | the 13-level, 37-level `pgrb2` and `pgrb2b` patterns give `-nc_nlev` 13, 31 and 6 |
| GdasExtraction.DigitFreeLevelCount | gdas_utility_fixed.py:245-251 | a level string without digits gives `-nc_nlev` 0 |
| GdasExtraction.SurfaceLevelCounts | gdas_utility_fixed.py:245-251 | `:surface:` and `:mean sea level:` give `-nc_nlev` 0 |
| GdasExtraction.HeightLevelCount | gdas_utility_fixed.py:245-251 | `:<n> m above ground:` gives `-nc_nlev` 1 |
| GdasExtraction.HeightLevelCounts | gdas_utility_fixed.py:245-251 | the 2 m and 10 m levels give `-nc_nlev` 1 |
| GdasExtraction.Levels37Split | gdas_utility_fixed.py:202-205 | the 31 `pgrb2` levels and the 6 `pgrb2b` levels are disjoint and together are the 37 levels |
| GdasExtraction.ExtensionsDistinct | gdas_utility_fixed.py:170-205 | the table keys `.pgrb2.0p25.<code>` and `.pgrb2b.0p25.<code>` are distinct for distinct codes and never equal each other |
| GdasExtraction.FirstPassEntries | gdas_utility_fixed.py:168-197 | after the first loop, a `.pgrb2` key holds the analysis variables for f000–f005, land mask and precipitation for f006–f011, and nothing for any other code |
| GdasExtraction.UpperAirRewrite | gdas_utility_fixed.py:202 | rewriting the pressure group's levels changes that group's level list and nothing else |
| GdasExtraction.SecondPassEntries | gdas_utility_fixed.py:199-205 | after the 37-level loop, only f000–f005 entries are rewritten to 31 levels and only they get a `pgrb2b` entry with the 6 extra levels |
| GdasExtraction.BuildTableEntries | gdas_utility_fixed.py:166-205 | the table holds under every key exactly the entry that key's code and the level count call for, and nothing under any other key |
| GdasExtraction.BuildTableUnique | gdas_utility_fixed.py:166-205 | no extension key appears twice in the table, even when a code is requested twice |
| GdasExtraction.TableLevelCounts | gdas_utility_fixed.py:240-254 | every level of every table entry has the `-nc_nlev` its entry calls for: 13 or 31 for the pressure group (6 in `pgrb2b`), 1 for heights above ground, 0 otherwise |
| GdasWalk.TableGroupsMembers | gdas_utility_fixed.py:223-226 | the two inner loops visit a (extension, variable, spec) exactly when the table holds it |
| GdasWalk.HourGroupsMembers | gdas_utility_fixed.py:217-221 | within one date folder, a group is visited iff its hour is listed, that hour folder exists, and the table holds its entry |
| GdasWalk.DateGroupsMembers | gdas_utility_fixed.py:212-214 | over a list of date folders, a group is visited iff its date is listed, its hour is one of 00/06/12/18, that folder exists, and the table holds its entry |
| GdasWalk.WalkVisitsExactly | gdas_utility_fixed.py:212-228 | a group is visited iff its date folder is listed, its hour is one of 00/06/12/18, that folder exists, and the table has its entry |
| GdasWalk.HourFoldersSorted | gdas_utility_fixed.py:217 | the four hour folders are in ascending order |
| GdasWalk.HourGroupsOrdered | gdas_utility_fixed.py:217-221 | within a date folder, groups come in ascending hour order |
| GdasWalk.DateGroupsOrdered | gdas_utility_fixed.py:212-221 | over sorted distinct date folders, groups come in (date, hour) order |
| GdasWalk.WalkOrder | gdas_utility_fixed.py:212-221 | the walk over a directory listing runs in ascending (date, hour) order |
| GdasWalk.PlainDatasets | gdas_utility_fixed.py:264-265 | variables other than `:HGT:`/`:LAND:` are appended once per visited folder and level, uncut, whatever the flags |
| GdasWalk.FlagKeptOnce | gdas_utility_fixed.py:263-271 | `:HGT:`/`:LAND:` datasets are cut to the first time step; no (extension, variable) entry is appended twice, and none is appended once its flag is cleared |
| GdasWalk.FlagKeptWhenEligible | gdas_utility_fixed.py:264-271 | a flag entry is appended iff its flag was not cleared beforehand and some visited group still asks for it |
| GdasWalk.FlagKeptFromFirst | gdas_utility_fixed.py:212-271 | the `:HGT:`/`:LAND:` datasets kept for an entry are those of the first visited (date, hour) group that asks for it; later groups add none |
| GdasWalk.AnalysisFlagSpec | gdas_utility_fixed.py:171-174 | the analysis entry's only flag variable is `:HGT:` at `:surface:` with the flag set |
| GdasWalk.AccumulationFlagSpec | gdas_utility_fixed.py:190-193 | the accumulation entry's only flag variable is `:LAND:` at `:surface:` with the flag set |
| GdasWalk.SecondaryHasNoFlag | gdas_utility_fixed.py:203-205 | the `pgrb2b` entry has no flag variable |
| GdasWalk.TableFlagSpecs | gdas_utility_fixed.py:168-205 | every `:HGT:`/`:LAND:` entry of the table reads `:surface:` and starts with its flag set |
| GdasWalk.CommandsFromGroups | gdas_utility_fixed.py:240-254 | every wgrib2 call comes from a visited group: its extension, variable and one of its levels, with `-nc_nlev` counted from that level |
| GdasWalk.ExtractLevelCounts | gdas_utility_fixed.py:240-255 | over a whole run, every wgrib2 call gets the `-nc_nlev` its table entry calls for |
| GdasWalk.ExtractFlagRule | gdas_utility_fixed.py:212-271 | over a whole run: each `:HGT:`/`:LAND:` entry gives one first-time-step dataset iff the walk reaches it; every other variable gives one dataset per visited folder and level |
| Calendar.AddSixHours | gdas_utility_fixed.py:153 | adding six hours gives a calendar hour exactly six hours later |
| Calendar.HoursOrderIsFieldOrder | gdas_utility_fixed.py:135 | comparing hour counts is comparing datetimes field by field, and equal counts mean equal datetimes |
| Calendar.FormatCompactRoundTrip | gdas_utility_fixed.py:336 | `%Y%m%d%H` is ten digits that decode to the same instant |
| Dicts.Put | gdas_utility_fixed.py:170-197 | a dict assignment makes the key map to the value and leaves every other key alone; an existing key keeps its place and a new key goes last |
| Sorting.SortStrings | gdas_utility_fixed.py:212 | `sorted()` of names gives an ascending permutation of them |
| Sorting.SortBy | run_graphcast_forecast.py:296 | sorting by key gives an ascending permutation |
| GraphcastSchedule.SingleFieldRejected | run_graphcast_forecast.py:269-286 | a name without `_` yields None |
| GraphcastSchedule.ExtraTextIgnored | run_graphcast_forecast.py:274-280 | characters after the eighth of the date field, and fields after the second, do not change the result |
| GraphcastSchedule.ImpossibleDateRejected | run_graphcast_forecast.py:277-286 | numeric fields that are no calendar instant (month 13, a day past the month's end, hour 24, year 0) give None, with or without further fields, and the function as written returns None too while the hour fits a C int |
| GraphcastSchedule.NonNumericRejected | run_graphcast_forecast.py:277-286 | a non-digit among the first eight characters of the date field, a date field of six characters or fewer, or an empty or non-numeric hour field gives None in both versions |
| GraphcastSchedule.WrittenImpossibleRejected | run_graphcast_forecast.py:277-286 | a name `%04d%02d%02d_%02d` written from numbers that are no calendar instant gives None in both versions |
| GraphcastSchedule.RejectedExamples | run_graphcast_forecast.py:277-286 | month 13, 31 April, 29 February 2023, hour 24 and year 0 each give None |
| GraphcastSchedule.RunNameRoundTrip | run_graphcast_forecast.py:269-282 | `YYYYMMDD_HH_<rest>`, bare or as `<…>.zarr`, parses back to exactly that datetime |
| GraphcastSchedule.CorrectedParserAgrees | run_graphcast_forecast.py:277-286 | the corrected parser returns a datetime exactly where the code as written does, and the same one |
| GraphcastSchedule.HugeHourEscapes | run_graphcast_forecast.py:280-285 | as written, a valid date with an hour field above 2147483647 raises OverflowError; the corrected parser returns None |
| GraphcastSchedule.HugeHourExample | run_graphcast_forecast.py:282-283 | the concrete name `20240101_2147483648` raises OverflowError as written |
| GraphcastSchedule.ZarrNamesMembers | run_graphcast_forecast.py:259-261 | the filter keeps exactly the directory entries whose suffix is `.zarr` |
| GraphcastSchedule.FindZarrFilesSelects | run_graphcast_forecast.py:255-264 | the result is sorted and holds exactly the `.zarr` directories; a missing directory gives none |
| GraphcastSchedule.TargetTimeline | run_graphcast_forecast.py:210-214 | 240/6 = 40 targets starting at the template time, each 6 h after the previous, strictly increasing |
| GraphcastSchedule.ForecastTimelines | run_graphcast_forecast.py:184-220 | a forecast fails iff the input has fewer than two steps; otherwise inputs are steps 0–1, target k is at step 1 + 6k h, and forcings exist iff `dswrf` does and share the target timeline |
| GraphcastSchedule.ExtendedForcingsTimeline | run_graphcast_forecast.py:237-248 | empty forcings come back unchanged; otherwise `num_steps` entries, entry k at the last forcing + 6k h |
| GraphcastSchedule.MergeOrdersRuns | run_graphcast_forecast.py:293-310 | merging fails iff there are no results; otherwise it is a permutation of the runs, ordered by initial time, and `forecast_run` holds each run's own initial time |
| GraphcastSchedule.EarliestRun | run_graphcast_forecast.py:322 | the minimum is one of the initial times and no later than any of them |
| GraphcastSchedule.OutputFilenameOrderFree | run_graphcast_forecast.py:316-323 | the output name does not depend on the order of the results |
| GraphcastSchedule.OutputFilenameNamesEarliest | run_graphcast_forecast.py:322-323 | the name is `graphcast_forecast_<t as %Y_%m_%d_%H>.zarr` for an initial time t no later than any other |
| GraphcastSchedule.CollectRunsSound | run_graphcast_forecast.py:349-370 | every collected run is one of the files, its name parses to its initial time, and its forecast completed |
| GraphcastSchedule.ScheduledRunsSound | run_graphcast_forecast.py:340-374 | every run that reaches the merge is a `.zarr` directory of the input directory whose name gives its initial time |
| GraphcastSchedule.CollectRunsComplete | run_graphcast_forecast.py:349-370 | every file whose name parses and whose forecast completes is collected with that initial time |
| GraphcastSchedule.ScheduleRunsOutcome | run_graphcast_forecast.py:340-374 | `main` exits for lack of Zarr files iff none is found, and for lack of forecasts iff some are found but none both parses and completes; otherwise every such file is merged |
| GribSteps.FilesAtContents | 04_zarr.py:112-119 | the dictionary holds `pgrb2` iff the `_pgrba` candidate exists and `pgrb2b` iff the `_pgrbb` candidate exists, each mapped to its candidate, and no other key |
| GribSteps.ValidateFails | 04_zarr.py:121-126 | validation fails iff the dataset is None or has no data variables, and the message starts with the dataset's name |
| GribSteps.FirstFailure | 04_zarr.py:137-159 | the error raised is that of the first dataset that fails validation, all earlier ones having passed; there is none iff all pass |
| GribSteps.MergeStepShape | 04_zarr.py:135-164 | FileNotFoundError iff neither part is present; ValueError iff some dataset fails; otherwise one dataset per reader of each present part, opened on that part's file |
| GribSteps.MergeStepSucceeds | 04_zarr.py:137-164 | with the required part present and every dataset valid, the step merges |
| ZarrKeys.FindForecastFilesContents | 04_zarr.py:112-119 | `pgrb2` maps to `extraction_data/<key>_pgrba.grib2` iff it exists, `pgrb2b` to `…_pgrbb.grib2` iff it exists; no other key |
| ZarrKeys.MergeForecastStepCount | 04_zarr.py:135-164 | 4 datasets from `pgrb2` plus 1 from `pgrb2b`, each from its own file; FileNotFoundError iff neither is present |
| ZarrKeys.RequiredPartChecks | 04_zarr.py:183-186 | a missing `pgrb2` aborts naming key1 before key2 is checked, then key2 |
| ZarrKeys.OptionalPartOptional | 04_zarr.py:183-192 | with both `pgrb2` files present and every dataset valid the run completes, `pgrb2b` present or not |
| ZarrKeys.ProcessTwoForecastsOutput | 04_zarr.py:188-202 | a completed run writes `outputs/<key1>_output.zarr` with key1's step at time 0 and key2's at time 1 |
| ZarrKeys.Main | 04_zarr.py:209-217 | usage and exit 1 iff the argument count is not two; otherwise the two keys are processed in order |
| ZarrKeysLegacy.GribFileMapsToItself | old_code/04_zarr.py:131-147 | an existing `<dir>/<X>_pgrba.grib2` has stem X, is itself the `pgrb2` part, and its `_pgrbb` sibling is the `pgrb2b` part exactly when that file exists |
| ZarrKeysLegacy.SecondaryFileFindsSibling | old_code/04_zarr.py:131-147 | an existing `<dir>/<X>_pgrbb.grib2` also has stem X: its `_pgrba` sibling is the `pgrb2` part exactly when that file exists, and it is itself the `pgrb2b` part |
| ZarrKeysLegacy.PrefixIgnoresSearchDirs | old_code/04_zarr.py:151-157 | when the argument has an existing parent other than `.`, only that directory is consulted; the search directories make no difference |
| ZarrKeysLegacy.SearchStopsAtFirstHolder | old_code/04_zarr.py:160-168 | the scan returns the parts found in the first search directory that holds either part, so both come from one directory; it returns nothing when no directory holds a part |
| ZarrKeysLegacy.MergeStepCount | old_code/04_zarr.py:184-221 | 6 datasets from `pgrb2` plus 1 from `pgrb2b`; FileNotFoundError iff neither is present |
| ZarrKeysLegacy.MissingListsEveryKey | old_code/04_zarr.py:237-243 | both keys are checked before one error is raised; it lists exactly the keys lacking `pgrb2`, in order |
| ZarrKeysLegacy.MissingRequiredMessage | old_code/04_zarr.py:237-243 | the error text is `Missing required files: ` followed by `pgrb2 for <key>` for each such key, joined by `, ` |
| ZarrKeysLegacy.OutputNaming | old_code/04_zarr.py:250-265 | a completed run writes `<stem>_output.zarr` and `<stem>_output.nc` in the output directory, key1's step at time 0 and key2's at time 1 |
| ZarrKeysLegacy.OutputStemOfBareKey | old_code/04_zarr.py:259 | a bare key such as `20250720_06_004` is its own output stem |
| ZarrKeysLegacy.OutputStemOfPrimaryPath | old_code/04_zarr.py:259-261 | a key given as the path of its `_pgrba.grib2` file still yields the key as the stem |
| ZarrKeysLegacy.OutputStemOfSecondaryPath | old_code/04_zarr.py:259-261 | a key given as the path of its `_pgrbb.grib2` file still yields the key as the stem |
| TimeAlign.MissingTimeRejected | 06_nc_zarr.py:14-17 | a file without `time` is rejected before any shift, file 1 before file 2; the merge succeeds iff both have `time` and non-empty axes |
| TimeAlign.ShiftAligns | 06_nc_zarr.py:20-27 | the shifted first axis starts exactly 6 h before the second and keeps every internal difference |
| TimeAlign.MergedIsSortedUnion | 06_nc_zarr.py:30-33 | the merged axis is ascending, has len1+len2 entries, and is the multiset union of the shifted first axis and the untouched second one |
| TimeAlign.MergedStartsBeforeSecond | 06_nc_zarr.py:20-33 | the merged axis starts no later than 6 h before the second file's first time |
| TimeAlign.Cli | 06_nc_zarr.py:40-48 | usage and exit 1 iff the argument count is not three; otherwise the merge of the two named files goes to the third |

## Left out

- GRIB, NetCDF and Zarr content is not modelled: the cfgrib filters, wgrib2 internals, `xr.merge`, `combine_by_coords`, renames, `drop_dims` and `expand_dims`. Each open, merge and write is an opaque step. A dataset is seen only as its time axis, or as the data-variable count `validate_dataset` looks at.
- The unit conversions (`* 9.80665`, `/ 1000`) and the other floating-point steps of gdas_utility_fixed.py:283-333.
- Downloading is not modelled: `s3bucket` and `nomads` (network), and `remove_downloaded_data`. `download_data` is modelled up to the downloader call.
- `process_data_with_pygrib` is not modelled. It is a second extraction path; only its 37-level list is used, as the reference the two wgrib2 patterns split.
- GraphCast model loading, `check_dependencies`, the JAX/Haiku build, `rollout.chunked_prediction` and the saving after the merge are left out (external ML inference and I/O). Whether a run's forecast raises is the parameter `completes`.
- The wall clock of `generate_output_filename`'s empty branch is the parameter `now`. `os.getcwd()` is the parameter `cwd`. The directory listing `os.walk` would return is the parameter `listing`.
- `os.walk` on a missing base directory raises StopIteration. The model takes the listing as given.
- Python `int()` accepts more than ASCII digits (whitespace, signs, underscores, other Unicode digits). Fields are modelled as ASCII digits only.
- `strftime("%Y")` is modelled as four zero-padded digits; years below 1000 are not treated specially.
- Paths are joined as `pathlib` joins them, so a download directory of `.` gives `noaa-gfs-bdp-pds_<levels>` where `os.path.join` gives `./noaa-gfs-bdp-pds_<levels>`; both name the same directory.
- Paths are taken in normal form. `expanduser`/`resolve` and the argparse defaults of `old_code/04_zarr.py` `main` (the `append` action adds to the default directory) are not modelled. Its `process_two_forecasts` takes the search and output directories as parameters.
- At gdas_utility_fixed.py:233-237, the glob result is ignored when it is not exactly one file, and the previous `grib2_file` is reused. The wgrib2 command therefore records the glob pattern as its input, not the resolved file, and this behaviour is not stated as a promise.
- The `fh_suffix = ""` branch at gdas_utility_fixed.py:339-340 cannot run, because `forecast_hours` was defaulted at line 162. The model always appends the `_fh-` suffix.
- `total_intervals` at gdas_utility_fixed.py:131 is computed and never used.
- Both copies of `test_graphcast_dependencies.py` hold only import probes.
- In 06_nc_zarr.py, a `time` dimension without a coordinate (default integer index) and a scalar `time` coordinate are not modelled. Both files are modelled with a time axis of integer hours; numpy's nanosecond resolution is not modelled.
- The bash orchestration (watchers, supervisor, state file, probing) is not part of this model.
- Sorting.SortBy: the contract states an ascending permutation; the stability of Python's sort is not stated.
- GraphcastSchedule.MergeOrdersRuns: runs with the same initial time may appear in either order; the contract does not fix their relative order.
- GdasPlanning.OutputFileNameFields: the name is modelled without the output directory it is joined to. The step count is a parameter, since it comes from the merged data.
- GdasPlanning.SixHourlyInstants: the OverflowError is reported as a flag next to the visits made, not as an exception.
- GraphcastSchedule.HugeHourEscapes: stated for hour fields of at most 4300 digits. Longer ones hit `int()`'s digit limit, which raises ValueError and yields None.
- ZarrKeysLegacy.GribFileMapsToItself: stated for a key without `.` or `/`, in a directory other than `.`.
- ZarrKeysLegacy.SecondaryFileFindsSibling: stated for a key without `.` or `/`, in a directory other than `.`.

## Findings

| source | as written | input that shows it | evidently intended | confidence | as-written member | corrected member |
|---|---|---|---|---|---|---|
| run_graphcast_forecast.py:277-286 | `extract_datetime_from_zarr_name` catches only ValueError and IndexError, but `datetime()` raises OverflowError for an hour that does not fit a C `int` | `20240101_2147483648.zarr` | return None, like every other name that does not denote a datetime (`Optional[datetime]`); `main` still skips the file through its catch-all handler | medium, not executed | GraphcastSchedule.HugeHourEscapes | GraphcastSchedule.CorrectedParserAgrees |

=== FILE: base.dfy ===
/** Failure-carrying values shared by every module of the model: `Option` for
    Python's `None`-or-value returns and `Result` for a value or a raised error. */
module Base {

  datatype Option<+T> = None | Some(value: T) {

    /** The value, or `default` when there is none (Python's `x if x is not None else default`). */
    function GetOr(default: T): T {
      match this
      case Some(v) => v
      case None => default
    }
  }

  datatype Result<+T, +E> = Ok(value: T) | Err(error: E)
}

=== FILE: calendar.dfy ===
/** Proleptic Gregorian date-times at hour resolution, as Python's `datetime`
    holds them once `strptime("%Y%m%d%H")` or `datetime(y, m, d, h)` has built
    them, with the arithmetic (`+ timedelta(hours=6)`), ordering and `strftime`
    forms the pipeline uses. */
module Calendar {
  import opened Base
  import opened Strings

  datatype DateTime = DateTime(year: int, month: int, day: int, hour: int)

  /** Python's `datetime.MINYEAR` and `datetime.MAXYEAR`. */
  const MinYear := 1
  const MaxYear := 9999

  predicate IsLeapYear(y: int) {
    y % 4 == 0 && (y % 100 != 0 || y % 400 == 0)
  }

  function DaysInMonth(y: int, m: int): int {
    if m == 2 then (if IsLeapYear(y) then 29 else 28)
    else if m == 4 || m == 6 || m == 9 || m == 11 then 30
    else 31
  }

  /** Days of year `y` that come before the first of month `m`; month 13 gives the year's length. */
  function DaysBeforeMonth(y: int, m: int): nat
    decreases m
  {
    if m <= 1 then 0 else DaysBeforeMonth(y, m - 1) + DaysInMonth(y, m - 1)
  }

  function DaysInYear(y: int): nat {
    if IsLeapYear(y) then 366 else 365
  }

  /** The twelve months add up to the year. */
  lemma MonthsFillYear(y: int)
    ensures DaysBeforeMonth(y, 12) + 31 == DaysInYear(y)
    ensures DaysBeforeMonth(y, 13) == DaysInYear(y)
  {
    var feb := DaysInMonth(y, 2);
    assert DaysBeforeMonth(y, 2) == 31;
    assert DaysBeforeMonth(y, 3) == 31 + feb;
    assert DaysBeforeMonth(y, 4) == 62 + feb;
    assert DaysBeforeMonth(y, 5) == 92 + feb;
    assert DaysBeforeMonth(y, 6) == 123 + feb;
    assert DaysBeforeMonth(y, 7) == 153 + feb;
    assert DaysBeforeMonth(y, 8) == 184 + feb;
    assert DaysBeforeMonth(y, 9) == 215 + feb;
    assert DaysBeforeMonth(y, 10) == 245 + feb;
    assert DaysBeforeMonth(y, 11) == 276 + feb;
    assert DaysBeforeMonth(y, 12) == 306 + feb;
  }

  /** Days from 0001-01-01 to the first of January of year `y`. */
  function DaysBeforeYear(y: int): nat
    decreases y
  {
    if y <= 1 then 0 else DaysBeforeYear(y - 1) + DaysInYear(y - 1)
  }

  /** A real calendar hour with no upper bound on the year. */
  predicate OnCalendar(d: DateTime) {
    && MinYear <= d.year
    && 1 <= d.month <= 12
    && 1 <= d.day <= DaysInMonth(d.year, d.month)
    && 0 <= d.hour < 24
  }

  /** What `datetime(year, month, day, hour)` accepts without raising ValueError. */
  predicate IsValid(d: DateTime) {
    OnCalendar(d) && d.year <= MaxYear
  }

  /** A Python `datetime` value at hour resolution. */
  type Instant = d: DateTime | IsValid(d) witness DateTime(1, 1, 1, 0)

  /** Hours elapsed since 0001-01-01 00:00. */
  function HoursOf(d: DateTime): int {
    (DaysBeforeYear(d.year) + DaysBeforeMonth(d.year, d.month) + d.day - 1) * 24 + d.hour
  }

  /** Python's `d + timedelta(hours=6)`, before the range check on the year. */
  function AddSixHours(d: DateTime): (r: DateTime)
    requires OnCalendar(d)
    ensures OnCalendar(r)
    ensures HoursOf(r) == HoursOf(d) + 6
  {
    if d.hour + 6 < 24 then
      d.(hour := d.hour + 6)
    else if d.day < DaysInMonth(d.year, d.month) then
      DateTime(d.year, d.month, d.day + 1, d.hour - 18)
    else if d.month < 12 then
      assert DaysBeforeMonth(d.year, d.month + 1) == DaysBeforeMonth(d.year, d.month) + DaysInMonth(d.year, d.month);
      DateTime(d.year, d.month + 1, 1, d.hour - 18)
    else
      MonthsFillYear(d.year);
      DateTime(d.year + 1, 1, 1, d.hour - 18)
  }

  /** Python's comparison of two datetimes: field by field, most significant first. */
  predicate FieldsBefore(a: DateTime, b: DateTime) {
    || a.year < b.year
    || (a.year == b.year && a.month < b.month)
    || (a.year == b.year && a.month == b.month && a.day < b.day)
    || (a.year == b.year && a.month == b.month && a.day == b.day && a.hour < b.hour)
  }

  lemma {:induction false} DaysBeforeMonthGrows(y: int, m: int, m': int)
    requires 1 <= m < m' <= 13
    ensures DaysBeforeMonth(y, m) + DaysInMonth(y, m) <= DaysBeforeMonth(y, m')
    decreases m'
  {
    if m + 1 < m' {
      DaysBeforeMonthGrows(y, m, m' - 1);
    }
  }

  lemma {:induction false} DaysBeforeYearGrows(y: int, y': int)
    requires 1 <= y < y'
    ensures DaysBeforeYear(y) + DaysInYear(y) <= DaysBeforeYear(y')
    decreases y'
  {
    if y + 1 < y' {
      DaysBeforeYearGrows(y, y' - 1);
    }
  }

  /** Index of the day within its year, 0-based. */
  lemma DayOfYearBound(d: DateTime)
    requires OnCalendar(d)
    ensures DaysBeforeMonth(d.year, d.month) + d.day - 1 < DaysInYear(d.year)
  {
    MonthsFillYear(d.year);
    DaysBeforeMonthGrows(d.year, d.month, 13);
  }

  lemma FieldsBeforeMeansEarlier(a: DateTime, b: DateTime)
    requires OnCalendar(a) && OnCalendar(b)
    requires FieldsBefore(a, b)
    ensures HoursOf(a) < HoursOf(b)
  {
    var da := DaysBeforeYear(a.year) + DaysBeforeMonth(a.year, a.month) + a.day - 1;
    var db := DaysBeforeYear(b.year) + DaysBeforeMonth(b.year, b.month) + b.day - 1;
    if a.year < b.year {
      DayOfYearBound(a);
      DaysBeforeYearGrows(a.year, b.year);
      assert da < db;
    } else if a.year == b.year && a.month < b.month {
      DaysBeforeMonthGrows(a.year, a.month, b.month);
      assert da < db;
    }
  }

  /** Comparing hour counts is comparing datetimes the way Python does. */
  lemma HoursOrderIsFieldOrder(a: DateTime, b: DateTime)
    requires OnCalendar(a) && OnCalendar(b)
    ensures HoursOf(a) < HoursOf(b) <==> FieldsBefore(a, b)
    ensures HoursOf(a) == HoursOf(b) <==> a == b
  {
    if FieldsBefore(a, b) {
      FieldsBeforeMeansEarlier(a, b);
    } else if FieldsBefore(b, a) {
      FieldsBeforeMeansEarlier(b, a);
    }
  }

  /** `d.strftime("%Y%m%d")`. */
  function FormatYmd(d: Instant): string {
    PadDecimal(d.year, 4) + PadDecimal(d.month, 2) + PadDecimal(d.day, 2)
  }

  /** `d.strftime("%H")`. */
  function FormatHour(d: Instant): string {
    PadDecimal(d.hour, 2)
  }

  /** `d.strftime("%Y%m%d%H")`. */
  function FormatCompact(d: Instant): string {
    FormatYmd(d) + FormatHour(d)
  }

  /** `d.strftime("%Y_%m_%d_%H")`. */
  function FormatUnderscored(d: Instant): string {
    PadDecimal(d.year, 4) + "_" + PadDecimal(d.month, 2) + "_" + PadDecimal(d.day, 2) + "_" + PadDecimal(d.hour, 2)
  }

  /** Reads the fixed-width `%Y%m%d%H` form back. */
  function DecodeCompact(s: string): Option<DateTime> {
    if |s| == 10 && AllDigits(s) then
      Some(DateTime(DigitsValue(s[..4]), DigitsValue(s[4..6]), DigitsValue(s[6..8]), DigitsValue(s[8..])))
    else None
  }

  /** The `%Y%m%d%H` form is ten digits and names exactly the instant it came from. */
  lemma FormatCompactRoundTrip(d: Instant)
    ensures |FormatCompact(d)| == 10
    ensures DecodeCompact(FormatCompact(d)) == Some(d)
  {
    var y, m, dd, h := PadDecimal(d.year, 4), PadDecimal(d.month, 2), PadDecimal(d.day, 2), PadDecimal(d.hour, 2);
    assert FormatCompact(d) == y + m + dd + h;
    DecodeDigits(y, m, dd, h);
    PadDecimalRoundTrip(d.year, 4);
    PadDecimalRoundTrip(d.month, 2);
    PadDecimalRoundTrip(d.day, 2);
    PadDecimalRoundTrip(d.hour, 2);
  }

  lemma DecodeDigits(y: string, m: string, d: string, h: string)
    requires |y| == 4 && |m| == 2 && |d| == 2 && |h| == 2
    requires AllDigits(y) && AllDigits(m) && AllDigits(d) && AllDigits(h)
    ensures DecodeCompact(y + m + d + h) ==
      Some(DateTime(DigitsValue(y), DigitsValue(m), DigitsValue(d), DigitsValue(h)))
  {
    AllDigitsConcat(y, m);
    AllDigitsConcat(y + m, d);
    AllDigitsConcat(y + m + d, h);
    FourSlices(y, m, d, h);
  }

  lemma FourSlices(a: string, b: string, c: string, e: string)
    requires |a| == 4 && |b| == 2 && |c| == 2 && |e| == 2
    ensures (a + b + c + e)[..4] == a
    ensures (a + b + c + e)[4..6] == b
    ensures (a + b + c + e)[6..8] == c
    ensures (a + b + c + e)[8..] == e
  {
  }
}

=== FILE: dicts.dfy ===
/** Python's `dict` with string keys: entries kept in insertion order, where
    assigning to a present key replaces its value in place. */
module Dicts {
  import opened Base

  type Dict<V> = seq<(string, V)>

  predicate HasKey<V>(d: Dict<V>, k: string) {
    exists i :: 0 <= i < |d| && d[i].0 == k
  }

  /** The shape every dict has: no key twice. */
  predicate UniqueKeys<V>(d: Dict<V>) {
    forall i, j :: 0 <= i < j < |d| ==> d[i].0 != d[j].0
  }

  /** `d.get(k)`. */
  function Get<V>(d: Dict<V>, k: string): (r: Option<V>)
    ensures r.Some? <==> HasKey(d, k)
  {
    if |d| == 0 then None
    else if d[0].0 == k then Some(d[0].1)
    else
      assert HasKey(d, k) ==> HasKey(d[1..], k) by {
        if HasKey(d, k) {
          var i :| 0 <= i < |d| && d[i].0 == k;
          assert d[1..][i - 1] == d[i];
        }
      }
      Get(d[1..], k)
  }

  /** `d[k] = v`. */
  function Put<V>(d: Dict<V>, k: string, v: V): (r: Dict<V>)
    ensures forall k' :: Get(r, k') == if k' == k then Some(v) else Get(d, k')
    ensures HasKey(d, k) ==> |r| == |d| && forall i :: 0 <= i < |d| ==> r[i].0 == d[i].0
    ensures !HasKey(d, k) ==> r == d + [(k, v)]
    ensures UniqueKeys(d) ==> UniqueKeys(r)
  {
    if |d| == 0 then
      GetCons((k, v), []);
      ConsUnique((k, v), []);
      [(k, v)]
    else
      assert d == [d[0]] + d[1..];
      GetCons(d[0], d[1..]);
      TailUnique(d);
      if d[0].0 == k then
        GetCons((k, v), d[1..]);
        ConsUnique((k, v), d[1..]);
        [(k, v)] + d[1..]
      else
        var rest := Put(d[1..], k, v);
        TailKeys(d, k);
        GetCons(d[0], rest);
        ConsUnique(d[0], rest);
        [d[0]] + rest
  }

  lemma GetCons<V>(x: (string, V), rest: Dict<V>)
    ensures forall k' :: Get([x] + rest, k') == if x.0 == k' then Some(x.1) else Get(rest, k')
  {
    assert ([x] + rest)[1..] == rest;
  }

  lemma TailKeys<V>(d: Dict<V>, k: string)
    requires |d| > 0 && d[0].0 != k
    ensures HasKey(d, k) <==> HasKey(d[1..], k)
  {
    if HasKey(d, k) {
      var i :| 0 <= i < |d| && d[i].0 == k;
      assert d[1..][i - 1] == d[i];
    }
    if HasKey(d[1..], k) {
      var i :| 0 <= i < |d| - 1 && d[1..][i].0 == k;
      assert d[i + 1].0 == k;
    }
  }

  lemma TailUnique<V>(d: Dict<V>)
    requires |d| > 0
    ensures UniqueKeys(d) ==> UniqueKeys(d[1..]) && !HasKey(d[1..], d[0].0)
  {
    if UniqueKeys(d) {
      forall a, b | 0 <= a < b < |d| - 1
        ensures d[1..][a].0 != d[1..][b].0
      {
        assert d[1..][a] == d[a + 1] && d[1..][b] == d[b + 1];
      }
      if HasKey(d[1..], d[0].0) {
        var i :| 0 <= i < |d| - 1 && d[1..][i].0 == d[0].0;
        assert false;
      }
    }
  }

  lemma ConsUnique<V>(x: (string, V), rest: Dict<V>)
    ensures UniqueKeys(rest) && !HasKey(rest, x.0) ==> UniqueKeys([x] + rest)
  {
    if UniqueKeys(rest) && !HasKey(rest, x.0) {
      forall a, b | 0 <= a < b < |rest| + 1
        ensures ([x] + rest)[a].0 != ([x] + rest)[b].0
      {
        assert ([x] + rest)[b] == rest[b - 1];
        if a > 0 {
          assert ([x] + rest)[a] == rest[a - 1];
        }
      }
    }
  }

  /** Assigning to the last key replaces that entry's value and nothing else. */
  lemma {:induction false} PutLastKey<V>(front: Dict<V>, k: string, previous: V, v: V)
    requires !HasKey(front, k)
    ensures Put(front + [(k, previous)], k, v) == front + [(k, v)]
    decreases |front|
  {
    var d := front + [(k, previous)];
    if |front| > 0 {
      assert front[0].0 != k;
      assert d[0] == front[0] && d[1..] == front[1..] + [(k, previous)];
      TailKeys(front, k);
      PutStep(d, k, v);
      PutLastKey(front[1..], k, previous, v);
      assert front == [front[0]] + front[1..];
    } else {
      assert d == [(k, previous)];
    }
  }

  /** Assigning to a key other than the first entry's keeps that entry in front. */
  lemma PutStep<V>(d: Dict<V>, k: string, v: V)
    requires |d| > 0 && d[0].0 != k
    ensures Put(d, k, v) == [d[0]] + Put(d[1..], k, v)
  {
  }

  /** In a dict without repeated keys, every entry is what `d[k]` finds. */
  lemma {:induction false} GetEntry<V>(d: Dict<V>, i: nat)
    requires UniqueKeys(d) && i < |d|
    ensures Get(d, d[i].0) == Some(d[i].1)
    decreases i
  {
    if i > 0 {
      assert d[0].0 != d[i].0;
      assert d[1..][i - 1] == d[i];
      assert UniqueKeys(d[1..]) by {
        forall a, b | 0 <= a < b < |d| - 1
          ensures d[1..][a].0 != d[1..][b].0
        {
          assert d[1..][a] == d[a + 1] && d[1..][b] == d[b + 1];
        }
      }
      GetEntry(d[1..], i - 1);
    }
  }
}

=== FILE: gdas_extraction.dfy ===
/** The wgrib2 extraction step of `GFSDataProcessor.process_data_with_wgrib2`:
    the table of (file extension, variable, level patterns) built from the
    requested forecast codes, the `-nc_nlev` count derived from a level
    pattern, and the walk over the downloaded tree with its
    "first time step only" rule. The GRIB and NetCDF content is opaque: a
    dataset is identified by the NetCDF file wgrib2 writes. */
module GdasExtraction {
  import opened Base
  import opened Strings
  import opened Paths
  import opened Sorting
  import opened Dicts

  /** One variable's entry: its level patterns and whether only the first time step is kept. */
  datatype VarSpec = VarSpec(levels: seq<string>, firstStepOnly: bool)

  /** Extension -> (variable pattern -> spec), in insertion order. */
  type Table = Dict<Dict<VarSpec>>

  const Surface := ":surface:"
  const AboveGround := " m above ground:"
  const TwoMetre := ":2" + AboveGround
  const MeanSeaLevel := ":mean sea level:"
  const TenMetre := ":10" + AboveGround

  const Geopotential := ":HGT:"
  const Temperature := ":TMP:"
  const SeaLevelPressure := ":PRMSL:"
  const Wind := ":VGRD|UGRD:"
  const UpperAir := ":SPFH|VVEL|VGRD|UGRD|HGT|TMP:"
  const LandMask := ":LAND:"
  const Precipitation := "^(597):"

  /** The variables whose dataset is kept only once, at its first time step. */
  const FlagVariables := [LandMask, Geopotential]

  /** The 13 pressure levels of the default configuration, in hPa. */
  const Levels13: seq<nat> := [50, 100, 150, 200, 250, 300, 400, 500, 600, 700, 850, 925, 1000]

  /** The 37-level configuration's levels found in the `pgrb2` files. */
  const Levels37Primary: seq<nat> :=
    [1, 2, 3, 5, 7, 10, 20, 30, 50, 70, 100, 150, 200, 250, 300, 350, 400, 450, 500, 550, 600,
     650, 700, 750, 800, 850, 900, 925, 950, 975, 1000]

  /** The 37-level configuration's levels only the `pgrb2b` files carry. */
  const Levels37Secondary: seq<nat> := [125, 175, 225, 775, 825, 875]

  /** The full 37-level list, as the pygrib path writes it. */
  const Levels37: seq<nat> :=
    [1, 2, 3, 5, 7, 10, 20, 30, 50, 70, 100, 125, 150, 175, 200, 225, 250, 300, 350, 400, 450, 500,
     550, 600, 650, 700, 750, 775, 800, 825, 850, 875, 900, 925, 950, 975, 1000]

  function LevelNames(ns: seq<nat>): (r: seq<string>)
    ensures |r| == |ns|
    ensures forall i :: 0 <= i < |ns| ==> r[i] == NatToString(ns[i])
  {
    seq(|ns|, i requires 0 <= i < |ns| => NatToString(ns[i]))
  }

  /** The wgrib2 regex `:(l1|l2|...) mb:` selecting a list of pressure levels. */
  function PressurePattern(ns: seq<nat>): string {
    ":(" + JoinWith(LevelNames(ns), "|") + ") mb:"
  }

  /** `len(re.findall(r'\d+', level))`: the `-nc_nlev` value handed to wgrib2. */
  function LevelCount(level: string): nat {
    |DigitRuns(level)|
  }

  lemma {:induction false} JoinedRuns(ns: seq<nat>, t: string)
    requires |ns| > 0
    requires |t| == 0 || !IsDigit(t[0])
    ensures DigitRuns(JoinWith(LevelNames(ns), "|") + t) == ns + DigitRuns(t)
    decreases |ns|
  {
    var names := LevelNames(ns);
    var first := NatToString(ns[0]);
    NatToStringRoundTrip(ns[0]);
    if |ns| == 1 {
      RunsLeadingNumber(first, t);
    } else {
      var rest := JoinWith(names[1..], "|");
      assert names[1..] == LevelNames(ns[1..]);
      assert JoinWith(names, "|") == first + "|" + rest;
      RunThenSep(first, rest, t);
      JoinedRuns(ns[1..], t);
      assert ns == [ns[0]] + ns[1..];
    }
  }

  lemma RunThenSep(first: string, rest: string, t: string)
    requires |first| > 0 && AllDigits(first)
    ensures DigitRuns(first + "|" + rest + t) == [DigitsValue(first)] + DigitRuns(rest + t)
  {
    assert first + "|" + rest + t == first + ("|" + (rest + t));
    RunsLeadingNumber(first, "|" + (rest + t));
    RunsSkipNonDigits("|", rest + t);
  }

  /** The digit runs of a pressure pattern are exactly its levels, so `-nc_nlev` is the number of levels. */
  lemma PressurePatternRuns(ns: seq<nat>)
    requires |ns| > 0
    ensures DigitRuns(PressurePattern(ns)) == ns
    ensures LevelCount(PressurePattern(ns)) == |ns|
  {
    var tail := ") mb:";
    assert NoDigits(tail);
    RunsSkipNonDigits(tail, "");
    assert tail + "" == tail;
    JoinedRuns(ns, tail);
    assert NoDigits(":(");
    assert PressurePattern(ns) == ":(" + (JoinWith(LevelNames(ns), "|") + tail);
    RunsSkipNonDigits(":(", JoinWith(LevelNames(ns), "|") + tail);
  }

  /** The wgrib2 level counts of the three pressure patterns: 13, 31 and 6. */
  lemma PressureLevelCounts()
    ensures LevelCount(PressurePattern(Levels13)) == 13
    ensures LevelCount(PressurePattern(Levels37Primary)) == 31
    ensures LevelCount(PressurePattern(Levels37Secondary)) == 6
  {
    PressurePatternRuns(Levels13);
    PressurePatternRuns(Levels37Primary);
    PressurePatternRuns(Levels37Secondary);
  }

  /** A level pattern without digits gives `-nc_nlev 0`. */
  lemma {:induction false} DigitFreeLevelCount(level: string)
    requires NoDigits(level)
    ensures LevelCount(level) == 0
  {
    RunsSkipNonDigits(level, "");
    assert level + "" == level;
  }

  lemma SurfaceLevelCounts()
    ensures LevelCount(Surface) == 0
    ensures LevelCount(MeanSeaLevel) == 0
  {
    DigitFreeLevelCount(Surface);
    DigitFreeLevelCount(MeanSeaLevel);
  }

  /** The two 37-level patterns select disjoint levels which together are the 37 levels. */
  lemma Levels37Split()
    ensures forall n :: n in Levels37Primary ==> n !in Levels37Secondary
    ensures forall n :: n in Levels37 <==> n in Levels37Primary || n in Levels37Secondary
    ensures |Levels37Primary| + |Levels37Secondary| == |Levels37|
  {
  }

  /** Codes whose file carries the analysis variables. */
  const AnalysisCodes := ["f000", "f001", "f002", "f003", "f004", "f005"]

  /** Codes whose file carries the land mask and accumulated precipitation. */
  const AccumulationCodes := ["f006", "f007", "f008", "f009", "f010", "f011"]

  /** `.pgrb2.0p25.<code>`. */
  function PrimaryExt(code: string): string {
    ".pgrb2.0p25." + code
  }

  /** `.pgrb2b.0p25.<code>`. */
  function SecondaryExt(code: string): string {
    ".pgrb2b.0p25." + code
  }

  lemma ExtensionsDistinct(a: string, b: string)
    ensures PrimaryExt(a) == PrimaryExt(b) <==> a == b
    ensures SecondaryExt(a) == SecondaryExt(b) <==> a == b
    ensures PrimaryExt(a) != SecondaryExt(b)
  {
    if PrimaryExt(a) == PrimaryExt(b) {
      assert a == PrimaryExt(a)[12..];
    }
    if SecondaryExt(a) == SecondaryExt(b) {
      assert a == SecondaryExt(a)[13..];
    }
    assert PrimaryExt(a)[6] != SecondaryExt(b)[6];
  }

  /** The four analysis variables before the pressure group. */
  function AnalysisSurfaceVars(): Dict<VarSpec> {
    [ (Geopotential, VarSpec([Surface], true)),
      (Temperature, VarSpec([TwoMetre], false)),
      (SeaLevelPressure, VarSpec([MeanSeaLevel], false)),
      (Wind, VarSpec([TenMetre], false)) ]
  }

  /** The variables of an `f000`..`f005` file, with the pressure group selecting `levels`. */
  function AnalysisVarsWith(levels: seq<nat>): Dict<VarSpec> {
    AnalysisSurfaceVars() + [(UpperAir, VarSpec([PressurePattern(levels)], false))]
  }

  /** The variables of an `f000`..`f005` file as first entered, with the 13-level pattern. */
  function AnalysisVars(): Dict<VarSpec> {
    AnalysisVarsWith(Levels13)
  }

  /** The variables of an `f006`..`f011` file. */
  function AccumulationVars(): Dict<VarSpec> {
    [ (LandMask, VarSpec([Surface], true)),
      (Precipitation, VarSpec([Surface], false)) ]
  }

  /** The `pgrb2b` companion entry in 37-level mode. */
  function SecondaryVars(): Dict<VarSpec> {
    [(UpperAir, VarSpec([PressurePattern(Levels37Secondary)], false))]
  }

  /** The first loop over `forecast_hours`: one entry per recognised code, later duplicates replacing earlier ones in place. */
  function FirstPass(codes: seq<string>): Table
    decreases |codes|
  {
    if |codes| == 0 then []
    else
      var t := FirstPass(codes[..|codes| - 1]);
      var code := codes[|codes| - 1];
      if code in AnalysisCodes then Put(t, PrimaryExt(code), AnalysisVars())
      else if code in AccumulationCodes then Put(t, PrimaryExt(code), AccumulationVars())
      else t
  }

  /** The 37-level loop: the pressure group of each analysis entry gets the 31-level pattern, and a `pgrb2b` entry is added. */
  function SecondPass(t: Table, codes: seq<string>): Table
    decreases |codes|
  {
    if |codes| == 0 then t
    else
      var t' := SecondPass(t, codes[..|codes| - 1]);
      var code := codes[|codes| - 1];
      if code in AnalysisCodes then
        var vars := Get(t', PrimaryExt(code)).GetOr([]);
        var t'' := Put(t', PrimaryExt(code), Put(vars, UpperAir, VarSpec([PressurePattern(Levels37Primary)], false)));
        Put(t'', SecondaryExt(code), SecondaryVars())
      else t'
  }

  /** `variables_to_extract` for the given codes and level count. */
  function BuildTable(codes: seq<string>, numLevels: int): Table {
    var t := FirstPass(codes);
    if numLevels == 37 then SecondPass(t, codes) else t
  }

  /** The analysis variables once the 37-level loop has rewritten their pressure group. */
  function AnalysisVars37(): Dict<VarSpec> {
    AnalysisVarsWith(Levels37Primary)
  }

  /** The code an extension names, when it is `.pgrb2.0p25.<code>`. */
  predicate IsPrimaryExt(key: string) {
    |key| >= 12 && key == PrimaryExt(key[12..])
  }

  /** The code an extension names, when it is `.pgrb2b.0p25.<code>`. */
  predicate IsSecondaryExt(key: string) {
    |key| >= 13 && key == SecondaryExt(key[13..])
  }

  /** What the table holds under `key`, read off the key itself: which code it names and which group that code is in. */
  function ExpectedEntry(codes: seq<string>, numLevels: int, key: string): Option<Dict<VarSpec>> {
    if IsPrimaryExt(key) && key[12..] in codes && key[12..] in AnalysisCodes then
      Some(if numLevels == 37 then AnalysisVars37() else AnalysisVars())
    else if IsPrimaryExt(key) && key[12..] in codes && key[12..] in AccumulationCodes then
      Some(AccumulationVars())
    else if numLevels == 37 && IsSecondaryExt(key) && key[13..] in codes && key[13..] in AnalysisCodes then
      Some(SecondaryVars())
    else None
  }

  lemma PrimaryExtNames(key: string, code: string)
    ensures key == PrimaryExt(code) <==> IsPrimaryExt(key) && key[12..] == code
    ensures key == SecondaryExt(code) <==> IsSecondaryExt(key) && key[13..] == code
  {
  }

  lemma {:induction false} FirstPassEntries(codes: seq<string>, key: string)
    ensures Get(FirstPass(codes), key) ==
      if IsPrimaryExt(key) && key[12..] in codes && key[12..] in AnalysisCodes then Some(AnalysisVars())
      else if IsPrimaryExt(key) && key[12..] in codes && key[12..] in AccumulationCodes then Some(AccumulationVars())
      else None
    decreases |codes|
  {
    if |codes| > 0 {
      var init := codes[..|codes| - 1];
      var last := codes[|codes| - 1];
      assert codes == init + [last];
      FirstPassEntries(init, key);
      PrimaryExtNames(key, last);
    }
  }

  /** Rewriting the pressure group of an analysis entry swaps its level list and nothing else. */
  lemma UpperAirRewrite(levels: seq<nat>, levels': seq<nat>)
    ensures Put(AnalysisVarsWith(levels), UpperAir, VarSpec([PressurePattern(levels')], false)) == AnalysisVarsWith(levels')
  {
    var front := AnalysisSurfaceVars();
    VariablesDiffer();
    assert !HasKey(front, UpperAir);
    PutLastKey(front, UpperAir, VarSpec([PressurePattern(levels)], false), VarSpec([PressurePattern(levels')], false));
  }

  lemma {:induction false} SecondPassEntries(all: seq<string>, n: nat, key: string)
    requires n <= |all|
    ensures Get(SecondPass(FirstPass(all), all[..n]), key) ==
      if IsPrimaryExt(key) && key[12..] in all[..n] && key[12..] in AnalysisCodes then Some(AnalysisVars37())
      else if IsSecondaryExt(key) && key[13..] in all[..n] && key[13..] in AnalysisCodes then Some(SecondaryVars())
      else Get(FirstPass(all), key)
    decreases n
  {
    if n > 0 {
      var codes := all[..n];
      var init := all[..n - 1];
      var last := all[n - 1];
      assert codes[..|codes| - 1] == init;
      assert codes == init + [last];
      SecondPassEntries(all, n - 1, key);
      PrimaryExtNames(key, last);
      if last in AnalysisCodes {
        SecondPassEntries(all, n - 1, PrimaryExt(last));
        FirstPassEntries(all, PrimaryExt(last));
        PrimaryExtNames(PrimaryExt(last), last);
        assert last in all;
        UpperAirRewrite(Levels13, Levels37Primary);
        UpperAirRewrite(Levels37Primary, Levels37Primary);
        ExtensionsDistinct(last, last);
        if IsSecondaryExt(PrimaryExt(last)) {
          ExtensionsDistinct(last, PrimaryExt(last)[13..]);
        }
        if IsPrimaryExt(key) {
          ExtensionsDistinct(key[12..], last);
        }
      }
    }
  }

  /** The table holds, under each key, exactly the entry the key's code and the level count call for, and nothing else. */
  lemma BuildTableEntries(codes: seq<string>, numLevels: int, key: string)
    ensures Get(BuildTable(codes, numLevels), key) == ExpectedEntry(codes, numLevels, key)
  {
    FirstPassEntries(codes, key);
    if numLevels == 37 {
      SecondPassEntries(codes, |codes|, key);
      assert codes[..|codes|] == codes;
      if IsSecondaryExt(key) && IsPrimaryExt(key) {
        ExtensionsDistinct(key[12..], key[13..]);
      }
    }
  }

  lemma {:induction false} FirstPassUnique(codes: seq<string>)
    ensures UniqueKeys(FirstPass(codes))
    decreases |codes|
  {
    if |codes| > 0 {
      FirstPassUnique(codes[..|codes| - 1]);
    }
  }

  lemma {:induction false} SecondPassUnique(t: Table, codes: seq<string>)
    requires UniqueKeys(t)
    ensures UniqueKeys(SecondPass(t, codes))
    decreases |codes|
  {
    if |codes| > 0 {
      SecondPassUnique(t, codes[..|codes| - 1]);
    }
  }

  /** Each extension occurs once in the table, so the walk reads each (extension, variable) entry once per folder. */
  lemma BuildTableUnique(codes: seq<string>, numLevels: int)
    ensures UniqueKeys(BuildTable(codes, numLevels))
  {
    FirstPassUnique(codes);
    if numLevels == 37 {
      SecondPassUnique(FirstPass(codes), codes);
    }
  }

  /** A digit run between two digit-free strings is the only run. */
  lemma SingleRun(p: string, d: string, q: string)
    requires NoDigits(p) && NoDigits(q) && |d| > 0 && AllDigits(d)
    ensures DigitRuns(p + d + q) == [DigitsValue(d)]
  {
    assert p + d + q == p + (d + q);
    RunsSkipNonDigits(p, d + q);
    RunsLeadingNumber(d, q);
    assert q + "" == q;
    RunsSkipNonDigits(q, "");
  }

  /** `:<n> m above ground:` names one level. */
  lemma HeightLevelCount(d: string)
    requires |d| > 0 && AllDigits(d)
    ensures LevelCount(":" + d + AboveGround) == 1
  {
    assert NoDigits(":");
    assert NoDigits(AboveGround);
    SingleRun(":", d, AboveGround);
  }

  lemma HeightLevelCounts()
    ensures LevelCount(TwoMetre) == 1
    ensures LevelCount(TenMetre) == 1
  {
    HeightLevelCount("2");
    assert TwoMetre == ":" + "2" + AboveGround;
    HeightLevelCount("10");
    assert TenMetre == ":" + "10" + AboveGround;
  }

  /** The `-nc_nlev` value each table entry calls for: the number of pressure levels its pattern selects, one for a
      height above ground, none for the surface and sea level. */
  function ExpectedLevelCount(ext: string, variable: string, numLevels: int): nat {
    if variable == UpperAir then (if IsSecondaryExt(ext) then 6 else if numLevels == 37 then 31 else 13)
    else if variable == Temperature || variable == Wind then 1
    else 0
  }

  lemma VariablesDiffer()
    ensures UpperAir != Geopotential && UpperAir != Temperature && UpperAir != SeaLevelPressure && UpperAir != Wind
    ensures UpperAir != LandMask && UpperAir != Precipitation
    ensures Geopotential != Temperature && Geopotential != Wind && SeaLevelPressure != Temperature && SeaLevelPressure != Wind
    ensures LandMask != Temperature && LandMask != Wind && Precipitation != Temperature && Precipitation != Wind
  {
    assert UpperAir[1] == 'S' && Geopotential[1] == 'H' && Temperature[1] == 'T';
    assert SeaLevelPressure[1] == 'P' && Wind[1] == 'V' && LandMask[1] == 'L' && Precipitation[1] == '(';
  }

  /** The level counts of the four analysis groups that precede the pressure group. */
  lemma SurfaceVarsLevelCount(j: nat, ext: string, numLevels: int, level: string)
    requires j < 4 && level in AnalysisSurfaceVars()[j].1.levels
    ensures LevelCount(level) == ExpectedLevelCount(ext, AnalysisSurfaceVars()[j].0, numLevels)
  {
    VariablesDiffer();
    if j == 0 || j == 2 {
      SurfaceLevelCounts();
    } else {
      HeightLevelCounts();
    }
  }

  /** The level counts of the analysis groups: the pressure group names its levels, the others as expected. */
  lemma AnalysisEntryLevelCount(levels: seq<nat>, ext: string, numLevels: int, j: nat, level: string)
    requires |levels| > 0
    requires j < |AnalysisVarsWith(levels)| && level in AnalysisVarsWith(levels)[j].1.levels
    ensures LevelCount(level) ==
      if j == 4 then |levels| else ExpectedLevelCount(ext, AnalysisVarsWith(levels)[j].0, numLevels)
  {
    if j < 4 {
      assert AnalysisVarsWith(levels)[j] == AnalysisSurfaceVars()[j];
      SurfaceVarsLevelCount(j, ext, numLevels, level);
    } else {
      PressurePatternRuns(levels);
    }
  }

  lemma AccumulationEntryLevelCount(ext: string, numLevels: int, j: nat, level: string)
    requires j < |AccumulationVars()| && level in AccumulationVars()[j].1.levels
    ensures LevelCount(level) == ExpectedLevelCount(ext, AccumulationVars()[j].0, numLevels)
  {
    VariablesDiffer();
    SurfaceLevelCounts();
  }

  /** Every entry of the table is the one its key calls for. */
  lemma TableEntryAt(codes: seq<string>, numLevels: int, i: nat)
    requires i < |BuildTable(codes, numLevels)|
    ensures ExpectedEntry(codes, numLevels, BuildTable(codes, numLevels)[i].0) == Some(BuildTable(codes, numLevels)[i].1)
  {
    var t := BuildTable(codes, numLevels);
    BuildTableUnique(codes, numLevels);
    GetEntry(t, i);
    BuildTableEntries(codes, numLevels, t[i].0);
  }

  /** The groups of an expected entry hand wgrib2 the `-nc_nlev` their extension and variable call for. */
  lemma ExpectedEntryLevelCount(codes: seq<string>, numLevels: int, ext: string, j: nat, level: string)
    requires ExpectedEntry(codes, numLevels, ext).Some?
    requires j < |ExpectedEntry(codes, numLevels, ext).value|
    requires level in ExpectedEntry(codes, numLevels, ext).value[j].1.levels
    ensures LevelCount(level) == ExpectedLevelCount(ext, ExpectedEntry(codes, numLevels, ext).value[j].0, numLevels)
  {
    var vars := ExpectedEntry(codes, numLevels, ext).value;
    if IsPrimaryExt(ext) && IsSecondaryExt(ext) {
      ExtensionsDistinct(ext[12..], ext[13..]);
    }
    if IsPrimaryExt(ext) && vars == AccumulationVars() {
      AccumulationEntryLevelCount(ext, numLevels, j, level);
    } else if IsPrimaryExt(ext) {
      var levels := if numLevels == 37 then Levels37Primary else Levels13;
      assert vars == AnalysisVarsWith(levels);
      AnalysisEntryLevelCount(levels, ext, numLevels, j, level);
    } else {
      VariablesDiffer();
      PressureLevelCounts();
    }
  }

  /** Every level pattern the table asks wgrib2 for is handed the `-nc_nlev` its entry calls for. */
  lemma TableLevelCounts(codes: seq<string>, numLevels: int, i: nat, j: nat, level: string)
    requires i < |BuildTable(codes, numLevels)|
    requires j < |BuildTable(codes, numLevels)[i].1|
    requires level in BuildTable(codes, numLevels)[i].1[j].1.levels
    ensures LevelCount(level) ==
      ExpectedLevelCount(BuildTable(codes, numLevels)[i].0, BuildTable(codes, numLevels)[i].1[j].0, numLevels)
  {
    TableEntryAt(codes, numLevels, i);
    ExpectedEntryLevelCount(codes, numLevels, BuildTable(codes, numLevels)[i].0, j, level);
  }
}

=== FILE: gdas_planning.dfy ===
/** The naming and selection rules of the GDAS pre-processor `GFSDataProcessor`:
    which forecast files a cycle consists of, which run instants a download
    covers, and what the combined GraphCast input file is called. The
    extraction table and the walk over the downloaded tree live in
    `GdasExtraction`. */
module GdasPlanning {
  import opened Base
  import opened Strings
  import opened Calendar
  import opened Paths

  const BucketName := "noaa-gfs-bdp-pds"

  /** Number of forecast offsets per cycle, `range(0, 12)`. */
  const NumOffsets := 12

  /** `f"f{h:03d}"`: the forecast-offset code of `h` hours. */
  function ForecastCode(h: nat): string
    requires h < 1000
  {
    "f" + PadDecimal(h, 3)
  }

  /** `[f"f{h:03d}" for h in range(0, 12)]`. */
  function ForecastCodes(): seq<string> {
    seq(NumOffsets, h requires 0 <= h < NumOffsets => ForecastCode(h))
  }

  /** Reads an offset code back to its hour count. */
  function ParseForecastCode(code: string): Option<nat> {
    if |code| == 4 && code[0] == 'f' then ParseNat(code[1..]) else None
  }

  lemma ForecastCodeRoundTrip(h: nat)
    requires h < 1000
    ensures |ForecastCode(h)| == 4
    ensures ParseForecastCode(ForecastCode(h)) == Some(h)
  {
    PadDecimalRoundTrip(h, 3);
    assert ForecastCode(h)[1..] == PadDecimal(h, 3);
  }

  /** The twelve codes are the offsets 0..11, three digits each, all different. */
  lemma ForecastCodesAreOffsets()
    ensures |ForecastCodes()| == NumOffsets
    ensures forall h :: 0 <= h < NumOffsets ==>
      |ForecastCodes()[h]| == 4 && ParseForecastCode(ForecastCodes()[h]) == Some(h)
    ensures forall i, j :: 0 <= i < j < NumOffsets ==> ForecastCodes()[i] != ForecastCodes()[j]
  {
    forall h | 0 <= h < NumOffsets
      ensures |ForecastCodes()[h]| == 4 && ParseForecastCode(ForecastCodes()[h]) == Some(h)
    {
      ForecastCodeRoundTrip(h);
    }
  }

  const PrimaryPrefix := "pgrb2.0p25."
  const SecondaryPrefix := "pgrb2b.0p25."

  /** `self.file_formats`: one primary format per code, plus one secondary per code in 37-level mode. */
  function FileFormats(numLevels: int): seq<string> {
    var primary := seq(NumOffsets, h requires 0 <= h < NumOffsets => PrimaryPrefix + ForecastCode(h));
    var secondary := seq(NumOffsets, h requires 0 <= h < NumOffsets => SecondaryPrefix + ForecastCode(h));
    if numLevels == 37 then primary + secondary else primary
  }

  lemma PrimaryIsNotSecondary(x: string, y: string)
    ensures PrimaryPrefix + x != SecondaryPrefix + y
  {
    assert (PrimaryPrefix + x)[5] == '.';
    assert (SecondaryPrefix + y)[5] == 'b';
  }

  /** 12 formats, or 24 with 37 levels: every code has its primary format and, exactly in 37-level mode, its secondary one. */
  lemma FileFormatsPerCode(numLevels: int)
    ensures |FileFormats(numLevels)| == if numLevels == 37 then 24 else 12
    ensures forall h :: 0 <= h < NumOffsets ==> PrimaryPrefix + ForecastCode(h) in FileFormats(numLevels)
    ensures forall h :: 0 <= h < NumOffsets ==>
      (SecondaryPrefix + ForecastCode(h) in FileFormats(numLevels) <==> numLevels == 37)
    ensures forall f :: f in FileFormats(numLevels) ==>
      exists h :: 0 <= h < NumOffsets && (f == PrimaryPrefix + ForecastCode(h) || f == SecondaryPrefix + ForecastCode(h))
  {
    var fs := FileFormats(numLevels);
    forall h | 0 <= h < NumOffsets
      ensures PrimaryPrefix + ForecastCode(h) in fs
      ensures SecondaryPrefix + ForecastCode(h) in fs <==> numLevels == 37
    {
      assert fs[h] == PrimaryPrefix + ForecastCode(h);
      if numLevels == 37 {
        assert fs[NumOffsets + h] == SecondaryPrefix + ForecastCode(h);
      } else {
        forall k | 0 <= k < |fs|
          ensures fs[k] != SecondaryPrefix + ForecastCode(h)
        {
          PrimaryIsNotSecondary(ForecastCode(k), ForecastCode(h));
        }
      }
    }
  }

  /** `self.local_base_directory`: `<download dir or cwd>/noaa-gfs-bdp-pds_<levels>`. */
  function LocalBaseDirectory(downloadDir: Option<string>, cwd: string, numLevels: int): string {
    Join(downloadDir.GetOr(cwd), BucketName + "_" + IntToString(numLevels))
  }

  /** The base directory sits in the download directory (the working directory when none is given) and is named after
      the bucket and the level count. */
  lemma LocalBaseDirectoryParts(downloadDir: Option<string>, cwd: string, numLevels: int)
    requires var d := downloadDir.GetOr(cwd); |d| > 0 && d[|d| - 1] != '/'
    ensures Name(LocalBaseDirectory(downloadDir, cwd, numLevels)) == BucketName + "_" + IntToString(numLevels)
    ensures Parent(LocalBaseDirectory(downloadDir, cwd, numLevels)) == downloadDir.GetOr(cwd)
  {
    var levels := IntToString(numLevels);
    var name := BucketName + "_" + levels;
    assert '/' !in levels by {
      var digits := NatToString(if numLevels < 0 then -numLevels else numLevels);
      forall k | 0 <= k < |levels|
        ensures levels[k] != '/'
      {
        if numLevels < 0 {
          assert levels == "-" + digits;
          if k > 0 {
            assert levels[k] == digits[k - 1];
          }
        } else {
          assert IsDigit(digits[k]);
        }
      }
    }
    forall k | 0 <= k < |name|
      ensures name[k] != '/'
    {
      if k > |BucketName| {
        assert name[k] == levels[k - |BucketName| - 1];
      }
    }
    if downloadDir.GetOr(cwd) == "." {
      NameParentOfDotJoin(name);
    } else {
      NameParentOfJoin(downloadDir.GetOr(cwd), name);
    }
  }

  /** One pass of the download loop: the run instant and what is handed to the downloader. */
  datatype Visit = Visit(instant: Instant, dateStr: string, hourStr: string, directory: string)

  /** What `download_data` does with one instant: `%Y%m%d`, `%H` and `base/<date>/<hour>`. */
  function VisitAt(base: string, d: Instant): Visit {
    Visit(d, FormatYmd(d), FormatHour(d), Join(Join(base, FormatYmd(d)), FormatHour(d)))
  }

  /** The result of `download_data`: the visits made, and whether the final `+= timedelta(hours=6)` raised OverflowError. */
  datatype DownloadRun = DownloadRun(visits: seq<Visit>, overflowed: bool)

  /** Number of 6-hourly instants from `start` up to and including `end`. */
  function VisitCount(start: Instant, end: Instant): nat {
    if HoursOf(end) < HoursOf(start) then 0 else (HoursOf(end) - HoursOf(start)) / 6 + 1
  }

  /** An instant past Python's last year is later than every valid instant. */
  lemma BeyondMaxYearIsLater(e: Instant, n: DateTime)
    requires OnCalendar(n) && !IsValid(n)
    ensures HoursOf(e) < HoursOf(n)
  {
    HoursOrderIsFieldOrder(e, n);
  }

  /** The count of 6-hour steps that fit: `n` instants were visited exactly when the last lies at or before `end` and the next one after. */
  lemma VisitCountFromBounds(start: Instant, end: Instant, n: nat)
    requires n == 0 ==> HoursOf(end) < HoursOf(start)
    requires n > 0 ==> HoursOf(start) + 6 * (n - 1) <= HoursOf(end) < HoursOf(start) + 6 * n
    ensures n == VisitCount(start, end)
  {
  }

  /** The loop of `download_data`: the instants `start`, `start + 6h`, ... that are not after `end`, and whether stepping
      past the last one left Python's date range. */
  method SixHourlyInstants(start: Instant, end: Instant) returns (instants: seq<Instant>, overflowed: bool)
    ensures |instants| == VisitCount(start, end)
    ensures forall k :: 0 <= k < |instants| ==> HoursOf(instants[k]) == HoursOf(start) + 6 * k
    ensures forall k :: 0 <= k < |instants| ==> !FieldsBefore(end, instants[k])
    ensures overflowed <==> |instants| > 0 && !IsValid(AddSixHours(instants[|instants| - 1]))
  {
    var current: Instant := start;
    instants := [];
    HoursOrderIsFieldOrder(end, current);
    while !FieldsBefore(end, current)
      invariant HoursOf(current) == HoursOf(start) + 6 * |instants|
      invariant |instants| > 0 ==> current == AddSixHours(instants[|instants| - 1])
      invariant |instants| > 0 ==> HoursOf(instants[|instants| - 1]) <= HoursOf(end)
      invariant SteppedFrom(instants, start, end)
      invariant FieldsBefore(end, current) <==> HoursOf(end) < HoursOf(current)
      decreases HoursOf(end) - HoursOf(current)
    {
      SteppedAppend(instants, start, end, current);
      instants := instants + [current];
      var next := AddSixHours(current);
      if !IsValid(next) {
        BeyondMaxYearIsLater(end, next);
        VisitCountFromBounds(start, end, |instants|);
        return instants, true;
      }
      current := next;
      HoursOrderIsFieldOrder(end, current);
    }
    VisitCountFromBounds(start, end, |instants|);
    return instants, false;
  }

  /** Instant k lies 6k hours after `start` and not after `end`. */
  predicate SteppedFrom(instants: seq<Instant>, start: Instant, end: Instant) {
    forall k :: 0 <= k < |instants| ==> HoursOf(instants[k]) == HoursOf(start) + 6 * k && !FieldsBefore(end, instants[k])
  }

  lemma SteppedAppend(instants: seq<Instant>, start: Instant, end: Instant, current: Instant)
    requires SteppedFrom(instants, start, end)
    requires HoursOf(current) == HoursOf(start) + 6 * |instants| && !FieldsBefore(end, current)
    ensures SteppedFrom(instants + [current], start, end)
  {
    assert forall k :: 0 <= k < |instants| ==> (instants + [current])[k] == instants[k];
  }

  /** `download_data`: one visit per 6-hourly instant from `start` to `end`, each into `base/<date>/<hour>`. */
  method PlanDownloads(start: Instant, end: Instant, base: string) returns (run: DownloadRun)
    ensures |run.visits| == VisitCount(start, end)
    ensures forall k :: 0 <= k < |run.visits| ==> HoursOf(run.visits[k].instant) == HoursOf(start) + 6 * k
    ensures forall k :: 0 <= k < |run.visits| ==> !FieldsBefore(end, run.visits[k].instant)
    ensures forall k :: 0 <= k < |run.visits| ==> run.visits[k] == VisitAt(base, run.visits[k].instant)
    ensures run.overflowed <==>
      |run.visits| > 0 && !IsValid(AddSixHours(run.visits[|run.visits| - 1].instant))
  {
    var instants, overflowed := SixHourlyInstants(start, end);
    return DownloadRun(Visits(base, instants), overflowed);
  }

  /** One visit per instant, in order. */
  function Visits(base: string, instants: seq<Instant>): (r: seq<Visit>)
    ensures |r| == |instants|
    ensures forall k :: 0 <= k < |r| ==> r[k].instant == instants[k] && r[k] == VisitAt(base, instants[k])
  {
    seq(|instants|, k requires 0 <= k < |instants| => VisitAt(base, instants[k]))
  }

  /** `forecast_hours` when `process_data_with_wgrib2` is called without one. */
  const DefaultForecastHours := ["f000", "f006"]

  /** Errors of the output-name step: `start + 6h` beyond year 9999. */
  datatype NameError = DateOverflow

  const NamePrefix := "source-gdas_date-"

  /** The `_fh-<codes>.nc` end of the output name. */
  function HoursTail(hours: seq<string>): string {
    "_fh-" + JoinWith(hours, "_") + ".nc"
  }

  /** Everything after the date in the output name. */
  function NameTail(numLevels: int, steps: nat, hours: seq<string>): string {
    "_res-0.25_levels-" + IntToString(numLevels) + "_steps-" + NatToString(steps) + HoursTail(hours)
  }

  /** `source-gdas_date-<start+6h>_res-0.25_levels-<n>_steps-<k>_fh-<codes>.nc`. */
  function OutputFileName(start: Instant, numLevels: int, steps: nat, forecastHours: Option<seq<string>>): Result<string, NameError> {
    var date := AddSixHours(start);
    if !IsValid(date) then Err(DateOverflow)
    else Ok(NamePrefix + FormatCompact(date) + NameTail(numLevels, steps, forecastHours.GetOr(DefaultForecastHours)))
  }

  /** The date field of the output name decodes to the instant six hours after the start, the resolution, level count
      and step count follow it, and the name always ends in the `_fh-` list of codes (the defaulted pair when none is
      given). */
  lemma OutputFileNameFields(start: Instant, numLevels: int, steps: nat, forecastHours: Option<seq<string>>)
    ensures OutputFileName(start, numLevels, steps, forecastHours).Err? <==> AddSixHours(start).year > MaxYear
    ensures OutputFileName(start, numLevels, steps, forecastHours).Ok? ==>
      var name := OutputFileName(start, numLevels, steps, forecastHours).value;
      && name[..|NamePrefix|] == NamePrefix
      && DecodeCompact(name[|NamePrefix|..|NamePrefix| + 10]).Some?
      && HoursOf(DecodeCompact(name[|NamePrefix|..|NamePrefix| + 10]).value) == HoursOf(start) + 6
      && var tail := HoursTail(forecastHours.GetOr(DefaultForecastHours));
         && |NamePrefix| + 10 + |tail| <= |name|
         && name[|name| - |tail|..] == tail
         && name[|NamePrefix| + 10..|name| - |tail|] ==
              "_res-0.25_levels-" + IntToString(numLevels) + "_steps-" + NatToString(steps)
  {
    var date := AddSixHours(start);
    if IsValid(date) {
      var hours := forecastHours.GetOr(DefaultForecastHours);
      var mid := NameTail(numLevels, steps, hours);
      var name := NamePrefix + FormatCompact(date) + mid;
      FormatCompactRoundTrip(date);
      assert name[|NamePrefix|..|NamePrefix| + 10] == FormatCompact(date);
      var tail := HoursTail(hours);
      var front := "_res-0.25_levels-" + IntToString(numLevels) + "_steps-" + NatToString(steps);
      assert mid == front + tail;
      assert name == (NamePrefix + FormatCompact(date) + front) + tail;
      assert name == (NamePrefix + FormatCompact(date)) + front + tail;
      assert name[|NamePrefix| + 10..|name| - |tail|] == front;
    }
  }

  /** `process_forecast_pairs_with_wgrib2`: the six (fNNN, fNNN+6) code pairs, in order. */
  function ForecastPairs(): seq<(string, string)> {
    seq(6, i requires 0 <= i < 6 => (ForecastCodes()[i], ForecastCodes()[i + 6]))
  }

  /** Six pairs; the second offset is always the first plus six, and each of the twelve codes is used exactly once. */
  lemma ForecastPairsShape()
    ensures |ForecastPairs()| == 6
    ensures forall i :: 0 <= i < 6 ==>
      && ParseForecastCode(ForecastPairs()[i].0) == Some(i)
      && ParseForecastCode(ForecastPairs()[i].1) == Some(i + 6)
    ensures forall h :: 0 <= h < 6 ==> ForecastPairs()[h].0 == ForecastCodes()[h]
    ensures forall h :: 6 <= h < NumOffsets ==> ForecastPairs()[h - 6].1 == ForecastCodes()[h]
    ensures forall i, j :: 0 <= i < 6 && 0 <= j < 6 ==> ForecastPairs()[i].0 != ForecastPairs()[j].1
    ensures forall i, j :: 0 <= i < j < 6 ==>
      ForecastPairs()[i].0 != ForecastPairs()[j].0 && ForecastPairs()[i].1 != ForecastPairs()[j].1
  {
    ForecastCodesAreOffsets();
  }
}

=== FILE: gdas_walk.dfy ===
/** The walk of `process_data_with_wgrib2` over the downloaded tree: date folders
    in sorted order, then the hour folders `00`, `06`, `12`, `18` that exist,
    then every (extension, variable) entry of the extraction table and every
    level pattern of it. Each level pattern becomes one wgrib2 command; which
    of the resulting datasets are kept follows the "first time step only"
    rule for `:HGT:` and `:LAND:`. */
module GdasWalk {
  import opened Base
  import opened Strings
  import opened Paths
  import opened Sorting
  import opened Dicts
  import opened GdasPlanning
  import opened GdasExtraction

  /** The hour folders tried under each date folder, in order. */
  const HourFolders := ["00", "06", "12", "18"]

  /** One (folder, extension, variable) visit of the innermost loop, with the spec it reads. */
  datatype Group = Group(date: string, hour: string, ext: string, variable: string, spec: VarSpec)

  /** One `wgrib2 -nc_nlev <n> <file> -match <variable> -match <level> -netcdf <out>` call; the input is the glob
      pattern the file is looked up with. */
  datatype Command = Command(ext: string, inputPattern: string, nlev: nat, variable: string, level: string, outputFile: string)

  /** One dataset appended to `extracted_datasets`: the NetCDF file it was read from, cut to its first time step or not. */
  datatype Dataset = Dataset(ext: string, variable: string, file: string, firstStepOnly: bool)

  /** The hour folder `base/<date>/<hour>`. */
  function SlotPath(base: string, date: string, hour: string): string {
    Join(Join(base, date), hour)
  }

  /** `(variable, spec)` is an entry of the table under `ext`. */
  predicate InTable(t: Table, ext: string, variable: string, spec: VarSpec) {
    exists i :: 0 <= i < |t| && t[i].0 == ext && (variable, spec) in t[i].1
  }

  function VarGroups(date: string, hour: string, ext: string, vars: Dict<VarSpec>): seq<Group> {
    seq(|vars|, i requires 0 <= i < |vars| => Group(date, hour, ext, vars[i].0, vars[i].1))
  }

  /** The two inner loops over `variables_to_extract.items()` and `variable_data.items()`. */
  function TableGroups(date: string, hour: string, t: Table): seq<Group>
    decreases |t|
  {
    if |t| == 0 then [] else VarGroups(date, hour, t[0].0, t[0].1) + TableGroups(date, hour, t[1..])
  }

  /** The hour loop, skipping hour folders that do not exist. */
  function HourGroups(fs: FileSystem, base: string, date: string, hours: seq<string>, t: Table): seq<Group>
    decreases |hours|
  {
    if |hours| == 0 then []
    else
      (if fs.Exists(SlotPath(base, date, hours[0])) then TableGroups(date, hours[0], t) else [])
      + HourGroups(fs, base, date, hours[1..], t)
  }

  function DateGroups(fs: FileSystem, base: string, dates: seq<string>, t: Table): seq<Group>
    decreases |dates|
  {
    if |dates| == 0 then []
    else HourGroups(fs, base, dates[0], HourFolders, t) + DateGroups(fs, base, dates[1..], t)
  }

  /** Every group the walk visits, given the names of `base`'s subdirectories in whatever order `os.walk` lists them. */
  function WalkGroups(fs: FileSystem, base: string, listing: seq<string>, t: Table): seq<Group> {
    DateGroups(fs, base, SortStrings(listing), t)
  }

  /** `f'{variable}_{level}_{date_folder}_{hour}{file_extension}_{num_levels}.nc'`. */
  function OutputFile(g: Group, level: string, numLevels: int): string {
    g.variable + "_" + level + "_" + g.date + "_" + g.hour + g.ext + "_" + IntToString(numLevels) + ".nc"
  }

  function GroupCommands(base: string, g: Group, numLevels: int): seq<Command> {
    var levels := g.spec.levels;
    seq(|levels|, i requires 0 <= i < |levels| =>
      Command(g.ext, Join(SlotPath(base, g.date, g.hour), "gdas.t*z" + g.ext), LevelCount(levels[i]), g.variable, levels[i],
              OutputFile(g, levels[i], numLevels)))
  }

  function Commands(base: string, groups: seq<Group>, numLevels: int): seq<Command>
    decreases |groups|
  {
    if |groups| == 0 then [] else GroupCommands(base, groups[0], numLevels) + Commands(base, groups[1..], numLevels)
  }

  predicate IsFlagVariable(v: string) {
    v in FlagVariables
  }

  /** The datasets of one group, every level cut or not. */
  function LevelDatasets(g: Group, firstStepOnly: bool, numLevels: int): seq<Dataset> {
    var levels := g.spec.levels;
    seq(|levels|, i requires 0 <= i < |levels| => Dataset(g.ext, g.variable, OutputFile(g, levels[i], numLevels), firstStepOnly))
  }

  /** What one group appends, given the (extension, variable) entries whose flag an earlier group has cleared. */
  function GroupDatasets(g: Group, cleared: set<(string, string)>, numLevels: int): seq<Dataset> {
    if !IsFlagVariable(g.variable) then LevelDatasets(g, false, numLevels)
    else if g.spec.firstStepOnly && (g.ext, g.variable) !in cleared then LevelDatasets(g, true, numLevels)
    else []
  }

  /** The cleared entries after one group: its flag is set to False once a level has been appended under it. */
  function ClearedAfter(g: Group, cleared: set<(string, string)>): set<(string, string)> {
    if IsFlagVariable(g.variable) && g.spec.firstStepOnly && (g.ext, g.variable) !in cleared && |g.spec.levels| > 0
    then cleared + {(g.ext, g.variable)}
    else cleared
  }

  /** `extracted_datasets` after the walk over `groups`. */
  function Collect(groups: seq<Group>, cleared: set<(string, string)>, numLevels: int): seq<Dataset>
    decreases |groups|
  {
    if |groups| == 0 then []
    else GroupDatasets(groups[0], cleared, numLevels) + Collect(groups[1..], ClearedAfter(groups[0], cleared), numLevels)
  }

  /** The commands run, the NetCDF files left to delete afterwards, and the datasets handed to the merge. */
  datatype Extraction = Extraction(commands: seq<Command>, files: seq<string>, datasets: seq<Dataset>)

  /** The extraction half of `process_data_with_wgrib2`, for the given codes (defaulted to `f000`, `f006`). */
  function Extract(fs: FileSystem, base: string, listing: seq<string>, forecastHours: Option<seq<string>>, numLevels: int): Extraction {
    var t := BuildTable(forecastHours.GetOr(DefaultForecastHours), numLevels);
    var groups := WalkGroups(fs, base, listing, t);
    var commands := Commands(base, groups, numLevels);
    Extraction(commands, seq(|commands|, i requires 0 <= i < |commands| => commands[i].outputFile),
               Collect(groups, {}, numLevels))
  }

  lemma {:induction false} TableGroupsMembers(date: string, hour: string, t: Table, g: Group)
    ensures g in TableGroups(date, hour, t) <==> g.date == date && g.hour == hour && InTable(t, g.ext, g.variable, g.spec)
    decreases |t|
  {
    if |t| > 0 {
      TableGroupsMembers(date, hour, t[1..], g);
      var vg := VarGroups(date, hour, t[0].0, t[0].1);
      assert g in vg <==> g.date == date && g.hour == hour && g.ext == t[0].0 && (g.variable, g.spec) in t[0].1 by {
        if (g.variable, g.spec) in t[0].1 && g.date == date && g.hour == hour && g.ext == t[0].0 {
          var k :| 0 <= k < |t[0].1| && t[0].1[k] == (g.variable, g.spec);
          assert vg[k] == g;
        }
      }
      if InTable(t, g.ext, g.variable, g.spec) {
        var i :| 0 <= i < |t| && t[i].0 == g.ext && (g.variable, g.spec) in t[i].1;
        if i > 0 {
          assert t[1..][i - 1] == t[i];
        }
      }
      if InTable(t[1..], g.ext, g.variable, g.spec) {
        var i :| 0 <= i < |t| - 1 && t[1..][i].0 == g.ext && (g.variable, g.spec) in t[1..][i].1;
        assert t[i + 1] == t[1..][i];
      }
    }
  }

  lemma {:induction false} HourGroupsMembers(fs: FileSystem, base: string, date: string, hours: seq<string>, t: Table, g: Group)
    ensures g in HourGroups(fs, base, date, hours, t) <==>
      && g.date == date && g.hour in hours && fs.Exists(SlotPath(base, date, g.hour))
      && InTable(t, g.ext, g.variable, g.spec)
    decreases |hours|
  {
    if |hours| > 0 {
      HourGroupsMembers(fs, base, date, hours[1..], t, g);
      TableGroupsMembers(date, hours[0], t, g);
      assert hours == [hours[0]] + hours[1..];
    }
  }

  lemma {:induction false} DateGroupsMembers(fs: FileSystem, base: string, dates: seq<string>, t: Table, g: Group)
    ensures g in DateGroups(fs, base, dates, t) <==>
      && g.date in dates && g.hour in HourFolders && fs.Exists(SlotPath(base, g.date, g.hour))
      && InTable(t, g.ext, g.variable, g.spec)
    decreases |dates|
  {
    if |dates| > 0 {
      DateGroupsMembers(fs, base, dates[1..], t, g);
      HourGroupsMembers(fs, base, dates[0], HourFolders, t, g);
      assert dates == [dates[0]] + dates[1..];
    }
  }

  /** The walk visits a (date, hour, extension, variable) group exactly when the date folder is listed, the hour is one
      of the four, its folder exists, and the table has that entry. */
  lemma WalkVisitsExactly(fs: FileSystem, base: string, listing: seq<string>, t: Table, g: Group)
    ensures g in WalkGroups(fs, base, listing, t) <==>
      && g.date in listing && g.hour in HourFolders && fs.Exists(SlotPath(base, g.date, g.hour))
      && InTable(t, g.ext, g.variable, g.spec)
  {
    DateGroupsMembers(fs, base, SortStrings(listing), t, g);
    assert g.date in listing <==> g.date in multiset(listing);
    assert g.date in SortStrings(listing) <==> g.date in multiset(SortStrings(listing));
  }

  /** Groups come in order of date folder, and within one date folder in order of hour. */
  predicate VisitOrder(groups: seq<Group>) {
    forall i, j :: 0 <= i < j < |groups| ==>
      LexLe(groups[i].date, groups[j].date) && (groups[i].date == groups[j].date ==> LexLe(groups[i].hour, groups[j].hour))
  }

  lemma HourFoldersSorted()
    ensures SortedStrings(HourFolders)
  {
  }

  lemma LexLeReflexive(a: string)
    ensures LexLe(a, a)
  {
    LexLeTotal(a, a);
  }

  lemma {:induction false} HourGroupsOrdered(fs: FileSystem, base: string, date: string, hours: seq<string>, t: Table)
    requires SortedStrings(hours)
    ensures forall i, j :: 0 <= i < j < |HourGroups(fs, base, date, hours, t)| ==>
      LexLe(HourGroups(fs, base, date, hours, t)[i].hour, HourGroups(fs, base, date, hours, t)[j].hour)
    decreases |hours|
  {
    if |hours| > 0 {
      var head := if fs.Exists(SlotPath(base, date, hours[0])) then TableGroups(date, hours[0], t) else [];
      var rest := HourGroups(fs, base, date, hours[1..], t);
      var all := HourGroups(fs, base, date, hours, t);
      assert all == head + rest;
      HourGroupsOrdered(fs, base, date, hours[1..], t);
      LexLeReflexive(hours[0]);
      forall g | g in head
        ensures g.hour == hours[0]
      {
        TableGroupsMembers(date, hours[0], t, g);
      }
      forall g | g in rest
        ensures LexLe(hours[0], g.hour)
      {
        HourGroupsMembers(fs, base, date, hours[1..], t, g);
        var k :| 0 <= k < |hours| - 1 && hours[1..][k] == g.hour;
        assert hours[k + 1] == g.hour;
      }
      OrderedConcat(head, rest, hours[0]);
    }
  }

  /** Groups all at hour `h` followed by ordered groups at hours from `h` on are ordered. */
  lemma OrderedConcat(head: seq<Group>, rest: seq<Group>, h: string)
    requires forall g :: g in head ==> g.hour == h
    requires forall g :: g in rest ==> LexLe(h, g.hour)
    requires forall i, j :: 0 <= i < j < |rest| ==> LexLe(rest[i].hour, rest[j].hour)
    requires LexLe(h, h)
    ensures forall i, j :: 0 <= i < j < |head + rest| ==> LexLe((head + rest)[i].hour, (head + rest)[j].hour)
  {
    var all := head + rest;
    forall i, j | 0 <= i < j < |all|
      ensures LexLe(all[i].hour, all[j].hour)
    {
      if j < |head| {
        assert all[i] in head && all[j] in head;
      } else if i < |head| {
        assert all[i] in head && all[j] == rest[j - |head|];
      } else {
        assert all[i] == rest[i - |head|] && all[j] == rest[j - |head|];
      }
    }
  }

  lemma {:induction false} DateGroupsOrdered(fs: FileSystem, base: string, dates: seq<string>, t: Table)
    requires SortedStrings(dates) && Distinct(dates)
    ensures VisitOrder(DateGroups(fs, base, dates, t))
    decreases |dates|
  {
    if |dates| > 0 {
      var head := HourGroups(fs, base, dates[0], HourFolders, t);
      var rest := DateGroups(fs, base, dates[1..], t);
      var all := DateGroups(fs, base, dates, t);
      assert all == head + rest;
      DateGroupsOrdered(fs, base, dates[1..], t);
      HourFoldersSorted();
      HourGroupsOrdered(fs, base, dates[0], HourFolders, t);
      LexLeReflexive(dates[0]);
      forall i, j | 0 <= i < j < |all|
        ensures LexLe(all[i].date, all[j].date) && (all[i].date == all[j].date ==> LexLe(all[i].hour, all[j].hour))
      {
        if i < |head| {
          HourGroupsMembers(fs, base, dates[0], HourFolders, t, all[i]);
          if j < |head| {
            HourGroupsMembers(fs, base, dates[0], HourFolders, t, all[j]);
          } else {
            assert all[j] == rest[j - |head|];
            DateGroupsMembers(fs, base, dates[1..], t, all[j]);
            var k :| 0 <= k < |dates| - 1 && dates[1..][k] == all[j].date;
            assert dates[k + 1] == all[j].date;
          }
        } else {
          assert all[i] == rest[i - |head|] && all[j] == rest[j - |head|];
        }
      }
    }
  }

  /** With the folder names as a directory lists them (no name twice), the walk runs in (date, hour) order. */
  lemma WalkOrder(fs: FileSystem, base: string, listing: seq<string>, t: Table)
    requires Distinct(listing)
    ensures VisitOrder(WalkGroups(fs, base, listing, t))
  {
    SortStringsDistinct(listing);
    DateGroupsOrdered(fs, base, SortStrings(listing), t);
  }

  /** The datasets of variables other than `:HGT:` and `:LAND:`, in order. */
  function PlainOf(ds: seq<Dataset>): seq<Dataset>
    decreases |ds|
  {
    if |ds| == 0 then []
    else (if IsFlagVariable(ds[0].variable) then [] else [ds[0]]) + PlainOf(ds[1..])
  }

  /** Reference for the variables without the flag: every level of every visited group, uncut. */
  function Plain(groups: seq<Group>, numLevels: int): seq<Dataset>
    decreases |groups|
  {
    if |groups| == 0 then []
    else
      var own := if IsFlagVariable(groups[0].variable) then [] else LevelDatasets(groups[0], false, numLevels);
      own + Plain(groups[1..], numLevels)
  }

  lemma {:induction false} PlainOfConcat(a: seq<Dataset>, b: seq<Dataset>)
    ensures PlainOf(a + b) == PlainOf(a) + PlainOf(b)
    decreases |a|
  {
    if |a| > 0 {
      assert (a + b)[1..] == a[1..] + b;
      PlainOfConcat(a[1..], b);
    } else {
      assert a + b == b;
    }
  }

  lemma {:induction false} PlainOfUniform(s: seq<Dataset>, v: string)
    requires forall k :: 0 <= k < |s| ==> s[k].variable == v
    ensures PlainOf(s) == if IsFlagVariable(v) then [] else s
    decreases |s|
  {
    if |s| > 0 {
      PlainOfUniform(s[1..], v);
      assert s == [s[0]] + s[1..];
    }
  }

  /** Variables other than `:HGT:` and `:LAND:` are appended once per visited folder and level, whatever the flags. */
  lemma {:induction false} PlainDatasets(groups: seq<Group>, cleared: set<(string, string)>, numLevels: int)
    ensures PlainOf(Collect(groups, cleared, numLevels)) == Plain(groups, numLevels)
    decreases |groups|
  {
    if |groups| > 0 {
      var g := groups[0];
      var here := GroupDatasets(g, cleared, numLevels);
      PlainOfConcat(here, Collect(groups[1..], ClearedAfter(g, cleared), numLevels));
      PlainOfUniform(here, g.variable);
      PlainDatasets(groups[1..], ClearedAfter(g, cleared), numLevels);
    }
  }

  /** Some dataset of `(ext, variable)` was appended. */
  predicate Kept(ds: seq<Dataset>, ext: string, variable: string) {
    exists i :: 0 <= i < |ds| && ds[i].ext == ext && ds[i].variable == variable
  }

  /** Some visited group of `(ext, variable)` still asks for its first time step and has a level. */
  predicate Eligible(groups: seq<Group>, ext: string, variable: string) {
    exists k :: 0 <= k < |groups| && groups[k].ext == ext && groups[k].variable == variable
      && groups[k].spec.firstStepOnly && |groups[k].spec.levels| > 0
  }

  /** Flag variables: only single-level groups, as in the table. */
  predicate SingleLevelFlags(groups: seq<Group>) {
    forall k :: 0 <= k < |groups| && IsFlagVariable(groups[k].variable) ==> |groups[k].spec.levels| <= 1
  }

  /** Flag datasets are cut to their first time step, none belongs to a cleared entry, and no entry has two; other
      datasets are kept whole. */
  predicate FlagShape(ds: seq<Dataset>, cleared: set<(string, string)>) {
    && (forall i :: 0 <= i < |ds| ==> (ds[i].firstStepOnly <==> IsFlagVariable(ds[i].variable)))
    && (forall i :: 0 <= i < |ds| && IsFlagVariable(ds[i].variable) ==> (ds[i].ext, ds[i].variable) !in cleared)
    && (forall i, j :: 0 <= i < j < |ds| && IsFlagVariable(ds[i].variable) ==>
          (ds[i].ext, ds[i].variable) != (ds[j].ext, ds[j].variable))
  }

  /** A `:HGT:` or `:LAND:` entry is appended at most once across the walk, cut to its first time step, and never after
      its flag was cleared; every other dataset is kept whole. */
  lemma {:induction false} FlagKeptOnce(groups: seq<Group>, cleared: set<(string, string)>, numLevels: int)
    requires SingleLevelFlags(groups)
    ensures FlagShape(Collect(groups, cleared, numLevels), cleared)
    decreases |groups|
  {
    if |groups| > 0 {
      var g := groups[0];
      var cleared' := ClearedAfter(g, cleared);
      SingleLevelFlagsTail(groups);
      FlagKeptOnce(groups[1..], cleared', numLevels);
      GroupShape(g, cleared, numLevels);
      FlagShapeConcat(GroupDatasets(g, cleared, numLevels), Collect(groups[1..], cleared', numLevels), cleared, cleared');
    }
  }

  lemma SingleLevelFlagsTail(groups: seq<Group>)
    requires |groups| > 0 && SingleLevelFlags(groups)
    ensures SingleLevelFlags(groups[1..])
  {
    forall k | 0 <= k < |groups| - 1 && IsFlagVariable(groups[1..][k].variable)
      ensures |groups[1..][k].spec.levels| <= 1
    {
      assert groups[1..][k] == groups[k + 1];
    }
  }

  /** The datasets of one group: flagged exactly for flag variables, which appear at most once, and whose key the
      group clears. */
  lemma GroupShape(g: Group, cleared: set<(string, string)>, numLevels: int)
    requires IsFlagVariable(g.variable) ==> |g.spec.levels| <= 1
    ensures var here := GroupDatasets(g, cleared, numLevels);
      && cleared <= ClearedAfter(g, cleared)
      && (forall k :: 0 <= k < |here| ==> (here[k].firstStepOnly <==> IsFlagVariable(here[k].variable)))
      && (forall k :: 0 <= k < |here| && IsFlagVariable(here[k].variable) ==>
            (here[k].ext, here[k].variable) !in cleared && (here[k].ext, here[k].variable) in ClearedAfter(g, cleared))
      && (forall k :: 0 <= k < |here| && IsFlagVariable(here[k].variable) ==> |here| == 1)
  {
  }

  lemma FlagShapeConcat(here: seq<Dataset>, rest: seq<Dataset>, cleared: set<(string, string)>, cleared': set<(string, string)>)
    requires FlagShape(rest, cleared') && cleared <= cleared'
    requires forall k :: 0 <= k < |here| ==> (here[k].firstStepOnly <==> IsFlagVariable(here[k].variable))
    requires forall k :: 0 <= k < |here| && IsFlagVariable(here[k].variable) ==>
      (here[k].ext, here[k].variable) !in cleared && (here[k].ext, here[k].variable) in cleared'
    requires forall k :: 0 <= k < |here| && IsFlagVariable(here[k].variable) ==> |here| == 1
    ensures FlagShape(here + rest, cleared)
  {
    var ds := here + rest;
    forall i | 0 <= i < |ds|
      ensures ds[i].firstStepOnly <==> IsFlagVariable(ds[i].variable)
      ensures IsFlagVariable(ds[i].variable) ==> (ds[i].ext, ds[i].variable) !in cleared
    {
      if i >= |here| {
        assert ds[i] == rest[i - |here|];
      }
    }
    forall i, j | 0 <= i < j < |ds| && IsFlagVariable(ds[i].variable)
      ensures (ds[i].ext, ds[i].variable) != (ds[j].ext, ds[j].variable)
    {
      if j < |here| {
        assert false;
      } else if i < |here| {
        assert ds[j] == rest[j - |here|];
      } else if i >= |here| {
        assert ds[i] == rest[i - |here|] && ds[j] == rest[j - |here|];
      }
    }
  }

  lemma {:induction false} FlagKeptWhenEligible(groups: seq<Group>, cleared: set<(string, string)>, numLevels: int, ext: string, v: string)
    requires IsFlagVariable(v)
    ensures Kept(Collect(groups, cleared, numLevels), ext, v) <==> (ext, v) !in cleared && Eligible(groups, ext, v)
    decreases |groups|
  {
    if |groups| > 0 {
      var g := groups[0];
      var cleared' := ClearedAfter(g, cleared);
      FlagKeptWhenEligible(groups[1..], cleared', numLevels, ext, v);
      KeptConcat(GroupDatasets(g, cleared, numLevels), Collect(groups[1..], cleared', numLevels), ext, v);
      KeptInGroup(g, cleared, numLevels, ext, v);
      EligibleCons(groups, ext, v);
    }
  }

  /** Group k of `(ext, variable)` still asks for its first time step and has a level, and no earlier one does. */
  predicate FirstEligible(groups: seq<Group>, ext: string, variable: string, k: int) {
    && 0 <= k < |groups|
    && groups[k].ext == ext && groups[k].variable == variable && groups[k].spec.firstStepOnly && |groups[k].spec.levels| > 0
    && forall j :: 0 <= j < k ==>
         !(groups[j].ext == ext && groups[j].variable == variable && groups[j].spec.firstStepOnly && |groups[j].spec.levels| > 0)
  }

  /** Every dataset of `(ext, variable)` in `ds` is one of `src`. */
  predicate AllFrom(ds: seq<Dataset>, ext: string, variable: string, src: seq<Dataset>) {
    forall i :: 0 <= i < |ds| && ds[i].ext == ext && ds[i].variable == variable ==> ds[i] in src
  }

  /** The `:HGT:`/`:LAND:` datasets kept for an entry are those of the first visited (date, hour) group that asks for
      it: later groups of that entry add nothing. */
  lemma {:induction false} FlagKeptFromFirst(groups: seq<Group>, cleared: set<(string, string)>, numLevels: int,
                                             ext: string, v: string, k: nat)
    requires IsFlagVariable(v) && (ext, v) !in cleared && FirstEligible(groups, ext, v, k)
    ensures AllFrom(Collect(groups, cleared, numLevels), ext, v, LevelDatasets(groups[k], true, numLevels))
    ensures Kept(Collect(groups, cleared, numLevels), ext, v)
    decreases |groups|
  {
    var g := groups[0];
    var cleared' := ClearedAfter(g, cleared);
    var here := GroupDatasets(g, cleared, numLevels);
    var rest := Collect(groups[1..], cleared', numLevels);
    var src := LevelDatasets(groups[k], true, numLevels);
    FlagKeptWhenEligible(groups, cleared, numLevels, ext, v);
    assert Eligible(groups, ext, v);
    if k == 0 {
      FlagKeptWhenEligible(groups[1..], cleared', numLevels, ext, v);
      assert !Kept(rest, ext, v);
      AllFromConcat(here, rest, ext, v, src);
    } else {
      assert (ext, v) !in cleared';
      FirstEligibleTail(groups, ext, v, k);
      FlagKeptFromFirst(groups[1..], cleared', numLevels, ext, v, k - 1);
      assert groups[1..][k - 1] == groups[k];
      assert !(g.ext == ext && g.variable == v && g.spec.firstStepOnly && |g.spec.levels| > 0);
      AllFromConcat(here, rest, ext, v, src);
    }
  }

  lemma FirstEligibleTail(groups: seq<Group>, ext: string, v: string, k: nat)
    requires FirstEligible(groups, ext, v, k) && k > 0
    ensures FirstEligible(groups[1..], ext, v, k - 1)
  {
    forall j | 0 <= j < k - 1
      ensures !(groups[1..][j].ext == ext && groups[1..][j].variable == v && groups[1..][j].spec.firstStepOnly
                && |groups[1..][j].spec.levels| > 0)
    {
      assert groups[1..][j] == groups[j + 1];
    }
  }

  lemma AllFromConcat(a: seq<Dataset>, b: seq<Dataset>, ext: string, v: string, src: seq<Dataset>)
    requires AllFrom(a, ext, v, src) || !Kept(a, ext, v)
    requires AllFrom(b, ext, v, src) || !Kept(b, ext, v)
    ensures AllFrom(a + b, ext, v, src)
  {
    forall i | 0 <= i < |a + b| && (a + b)[i].ext == ext && (a + b)[i].variable == v
      ensures (a + b)[i] in src
    {
      if i < |a| {
        assert (a + b)[i] == a[i];
      } else {
        assert (a + b)[i] == b[i - |a|];
      }
    }
  }

  lemma KeptConcat(a: seq<Dataset>, b: seq<Dataset>, ext: string, v: string)
    ensures Kept(a + b, ext, v) <==> Kept(a, ext, v) || Kept(b, ext, v)
  {
    if Kept(a + b, ext, v) {
      var i :| 0 <= i < |a + b| && (a + b)[i].ext == ext && (a + b)[i].variable == v;
      if i >= |a| {
        assert b[i - |a|] == (a + b)[i];
      }
    }
    if Kept(a, ext, v) {
      var i :| 0 <= i < |a| && a[i].ext == ext && a[i].variable == v;
      assert (a + b)[i] == a[i];
    }
    if Kept(b, ext, v) {
      var i :| 0 <= i < |b| && b[i].ext == ext && b[i].variable == v;
      assert (a + b)[i + |a|] == b[i];
    }
  }

  /** One group yields a dataset of a flag variable exactly when it asks for it with its flag set and it was not
      cleared before. */
  lemma KeptInGroup(g: Group, cleared: set<(string, string)>, numLevels: int, ext: string, v: string)
    requires IsFlagVariable(v)
    ensures Kept(GroupDatasets(g, cleared, numLevels), ext, v) <==>
      g.ext == ext && g.variable == v && g.spec.firstStepOnly && |g.spec.levels| > 0 && (ext, v) !in cleared
  {
    var here := GroupDatasets(g, cleared, numLevels);
    if g.ext == ext && g.variable == v && g.spec.firstStepOnly && |g.spec.levels| > 0 && (ext, v) !in cleared {
      assert here[0].ext == ext && here[0].variable == v;
    }
  }

  lemma EligibleCons(groups: seq<Group>, ext: string, v: string)
    requires |groups| > 0
    ensures Eligible(groups, ext, v) <==>
      (groups[0].ext == ext && groups[0].variable == v && groups[0].spec.firstStepOnly && |groups[0].spec.levels| > 0)
      || Eligible(groups[1..], ext, v)
  {
    if Eligible(groups, ext, v) {
      var k :| 0 <= k < |groups| && groups[k].ext == ext && groups[k].variable == v
        && groups[k].spec.firstStepOnly && |groups[k].spec.levels| > 0;
      if k > 0 {
        assert groups[1..][k - 1] == groups[k];
      }
    }
    if Eligible(groups[1..], ext, v) {
      var k :| 0 <= k < |groups| - 1 && groups[1..][k].ext == ext && groups[1..][k].variable == v
        && groups[1..][k].spec.firstStepOnly && |groups[1..][k].spec.levels| > 0;
      assert groups[k + 1] == groups[1..][k];
    }
  }

  lemma FlagVariableNames(v: string)
    requires IsFlagVariable(v)
    ensures v[1] == 'L' || v[1] == 'H'
    ensures v[1] == 'L' <==> v == LandMask
  {
  }

  /** In the analysis entry only `:HGT:` is a flag variable, with the surface level and the flag set. */
  lemma AnalysisFlagSpec(levels: seq<nat>, j: nat)
    requires j < |AnalysisVarsWith(levels)| && IsFlagVariable(AnalysisVarsWith(levels)[j].0)
    ensures AnalysisVarsWith(levels)[j].1 == VarSpec([Surface], true)
  {
    var vars := AnalysisVarsWith(levels);
    FlagVariableNames(vars[j].0);
    assert vars[1].0[1] == 'T' && vars[2].0[1] == 'P' && vars[3].0[1] == 'V' && vars[4].0[1] == 'S';
  }

  /** In the accumulation entry only `:LAND:` is a flag variable, with the surface level and the flag set. */
  lemma AccumulationFlagSpec(j: nat)
    requires j < |AccumulationVars()| && IsFlagVariable(AccumulationVars()[j].0)
    ensures AccumulationVars()[j].1 == VarSpec([Surface], true)
  {
    FlagVariableNames(AccumulationVars()[j].0);
    assert AccumulationVars()[1].0[1] == '(';
  }

  lemma SecondaryHasNoFlag(j: nat)
    requires j < |SecondaryVars()|
    ensures !IsFlagVariable(SecondaryVars()[j].0)
  {
    if IsFlagVariable(SecondaryVars()[j].0) {
      FlagVariableNames(SecondaryVars()[j].0);
    }
  }

  /** Every `:HGT:` or `:LAND:` entry of the table reads the surface level and starts with its flag set. */
  lemma TableFlagSpecs(codes: seq<string>, numLevels: int, ext: string, v: string, spec: VarSpec)
    requires InTable(BuildTable(codes, numLevels), ext, v, spec) && IsFlagVariable(v)
    ensures spec == VarSpec([Surface], true)
  {
    var t := BuildTable(codes, numLevels);
    var i :| 0 <= i < |t| && t[i].0 == ext && (v, spec) in t[i].1;
    var j :| 0 <= j < |t[i].1| && t[i].1[j] == (v, spec);
    TableEntryAt(codes, numLevels, i);
    ExpectedEntryFlagSpec(codes, numLevels, ext, j);
  }

  /** The flag variables of an expected entry read the surface with the flag set. */
  lemma ExpectedEntryFlagSpec(codes: seq<string>, numLevels: int, ext: string, j: nat)
    requires ExpectedEntry(codes, numLevels, ext).Some?
    requires j < |ExpectedEntry(codes, numLevels, ext).value|
    requires IsFlagVariable(ExpectedEntry(codes, numLevels, ext).value[j].0)
    ensures ExpectedEntry(codes, numLevels, ext).value[j].1 == VarSpec([Surface], true)
  {
    var vars := ExpectedEntry(codes, numLevels, ext).value;
    if IsPrimaryExt(ext) && IsSecondaryExt(ext) {
      ExtensionsDistinct(ext[12..], ext[13..]);
    }
    if IsPrimaryExt(ext) && vars == AccumulationVars() {
      AccumulationFlagSpec(j);
    } else if IsPrimaryExt(ext) {
      var levels := if numLevels == 37 then Levels37Primary else Levels13;
      assert vars == AnalysisVarsWith(levels);
      AnalysisFlagSpec(levels, j);
    } else {
      SecondaryHasNoFlag(j);
    }
  }

  /** Every command comes from a visited group: its variable, extension and one of its levels, with `-nc_nlev` counted
      from that level. */
  lemma {:induction false} CommandsFromGroups(base: string, groups: seq<Group>, numLevels: int, k: nat)
    requires k < |Commands(base, groups, numLevels)|
    ensures var c := Commands(base, groups, numLevels)[k];
      exists gi :: 0 <= gi < |groups| && c.ext == groups[gi].ext && c.variable == groups[gi].variable
        && c.level in groups[gi].spec.levels && c.nlev == LevelCount(c.level)
    decreases |groups|
  {
    var here := GroupCommands(base, groups[0], numLevels);
    var cs := Commands(base, groups, numLevels);
    assert cs == here + Commands(base, groups[1..], numLevels);
    if k < |here| {
      assert cs[k] == here[k];
      assert cs[k].level == groups[0].spec.levels[k];
    } else {
      assert cs[k] == Commands(base, groups[1..], numLevels)[k - |here|];
      CommandsFromGroups(base, groups[1..], numLevels, k - |here|);
      var gi :| 0 <= gi < |groups| - 1 && cs[k].ext == groups[1..][gi].ext && cs[k].variable == groups[1..][gi].variable
        && cs[k].level in groups[1..][gi].spec.levels && cs[k].nlev == LevelCount(cs[k].level);
      assert groups[gi + 1] == groups[1..][gi];
    }
  }

  /** Every wgrib2 call of a run gets the `-nc_nlev` its table entry calls for: 13 or 31 for the `pgrb2` pressure
      group, 6 for the `pgrb2b` one, 1 for the heights above ground, 0 for surface and sea level. */
  lemma ExtractLevelCounts(fs: FileSystem, base: string, listing: seq<string>, forecastHours: Option<seq<string>>, numLevels: int)
    ensures forall c :: c in Extract(fs, base, listing, forecastHours, numLevels).commands ==>
      c.nlev == ExpectedLevelCount(c.ext, c.variable, numLevels)
  {
    var codes := forecastHours.GetOr(DefaultForecastHours);
    var t := BuildTable(codes, numLevels);
    var groups := WalkGroups(fs, base, listing, t);
    var cs := Commands(base, groups, numLevels);
    forall c | c in Extract(fs, base, listing, forecastHours, numLevels).commands
      ensures c.nlev == ExpectedLevelCount(c.ext, c.variable, numLevels)
    {
      var k :| 0 <= k < |cs| && cs[k] == c;
      CommandsFromGroups(base, groups, numLevels, k);
      var gi :| 0 <= gi < |groups| && c.ext == groups[gi].ext && c.variable == groups[gi].variable
        && c.level in groups[gi].spec.levels && c.nlev == LevelCount(c.level);
      var g := groups[gi];
      WalkVisitsExactly(fs, base, listing, t, g);
      InTableLevelCount(codes, numLevels, g.ext, g.variable, g.spec, c.level);
    }
  }

  lemma InTableLevelCount(codes: seq<string>, numLevels: int, ext: string, v: string, spec: VarSpec, level: string)
    requires InTable(BuildTable(codes, numLevels), ext, v, spec) && level in spec.levels
    ensures LevelCount(level) == ExpectedLevelCount(ext, v, numLevels)
  {
    var t := BuildTable(codes, numLevels);
    var i :| 0 <= i < |t| && t[i].0 == ext && (v, spec) in t[i].1;
    var j :| 0 <= j < |t[i].1| && t[i].1[j] == (v, spec);
    TableLevelCounts(codes, numLevels, i, j, level);
  }

  /** Over a whole run: each `:HGT:` or `:LAND:` entry contributes one first-time-step dataset if the walk reaches it and
      none otherwise, and every other variable contributes one dataset per visited folder and level. */
  lemma ExtractFlagRule(fs: FileSystem, base: string, listing: seq<string>, forecastHours: Option<seq<string>>, numLevels: int)
    ensures var groups := WalkGroups(fs, base, listing, BuildTable(forecastHours.GetOr(DefaultForecastHours), numLevels));
      var ds := Extract(fs, base, listing, forecastHours, numLevels).datasets;
      && FlagShape(ds, {})
      && (forall ext, v :: IsFlagVariable(v) ==>
            (Kept(ds, ext, v) <==> exists k :: 0 <= k < |groups| && groups[k].ext == ext && groups[k].variable == v))
      && PlainOf(ds) == Plain(groups, numLevels)
  {
    var codes := forecastHours.GetOr(DefaultForecastHours);
    var t := BuildTable(codes, numLevels);
    var groups := WalkGroups(fs, base, listing, t);
    var ds := Collect(groups, {}, numLevels);
    forall k | 0 <= k < |groups| && IsFlagVariable(groups[k].variable)
      ensures groups[k].spec == VarSpec([Surface], true)
    {
      WalkVisitsExactly(fs, base, listing, t, groups[k]);
      TableFlagSpecs(codes, numLevels, groups[k].ext, groups[k].variable, groups[k].spec);
    }
    FlagKeptOnce(groups, {}, numLevels);
    forall ext, v | IsFlagVariable(v)
      ensures Kept(ds, ext, v) <==> exists k :: 0 <= k < |groups| && groups[k].ext == ext && groups[k].variable == v
    {
      FlagKeptWhenEligible(groups, {}, numLevels, ext, v);
    }
    PlainDatasets(groups, {}, numLevels);
  }
}

=== FILE: graphcast_schedule.dfy ===
/** The scheduling rules around the GraphCast model in `run_graphcast_forecast.py`:
    reading a run's initial time from its Zarr directory name, choosing the
    input directories, the 40-step target and forcing timelines built from an
    input, the ordering of the merged runs and the name of the merged output.
    Model loading, inference and the array content are opaque. Time values
    inside a Zarr store are numpy `datetime64` hours, modelled as integers. */
module GraphcastSchedule {
  import opened Base
  import opened Strings
  import opened Calendar
  import opened Paths
  import opened Sorting

  /** `FORECAST_HOURS`, `FORECAST_INTERVAL` and `NUM_FORECAST_STEPS`. */
  const ForecastHours := 240
  const ForecastInterval := 6
  const NumForecastSteps := ForecastHours / ForecastInterval

  /** The largest C `int`: `datetime()` raises OverflowError for an argument beyond it, before any range check. */
  const CIntMax := 0x7FFF_FFFF

  /** `sys.get_int_max_str_digits()` by default: `int()` raises ValueError for a longer string of digits. */
  const IntMaxStrDigits := 4300

  /** The four integers read from a run name. */
  datatype Fields = Fields(year: nat, month: nat, day: nat, hour: nat)

  /** The `int()` reads of `extract_datetime_from_zarr_name`: year, month and day from characters [0:4], [4:6] and [6:8]
      of the first `_` field, the hour from the whole second field; None for fewer than two fields or a field that is not
      a decimal number or longer than `int()` accepts (ValueError). */
  function NameFields(stem: string): Option<Fields> {
    var parts := Split(stem, '_');
    if |parts| < 2 then None
    else
      var date := parts[0];
      var y := ParseNat(Slice(date, 0, 4));
      var m := ParseNat(Slice(date, 4, 6));
      var d := ParseNat(Slice(date, 6, 8));
      var h := if |parts[1]| > IntMaxStrDigits then None else ParseNat(parts[1]);
      if y.Some? && m.Some? && d.Some? && h.Some? then Some(Fields(y.value, m.value, d.value, h.value)) else None
  }

  /** What the function as written does: return a datetime, return None, or let OverflowError escape. */
  datatype ParseOutcome = Parsed(d: DateTime) | Rejected | RaisesOverflow

  /** `extract_datetime_from_zarr_name` as written: only ValueError and IndexError are caught, so an hour field too large
      for a C `int` escapes as OverflowError. */
  function ParseStemAsWritten(stem: string): ParseOutcome {
    match NameFields(stem)
    case None => Rejected
    case Some(f) =>
      if f.hour > CIntMax then RaisesOverflow
      else if IsValid(DateTime(f.year, f.month, f.day, f.hour)) then Parsed(DateTime(f.year, f.month, f.day, f.hour))
      else Rejected
  }

  /** `extract_datetime_from_zarr_name` as intended: every name that does not denote a datetime gives None. */
  function ParseStem(stem: string): Option<Instant> {
    match NameFields(stem)
    case None => None
    case Some(f) =>
      var dt := DateTime(f.year, f.month, f.day, f.hour);
      if IsValid(dt) then Some(dt) else None
  }

  /** The initial time of the run stored in Zarr directory `name` (its stem is parsed). */
  function ParseRunName(name: string): Option<Instant> {
    ParseStem(Stem(name))
  }

  /** A stem without `_` has fewer than two fields and is rejected. */
  lemma SingleFieldRejected(stem: string)
    requires '_' !in stem
    ensures ParseStem(stem) == None
    ensures ParseStemAsWritten(stem) == Rejected
  {
    SplitWhole(stem, '_');
  }

  /** The fields of `YYYYMMDD_HH_<rest>`. */
  lemma {:induction false} StemFields(date: string, x: string, h: string, rest: string)
    requires |date| == 8 && '_' !in date + x && '_' !in h
    ensures NameFields(date + x + "_" + h + "_" + rest) == NameFields(date + "_" + h)
    ensures var parts := Split(date + x + "_" + h + "_" + rest, '_'); |parts| >= 2 && parts[0] == date + x && parts[1] == h
  {
    SplitLeadingField(date + x, '_', h + "_" + rest);
    assert date + x + "_" + h + "_" + rest == (date + x) + ['_'] + (h + "_" + rest);
    SplitLeadingField(h, '_', rest);
    assert h + "_" + rest == h + ['_'] + rest;
    SplitLeadingField(date, '_', h);
    assert date + "_" + h == date + ['_'] + h;
    assert '_' !in date by {
      forall k | 0 <= k < |date|
        ensures date[k] != '_'
      {
        assert date[k] == (date + x)[k];
      }
    }
    SplitWhole(h, '_');
    assert (date + x)[..4] == date[..4] && (date + x)[4..6] == date[4..6] && (date + x)[6..8] == date[6..8];
  }

  /** Characters after the eighth of the date field, and fields after the second, do not matter. */
  lemma ExtraTextIgnored(date: string, x: string, h: string, rest: string)
    requires |date| == 8 && '_' !in date + x && '_' !in h
    ensures ParseStem(date + x + "_" + h + "_" + rest) == ParseStem(date + "_" + h)
    ensures ParseStemAsWritten(date + x + "_" + h + "_" + rest) == ParseStemAsWritten(date + "_" + h)
  {
    StemFields(date, x, h, rest);
  }

  lemma DigitsHaveNoUnderscore(s: string)
    requires AllDigits(s)
    ensures '_' !in s
  {
    forall k | 0 <= k < |s|
      ensures s[k] != '_'
    {
      assert IsDigit(s[k]);
    }
  }

  /** The fields read from `<8 digits>_<digits>`. */
  lemma DigitFields(date: string, h: string)
    requires |date| == 8 && AllDigits(date) && |h| > 0 && AllDigits(h)
    ensures NameFields(date + "_" + h) ==
      if |h| > IntMaxStrDigits then None
      else Some(Fields(DigitsValue(date[0..4]), DigitsValue(date[4..6]), DigitsValue(date[6..8]), DigitsValue(h)))
  {
    DigitsHaveNoUnderscore(date);
    DigitsHaveNoUnderscore(h);
    SplitLeadingField(date, '_', h);
    assert date + "_" + h == date + ['_'] + h;
    SplitWhole(h, '_');
    var parts := Split(date + "_" + h, '_');
    assert parts == [date, h];
    SliceDigits(date, 0, 4);
    SliceDigits(date, 4, 6);
    SliceDigits(date, 6, 8);
    assert ParseNat(Slice(date, 0, 4)) == Some(DigitsValue(date[0..4]));
    assert ParseNat(Slice(date, 4, 6)) == Some(DigitsValue(date[4..6]));
    assert ParseNat(Slice(date, 6, 8)) == Some(DigitsValue(date[6..8]));
    assert |h| <= IntMaxStrDigits ==> ParseNat(parts[1]) == Some(DigitsValue(h));
  }

  lemma SliceDigits(s: string, i: nat, j: nat)
    requires AllDigits(s) && i <= j <= |s|
    ensures AllDigits(s[i..j]) && Slice(s, i, j) == s[i..j]
  {
    assert forall k :: 0 <= k < j - i ==> s[i..j][k] == s[i + k];
  }

  /** The fields read from `YYYYMMDD_<digits>` with the date written from `d`. */
  lemma DateFieldsOf(d: Instant, h: string)
    requires |h| > 0 && AllDigits(h)
    ensures NameFields(FormatYmd(d) + "_" + h) ==
      if |h| > IntMaxStrDigits then None else Some(Fields(d.year, d.month, d.day, DigitsValue(h)))
  {
    var y, m, dd := PadDecimal(d.year, 4), PadDecimal(d.month, 2), PadDecimal(d.day, 2);
    assert FormatYmd(d) == y + m + dd;
    ThreeSlices(y, m, dd);
    DigitsConcat(y, m, dd);
    DigitFields(y + m + dd, h);
    PadDecimalRoundTrip(d.year, 4);
    PadDecimalRoundTrip(d.month, 2);
    PadDecimalRoundTrip(d.day, 2);
  }

  lemma DigitsConcat(a: string, b: string, c: string)
    requires AllDigits(a) && AllDigits(b) && AllDigits(c)
    ensures AllDigits(a + b + c)
  {
  }

  lemma ThreeSlices(a: string, b: string, c: string)
    ensures (a + b + c)[0..|a|] == a
    ensures (a + b + c)[|a|..|a| + |b|] == b
    ensures (a + b + c)[|a| + |b|..|a| + |b| + |c|] == c
  {
  }

  /** The fields of a stem written as `YYYYMMDD_HH_<rest>` are those of the instant written. */
  lemma FormattedStemFields(d: Instant, rest: string)
    ensures NameFields(FormatYmd(d) + "_" + FormatHour(d) + "_" + rest) == Some(Fields(d.year, d.month, d.day, d.hour))
  {
    var date := FormatYmd(d);
    var h := FormatHour(d);
    DigitsHaveNoUnderscore(date);
    DigitsHaveNoUnderscore(h);
    assert date + "" == date;
    StemFields(date, "", h, rest);
    assert date + "" + "_" + h + "_" + rest == date + "_" + h + "_" + rest;
    PadDecimalRoundTrip(d.hour, 2);
    DateFieldsOf(d, h);
  }

  /** A name written as `YYYYMMDD_HH_<rest>` reads back as exactly that date and hour. */
  lemma RunNameRoundTrip(d: Instant, rest: string)
    ensures ParseStem(FormatYmd(d) + "_" + FormatHour(d) + "_" + rest) == Some(d)
    ensures ParseRunName(FormatYmd(d) + "_" + FormatHour(d) + "_" + rest + ".zarr") == Some(d)
  {
    FormattedStemFields(d, rest);
    StemOfExtension(FormatYmd(d) + "_" + FormatHour(d) + "_" + rest, ".zarr");
  }

  /** The discrepancy: a date and an hour field of 2147483648 or more make the function as written raise OverflowError,
      where the corrected parser returns None. */
  lemma HugeHourEscapes(d: Instant, hour: nat)
    requires hour > CIntMax && |NatToString(hour)| <= IntMaxStrDigits
    ensures ParseStemAsWritten(FormatYmd(d) + "_" + NatToString(hour)) == RaisesOverflow
    ensures ParseStem(FormatYmd(d) + "_" + NatToString(hour)) == None
  {
    NatToStringRoundTrip(hour);
    DateFieldsOf(d, NatToString(hour));
  }

  /** A concrete instance: `20240101_2147483648`. */
  lemma HugeHourExample()
    ensures ParseStemAsWritten(FormatYmd(DateTime(2024, 1, 1, 0)) + "_" + NatToString(2147483648)) == RaisesOverflow
  {
    assert Pow10(10) == 10000000000;
    NatToStringLength(2147483648, 10);
    HugeHourEscapes(DateTime(2024, 1, 1, 0), 2147483648);
  }

  /** `<date>_<h>` splits into `date` and `h`, and `<date>_<h>_<rest>` into those two and the fields of `rest`. */
  lemma LeadingSplit(date: string, h: string, rest: string)
    requires '_' !in date && '_' !in h
    ensures Split(date + "_" + h, '_') == [date, h]
    ensures Split(date + "_" + h + "_" + rest, '_') == [date, h] + Split(rest, '_')
  {
    SplitLeadingField(date, '_', h);
    assert date + "_" + h == date + ['_'] + h;
    SplitWhole(h, '_');
    SplitLeadingField(date, '_', h + "_" + rest);
    assert date + "_" + h + "_" + rest == date + ['_'] + (h + "_" + rest);
    SplitLeadingField(h, '_', rest);
    assert h + "_" + rest == h + ['_'] + rest;
  }

  /** Fields after the second do not change what is read from `<date>_<h>`. */
  lemma LeadingFields(date: string, h: string, rest: string)
    requires '_' !in date && '_' !in h
    ensures NameFields(date + "_" + h + "_" + rest) == NameFields(date + "_" + h)
  {
    LeadingSplit(date, h, rest);
    var parts := Split(date + "_" + h + "_" + rest, '_');
    assert |parts| >= 2 && parts[0] == date && parts[1] == h;
  }

  /** A name whose fields are numbers but no calendar instant (month 13, day 31 of a 30-day month, hour 24, year 0)
      gives None: `datetime()` raises ValueError, which is caught. */
  lemma ImpossibleDateRejected(date: string, h: string, rest: string)
    requires |date| == 8 && AllDigits(date) && 0 < |h| <= IntMaxStrDigits && AllDigits(h)
    requires !IsValid(DateTime(DigitsValue(date[0..4]), DigitsValue(date[4..6]), DigitsValue(date[6..8]), DigitsValue(h)))
    ensures ParseStem(date + "_" + h) == None
    ensures ParseStem(date + "_" + h + "_" + rest) == None
    ensures DigitsValue(h) <= CIntMax ==> ParseStemAsWritten(date + "_" + h) == Rejected
    ensures DigitsValue(h) <= CIntMax ==> ParseStemAsWritten(date + "_" + h + "_" + rest) == Rejected
  {
    DigitsHaveNoUnderscore(date);
    DigitsHaveNoUnderscore(h);
    LeadingFields(date, h, rest);
    DigitFields(date, h);
  }

  /** A name whose date field has a non-digit among its first eight characters, whose date field is too short to
      give a day, or whose hour field is empty or not a decimal number gives None: `int()` raises ValueError, which is
      caught. */
  lemma NonNumericRejected(date: string, h: string, rest: string, k: nat)
    requires '_' !in date && '_' !in h
    requires || (k < |date| && k < 8 && !IsDigit(date[k]))
             || |date| <= 6
             || |h| == 0
             || (k < |h| && !IsDigit(h[k]))
    ensures NameFields(date + "_" + h) == None
    ensures ParseStem(date + "_" + h) == None && ParseStem(date + "_" + h + "_" + rest) == None
    ensures ParseStemAsWritten(date + "_" + h) == Rejected
    ensures ParseStemAsWritten(date + "_" + h + "_" + rest) == Rejected
  {
    LeadingFields(date, h, rest);
    LeadingSplit(date, h, rest);
    if k < |date| && k < 8 && !IsDigit(date[k]) {
      if k < 4 {
        NonDigitSlice(date, 0, 4, k);
      } else if k < 6 {
        NonDigitSlice(date, 4, 6, k);
      } else {
        NonDigitSlice(date, 6, 8, k);
      }
    } else if |date| <= 6 {
      assert Slice(date, 6, 8) == "";
    } else if k < |h| && !IsDigit(h[k]) {
      assert ParseNat(h) == None;
    }
  }

  lemma NonDigitSlice(s: string, i: nat, j: nat, k: nat)
    requires i <= k < j && k < |s| && !IsDigit(s[k])
    ensures ParseNat(Slice(s, i, j)) == None
  {
    assert Slice(s, i, j)[k - i] == s[k];
  }

  /** `%04d%02d%02d_%02d` of four field values: what a name written from those numbers looks like. */
  function WrittenStem(y: nat, m: nat, d: nat, h: nat): string
    requires y < 10000 && m < 100 && d < 100 && h < 100
  {
    PadDecimal(y, 4) + PadDecimal(m, 2) + PadDecimal(d, 2) + "_" + PadDecimal(h, 2)
  }

  /** A name written from four numbers that are no calendar instant gives None, and the function as written rejects
      it too. */
  lemma WrittenImpossibleRejected(y: nat, m: nat, d: nat, h: nat)
    requires y < 10000 && m < 100 && d < 100 && h < 100
    requires !IsValid(DateTime(y, m, d, h))
    ensures ParseStem(WrittenStem(y, m, d, h)) == None
    ensures ParseStemAsWritten(WrittenStem(y, m, d, h)) == Rejected
  {
    var ys, ms, ds := PadDecimal(y, 4), PadDecimal(m, 2), PadDecimal(d, 2);
    ThreeSlices(ys, ms, ds);
    DigitsConcat(ys, ms, ds);
    PadDecimalRoundTrip(y, 4);
    PadDecimalRoundTrip(m, 2);
    PadDecimalRoundTrip(d, 2);
    PadDecimalRoundTrip(h, 2);
    ImpossibleDateRejected(ys + ms + ds, PadDecimal(h, 2), "");
  }

  /** Instances: month 13, 31 April, 29 February of a common year, hour 24 and year 0. */
  lemma RejectedExamples()
    ensures ParseStem(WrittenStem(2024, 13, 1, 6)) == None
    ensures ParseStem(WrittenStem(2024, 4, 31, 6)) == None
    ensures ParseStem(WrittenStem(2023, 2, 29, 6)) == None
    ensures ParseStem(WrittenStem(2024, 1, 1, 24)) == None
    ensures ParseStem(WrittenStem(0, 1, 1, 6)) == None
  {
    WrittenImpossibleRejected(2024, 13, 1, 6);
    WrittenImpossibleRejected(2024, 4, 31, 6);
    WrittenImpossibleRejected(2023, 2, 29, 6);
    WrittenImpossibleRejected(2024, 1, 1, 24);
    WrittenImpossibleRejected(0, 1, 1, 6);
  }

  /** The corrected parser agrees with the function as written wherever the latter returns, and returns None where it
      raises. */
  lemma CorrectedParserAgrees(stem: string)
    ensures ParseStem(stem).Some? <==> ParseStemAsWritten(stem).Parsed?
    ensures ParseStem(stem).Some? ==> ParseStemAsWritten(stem) == Parsed(ParseStem(stem).value)
  {
  }

  /** One entry of `ZARR_INPUT_DIR.iterdir()`. */
  datatype Entry = Entry(name: string, isDir: bool)

  predicate IsZarrDir(e: Entry) {
    e.isDir && Suffix(e.name) == ".zarr"
  }

  function ZarrNames(entries: seq<Entry>): seq<string>
    decreases |entries|
  {
    if |entries| == 0 then []
    else (if IsZarrDir(entries[0]) then [entries[0].name] else []) + ZarrNames(entries[1..])
  }

  /** `find_zarr_files`: the `.zarr` directories of the input directory, sorted; none when the directory is missing. */
  function FindZarrFiles(listing: Option<seq<Entry>>): seq<string> {
    match listing
    case None => []
    case Some(entries) => SortStrings(ZarrNames(entries))
  }

  lemma {:induction false} ZarrNamesMembers(entries: seq<Entry>, n: string)
    ensures n in ZarrNames(entries) <==> exists i :: 0 <= i < |entries| && entries[i].name == n && IsZarrDir(entries[i])
    decreases |entries|
  {
    if |entries| > 0 {
      ZarrNamesMembers(entries[1..], n);
      if exists i :: 0 <= i < |entries| && entries[i].name == n && IsZarrDir(entries[i]) {
        var i :| 0 <= i < |entries| && entries[i].name == n && IsZarrDir(entries[i]);
        if i > 0 {
          assert entries[1..][i - 1] == entries[i];
        }
      }
      if exists i :: 0 <= i < |entries| - 1 && entries[1..][i].name == n && IsZarrDir(entries[1..][i]) {
        var i :| 0 <= i < |entries| - 1 && entries[1..][i].name == n && IsZarrDir(entries[1..][i]);
        assert entries[i + 1] == entries[1..][i];
      }
    }
  }

  /** The result is sorted and holds exactly the directory entries whose suffix is `.zarr`. */
  lemma FindZarrFilesSelects(listing: Option<seq<Entry>>, n: string)
    ensures SortedStrings(FindZarrFiles(listing))
    ensures listing.None? ==> FindZarrFiles(listing) == []
    ensures listing.Some? ==>
      (n in FindZarrFiles(listing) <==>
        exists i :: 0 <= i < |listing.value| && listing.value[i].name == n && IsZarrDir(listing.value[i]))
  {
    if listing.Some? {
      ZarrNamesMembers(listing.value, n);
      var names := ZarrNames(listing.value);
      assert n in names <==> n in multiset(names);
      assert n in SortStrings(names) <==> n in multiset(SortStrings(names));
    }
  }

  /** What the model gets from a Zarr input: whether it has a time dimension, its time values, and whether it has `dswrf`. */
  datatype ZarrInput = ZarrInput(hasTime: bool, times: seq<int>, hasDswrf: bool)

  /** The forcings of a run: an empty dataset, or `dswrf` at the given times. */
  datatype Forcings = NoForcings | Forcings(times: seq<int>)

  /** `convert_zarr_to_graphcast_format`'s result, as time axes. */
  datatype ModelInputs = ModelInputs(inputTimes: seq<int>, templateTimes: seq<int>, forcings: Forcings)

  datatype ForecastError = TooFewTimesteps(got: nat) | ForcingsWithoutTime

  /** `convert_zarr_to_graphcast_format`: steps 0 and 1 as inputs, step 1 as the target template. */
  function Convert(z: ZarrInput): Result<ModelInputs, ForecastError> {
    if z.hasTime && |z.times| >= 2 then
      Ok(ModelInputs(z.times[..2], z.times[1..2], if z.hasDswrf then Forcings(z.times[..2]) else NoForcings))
    else Err(TooFewTimesteps(if z.hasTime then |z.times| else 0))
  }

  /** The time axis of `extended_targets_template`: one target per step, `step * 6` hours after the template's time. */
  function TargetTimes(t0: int): seq<int> {
    seq(NumForecastSteps, k requires 0 <= k < NumForecastSteps => t0 + k * ForecastInterval)
  }

  /** The timeline has 40 targets starting at the template time, each 6 hours after the one before. */
  lemma TargetTimeline(t0: int)
    ensures |TargetTimes(t0)| == 40
    ensures TargetTimes(t0)[0] == t0
    ensures forall k :: 0 <= k < 39 ==> TargetTimes(t0)[k + 1] == TargetTimes(t0)[k] + 6
    ensures forall i, j :: 0 <= i < j < 40 ==> TargetTimes(t0)[i] < TargetTimes(t0)[j]
  {
  }

  /** `_create_extended_forcings`: empty forcings come back unchanged; otherwise `numSteps` copies of the last forcing,
      the k-th `6k` hours after it. None stands for the IndexError of forcings without a time step. */
  function ExtendedForcings(f: Forcings, numSteps: nat): Option<Forcings> {
    match f
    case NoForcings => Some(NoForcings)
    case Forcings(times) =>
      if |times| == 0 then None
      else Some(Forcings(seq(numSteps, k requires 0 <= k < numSteps => times[|times| - 1] + k * ForecastInterval)))
  }

  /** The time axes `run_forecast` hands to the model. */
  datatype ForecastPlan = ForecastPlan(inputTimes: seq<int>, targetTimes: seq<int>, forcings: Forcings)

  /** `run_forecast`, up to the model call. */
  function PlanForecast(z: ZarrInput): Result<ForecastPlan, ForecastError> {
    match Convert(z)
    case Err(e) => Err(e)
    case Ok(data) =>
      match ExtendedForcings(data.forcings, NumForecastSteps)
      case None => Err(ForcingsWithoutTime)
      case Some(forcings) => Ok(ForecastPlan(data.inputTimes, TargetTimes(data.templateTimes[0]), forcings))
  }

  /** A forecast fails exactly when the input has fewer than two time steps. Otherwise the inputs are its first two
      steps, the targets run from the second step in 40 steps of 6 hours, and the forcings, when present, share the
      targets' timeline. */
  lemma ForecastTimelines(z: ZarrInput)
    ensures PlanForecast(z).Err? <==> !z.hasTime || |z.times| < 2
    ensures PlanForecast(z).Ok? ==>
      var p := PlanForecast(z).value;
      && p.inputTimes == z.times[..2]
      && |p.targetTimes| == NumForecastSteps
      && (forall k :: 0 <= k < |p.targetTimes| ==> p.targetTimes[k] == z.times[1] + 6 * k)
      && (p.forcings.NoForcings? <==> !z.hasDswrf)
      && (p.forcings.Forcings? ==> p.forcings.times == p.targetTimes)
  {
  }

  /** Extending non-empty forcings gives `numSteps` entries, the k-th timed `6k` hours after the last forcing. */
  lemma ExtendedForcingsTimeline(f: Forcings, numSteps: nat)
    ensures f.NoForcings? ==> ExtendedForcings(f, numSteps) == Some(f)
    ensures f.Forcings? && |f.times| > 0 ==>
      && ExtendedForcings(f, numSteps).Some?
      && ExtendedForcings(f, numSteps).value.Forcings?
      && |ExtendedForcings(f, numSteps).value.times| == numSteps
      && forall k :: 0 <= k < numSteps ==>
           ExtendedForcings(f, numSteps).value.times[k] == f.times[|f.times| - 1] + 6 * k
  {
  }

  /** One entry of `forecast_results`. */
  datatype RunResult = RunResult(name: string, initialTime: Instant)

  function InitialHours(r: RunResult): int {
    HoursOf(r.initialTime)
  }

  /** The merged dataset's runs, in `forecast_run` order, and that coordinate. */
  datatype Merged = Merged(runs: seq<RunResult>, forecastRun: seq<Instant>)

  datatype MergeError = NoResults

  /** `merge_forecasts`: runs sorted by initial time, `forecast_run` set to the sorted initial times. */
  function MergeForecasts(results: seq<RunResult>): Result<Merged, MergeError> {
    if |results| == 0 then Err(NoResults)
    else
      var sorted := SortBy(results, InitialHours);
      Ok(Merged(sorted, seq(|sorted|, i requires 0 <= i < |sorted| => sorted[i].initialTime)))
  }

  /** Merging fails only on no results; otherwise it keeps every run, orders them by initial time as datetimes compare,
      and labels run i with its own initial time. */
  lemma MergeOrdersRuns(results: seq<RunResult>)
    ensures MergeForecasts(results).Err? <==> |results| == 0
    ensures MergeForecasts(results).Ok? ==>
      var m := MergeForecasts(results).value;
      && multiset(m.runs) == multiset(results)
      && |m.forecastRun| == |m.runs| == |results|
      && (forall i :: 0 <= i < |m.runs| ==> m.forecastRun[i] == m.runs[i].initialTime)
      && (forall i, j :: 0 <= i < j < |m.runs| ==> !FieldsBefore(m.runs[j].initialTime, m.runs[i].initialTime))
  {
    if |results| > 0 {
      var m := MergeForecasts(results).value;
      forall i, j | 0 <= i < j < |m.runs|
        ensures !FieldsBefore(m.runs[j].initialTime, m.runs[i].initialTime)
      {
        assert InitialHours(m.runs[i]) <= InitialHours(m.runs[j]);
        HoursOrderIsFieldOrder(m.runs[j].initialTime, m.runs[i].initialTime);
      }
    }
  }

  /** `min(result['initial_time'] for result in forecast_results)`. */
  function EarliestRun(results: seq<RunResult>): (r: Instant)
    requires |results| > 0
    ensures exists i :: 0 <= i < |results| && results[i].initialTime == r
    ensures forall i :: 0 <= i < |results| ==> HoursOf(r) <= HoursOf(results[i].initialTime)
    decreases |results|
  {
    if |results| == 1 then results[0].initialTime
    else
      var rest := EarliestRun(results[1..]);
      assert forall i :: 1 <= i < |results| ==> results[i] == results[1..][i - 1];
      if HoursOf(results[0].initialTime) <= HoursOf(rest) then results[0].initialTime else rest
  }

  /** `generate_output_filename`: the earliest initial time as `%Y_%m_%d_%H`; with no results, the wall-clock `now`. */
  function OutputFilename(results: seq<RunResult>, now: Instant): string {
    "graphcast_forecast_" + FormatUnderscored(if |results| == 0 then now else EarliestRun(results)) + ".zarr"
  }

  /** The output name does not depend on the order of the results. */
  lemma OutputFilenameOrderFree(a: seq<RunResult>, b: seq<RunResult>, now: Instant)
    requires multiset(a) == multiset(b)
    ensures OutputFilename(a, now) == OutputFilename(b, now)
  {
    assert |a| == |multiset(a)| == |multiset(b)| == |b|;
    if |a| > 0 {
      var ea := EarliestRun(a);
      var eb := EarliestRun(b);
      var i :| 0 <= i < |a| && a[i].initialTime == ea;
      var j :| 0 <= j < |b| && b[j].initialTime == eb;
      assert a[i] in multiset(b);
      assert b[j] in multiset(a);
      var i' :| 0 <= i' < |b| && b[i'] == a[i];
      var j' :| 0 <= j' < |a| && a[j'] == b[j];
      assert HoursOf(eb) <= HoursOf(ea) && HoursOf(ea) <= HoursOf(eb);
      HoursOrderIsFieldOrder(ea, eb);
    }
  }

  /** Result i has the earliest initial time and the output name carries it. */
  predicate EarliestAt(results: seq<RunResult>, now: Instant, i: int) {
    && 0 <= i < |results|
    && OutputFilename(results, now) == "graphcast_forecast_" + FormatUnderscored(results[i].initialTime) + ".zarr"
    && forall j :: 0 <= j < |results| ==> !FieldsBefore(results[j].initialTime, results[i].initialTime)
  }

  /** The name carries the earliest initial time among the results. */
  lemma OutputFilenameNamesEarliest(results: seq<RunResult>, now: Instant)
    requires |results| > 0
    ensures exists i :: EarliestAt(results, now, i)
  {
    var e := EarliestRun(results);
    var i :| 0 <= i < |results| && results[i].initialTime == e;
    forall j | 0 <= j < |results|
      ensures !FieldsBefore(results[j].initialTime, results[i].initialTime)
    {
      HoursOrderIsFieldOrder(results[j].initialTime, e);
    }
    assert EarliestAt(results, now, i);
  }

  /** Errors of `main` before the merge. */
  datatype WorkflowError = NoZarrFiles | NoForecasts

  /** The loop of `main`: files whose name does not parse are skipped, as are those whose forecast fails. */
  function CollectRuns(files: seq<string>, completes: string -> bool): seq<RunResult>
    decreases |files|
  {
    if |files| == 0 then []
    else
      var here := match ParseRunName(files[0])
        case None => []
        case Some(t) => if completes(files[0]) then [RunResult(files[0], t)] else [];
      here + CollectRuns(files[1..], completes)
  }

  /** `main` up to the merge: the runs to merge, or why the workflow exits. */
  function ScheduleRuns(listing: Option<seq<Entry>>, completes: string -> bool): Result<seq<RunResult>, WorkflowError> {
    var files := FindZarrFiles(listing);
    if |files| == 0 then Err(NoZarrFiles)
    else
      var runs := CollectRuns(files, completes);
      if |runs| == 0 then Err(NoForecasts) else Ok(runs)
  }

  lemma {:induction false} CollectRunsSound(files: seq<string>, completes: string -> bool, k: nat)
    requires k < |CollectRuns(files, completes)|
    ensures var r := CollectRuns(files, completes)[k];
      r.name in files && ParseRunName(r.name) == Some(r.initialTime) && completes(r.name)
    decreases |files|
  {
    var here := match ParseRunName(files[0])
      case None => []
      case Some(t) => if completes(files[0]) then [RunResult(files[0], t)] else [];
    var all := CollectRuns(files, completes);
    assert all == here + CollectRuns(files[1..], completes);
    if k >= |here| {
      CollectRunsSound(files[1..], completes, k - |here|);
      assert all[k] == CollectRuns(files[1..], completes)[k - |here|];
    }
  }

  /** Every run that reaches the merge is a `.zarr` directory of the input directory whose name gives its initial time
      and whose forecast completed. */
  lemma ScheduledRunsSound(listing: Option<seq<Entry>>, completes: string -> bool)
    ensures ScheduleRuns(listing, completes).Ok? ==>
      forall k :: 0 <= k < |ScheduleRuns(listing, completes).value| ==>
        var r := ScheduleRuns(listing, completes).value[k];
        && listing.Some?
        && (exists i :: 0 <= i < |listing.value| && listing.value[i].name == r.name && IsZarrDir(listing.value[i]))
        && ParseRunName(r.name) == Some(r.initialTime)
        && completes(r.name)
  {
    if ScheduleRuns(listing, completes).Ok? {
      var runs := ScheduleRuns(listing, completes).value;
      forall k | 0 <= k < |runs|
        ensures listing.Some?
        ensures exists i :: 0 <= i < |listing.value| && listing.value[i].name == runs[k].name && IsZarrDir(listing.value[i])
        ensures ParseRunName(runs[k].name) == Some(runs[k].initialTime) && completes(runs[k].name)
      {
        CollectRunsSound(FindZarrFiles(listing), completes, k);
        FindZarrFilesSelects(listing, runs[k].name);
      }
    }
  }

  /** A file whose name parses and whose forecast completes is never dropped. */
  lemma {:induction false} CollectRunsComplete(files: seq<string>, completes: string -> bool, f: string)
    requires f in files && ParseRunName(f).Some? && completes(f)
    ensures RunResult(f, ParseRunName(f).value) in CollectRuns(files, completes)
    decreases |files|
  {
    if files[0] != f {
      CollectRunsComplete(files[1..], completes, f);
    }
  }

  /** `main` exits with "no Zarr files" exactly when none is found, and with "no forecasts" exactly when some are found
      but none both parses and completes; otherwise every such file is among the runs to merge. */
  lemma ScheduleRunsOutcome(listing: Option<seq<Entry>>, completes: string -> bool)
    ensures ScheduleRuns(listing, completes) == Err(NoZarrFiles) <==> |FindZarrFiles(listing)| == 0
    ensures ScheduleRuns(listing, completes) == Err(NoForecasts) <==>
      && |FindZarrFiles(listing)| > 0
      && forall f :: f in FindZarrFiles(listing) ==> ParseRunName(f).None? || !completes(f)
    ensures ScheduleRuns(listing, completes).Ok? ==>
      forall f :: f in FindZarrFiles(listing) && ParseRunName(f).Some? && completes(f) ==>
        RunResult(f, ParseRunName(f).value) in ScheduleRuns(listing, completes).value
  {
    var files := FindZarrFiles(listing);
    forall f | f in files && ParseRunName(f).Some? && completes(f)
      ensures RunResult(f, ParseRunName(f).value) in CollectRuns(files, completes)
    {
      CollectRunsComplete(files, completes, f);
    }
    if |files| > 0 && |CollectRuns(files, completes)| > 0 {
      CollectRunsSound(files, completes, 0);
    }
  }
}

=== FILE: grib_steps.dfy ===
/** What the two `04_zarr.py` scripts share: the `pgrb2`/`pgrb2b` dictionary of
    GRIB files found for one forecast step, `validate_dataset`, and the way
    `merge_forecast_step` opens and validates one dataset after another. An
    opened dataset is seen only through `validate_dataset`'s eyes: absent, or
    holding some number of data variables. */
module GribSteps {
  import opened Base
  import opened Strings
  import opened Paths
  import opened Dicts

  /** Keys of the files dictionary. */
  const PrimaryKey := "pgrb2"
  const SecondaryKey := "pgrb2b"

  /** File name endings of the two GRIB parts of a forecast step. */
  const PrimaryEnding := "_pgrba.grib2"
  const SecondaryEnding := "_pgrbb.grib2"

  /** `_candidates_for_prefix(dir, stem)` (and the two paths `find_forecast_files` builds in `04_zarr.py`). */
  function Candidates(dir: string, stem: string): (string, string) {
    (Join(dir, stem + PrimaryEnding), Join(dir, stem + SecondaryEnding))
  }

  /** The two `if cand.exists(): files[...] = cand` statements, applied to `files`. */
  function AddCandidates(fs: FileSystem, files: Dict<string>, dir: string, stem: string): Dict<string> {
    var (a, b) := Candidates(dir, stem);
    var withA := if fs.Exists(a) then Put(files, PrimaryKey, a) else files;
    if fs.Exists(b) then Put(withA, SecondaryKey, b) else withA
  }

  /** The files of a step found in one directory, starting from an empty dictionary. */
  function FilesAt(fs: FileSystem, dir: string, stem: string): Dict<string> {
    AddCandidates(fs, [], dir, stem)
  }

  /** The dictionary holds `pgrb2` exactly when the `_pgrba` candidate exists and `pgrb2b` exactly when the `_pgrbb`
      candidate exists, each mapped to its candidate, and no other key. */
  lemma FilesAtContents(fs: FileSystem, dir: string, stem: string)
    ensures Get(FilesAt(fs, dir, stem), PrimaryKey) ==
      (if fs.Exists(Candidates(dir, stem).0) then Some(Candidates(dir, stem).0) else None)
    ensures Get(FilesAt(fs, dir, stem), SecondaryKey) ==
      (if fs.Exists(Candidates(dir, stem).1) then Some(Candidates(dir, stem).1) else None)
    ensures forall k :: HasKey(FilesAt(fs, dir, stem), k) ==> k == PrimaryKey || k == SecondaryKey
    ensures |FilesAt(fs, dir, stem)| == 0 <==> !fs.Exists(Candidates(dir, stem).0) && !fs.Exists(Candidates(dir, stem).1)
  {
    var files := FilesAt(fs, dir, stem);
    forall k | HasKey(files, k)
      ensures k == PrimaryKey || k == SecondaryKey
    {
      assert Get(files, k).Some?;
    }
    if |files| > 0 {
      assert HasKey(files, files[0].0);
    }
  }

  /** `validate_dataset`: None when the dataset passes, else the ValueError message. */
  function Validate(ds: Option<nat>, name: string): Option<string> {
    match ds
    case None => Some(name + " is None")
    case Some(vars) => if vars == 0 then Some(name + " has no data variables") else None
  }

  /** Validation fails exactly for a missing dataset or one without data variables, and the message names it. */
  lemma ValidateFails(ds: Option<nat>, name: string)
    ensures Validate(ds, name).Some? <==> ds.None? || ds.value == 0
    ensures Validate(ds, name).Some? ==> Validate(ds, name).value[..|name|] == name
  {
  }

  /** One `open_*` call of `merge_forecast_step`: the name `validate_dataset` reports, and the file opened. */
  datatype Read = Read(name: string, file: string)

  /** The dataset `open` returns for a read passes `validate_dataset`; `open` gives None, or the number of data variables. */
  predicate Passes(open: Read -> Option<nat>, r: Read) {
    Validate(open(r), r.name).None?
  }

  /** The reads `merge_forecast_step` performs: one per primary reader on the `pgrb2` file when present, then one per
      secondary reader on the `pgrb2b` file when present. */
  function StepReads(files: Dict<string>, primaryNames: seq<string>, secondaryNames: seq<string>): seq<Read> {
    (match Get(files, PrimaryKey)
     case None => []
     case Some(f) => seq(|primaryNames|, i requires 0 <= i < |primaryNames| => Read(primaryNames[i], f)))
    + (match Get(files, SecondaryKey)
       case None => []
       case Some(f) => seq(|secondaryNames|, i requires 0 <= i < |secondaryNames| => Read(secondaryNames[i], f)))
  }

  /** The message of the first read that fails validation, or None when all pass. */
  function FirstFailure(calls: seq<Read>, open: Read -> Option<nat>): (r: Option<string>)
    ensures r.None? <==> forall i :: 0 <= i < |calls| ==> Passes(open, calls[i])
    ensures r.Some? ==> exists i :: 0 <= i < |calls| && FailsFirstAt(calls, open, i) && r == Validate(open(calls[i]), calls[i].name)
    decreases |calls|
  {
    if |calls| == 0 then None
    else if !Passes(open, calls[0]) then
      assert FailsFirstAt(calls, open, 0);
      Validate(open(calls[0]), calls[0].name)
    else
      var rest := FirstFailure(calls[1..], open);
      assert forall i :: 1 <= i < |calls| ==> calls[i] == calls[1..][i - 1];
      if rest.Some? then
        var i :| 0 <= i < |calls| - 1 && FailsFirstAt(calls[1..], open, i) && rest == Validate(open(calls[1..][i]), calls[1..][i].name);
        assert FailsFirstAt(calls, open, i + 1);
        rest
      else rest
  }

  /** Read i fails and every read before it passes. */
  predicate FailsFirstAt(calls: seq<Read>, open: Read -> Option<nat>, i: int) {
    && 0 <= i < |calls|
    && !Passes(open, calls[i])
    && forall j :: 0 <= j < i ==> Passes(open, calls[j])
  }

  datatype StepError = NoGribFiles | InvalidDataset(message: string)

  /** `merge_forecast_step`, up to the opaque `xr.merge`: the datasets merged, in order. */
  function MergeStep(files: Dict<string>, primaryNames: seq<string>, secondaryNames: seq<string>,
                     open: Read -> Option<nat>): Result<seq<Read>, StepError> {
    var calls := StepReads(files, primaryNames, secondaryNames);
    match FirstFailure(calls, open)
    case Some(message) => Err(InvalidDataset(message))
    case None => if |calls| == 0 then Err(NoGribFiles) else Ok(calls)
  }

  /** A step merges one dataset per primary reader when `pgrb2` is present plus one per secondary reader when `pgrb2b`
      is, each calls on its own file; it fails with FileNotFoundError exactly when neither is present, and otherwise
      only when a dataset fails validation. */
  lemma MergeStepShape(files: Dict<string>, primaryNames: seq<string>, secondaryNames: seq<string>,
                       open: Read -> Option<nat>)
    requires |primaryNames| > 0 && |secondaryNames| > 0
    ensures MergeStep(files, primaryNames, secondaryNames, open) == Err(NoGribFiles) <==>
      !HasKey(files, PrimaryKey) && !HasKey(files, SecondaryKey)
    ensures (MergeStep(files, primaryNames, secondaryNames, open).Err?
      && MergeStep(files, primaryNames, secondaryNames, open).error.InvalidDataset?) <==>
      exists i :: 0 <= i < |StepReads(files, primaryNames, secondaryNames)| &&
        !Passes(open, StepReads(files, primaryNames, secondaryNames)[i])
    ensures MergeStep(files, primaryNames, secondaryNames, open).Ok? ==>
      var calls := MergeStep(files, primaryNames, secondaryNames, open).value;
      var p := if HasKey(files, PrimaryKey) then |primaryNames| else 0;
      && |calls| == p + (if HasKey(files, SecondaryKey) then |secondaryNames| else 0)
      && (forall i :: 0 <= i < p ==> calls[i] == Read(primaryNames[i], Get(files, PrimaryKey).value))
      && (forall i :: p <= i < |calls| ==> calls[i] == Read(secondaryNames[i - p], Get(files, SecondaryKey).value))
  {
  }

  /** A step whose required part is present and whose datasets all validate merges. */
  lemma MergeStepSucceeds(files: Dict<string>, primaryNames: seq<string>, secondaryNames: seq<string>,
                          open: Read -> Option<nat>)
    requires HasKey(files, PrimaryKey) && |primaryNames| > 0
    requires forall r :: Passes(open, r)
    ensures MergeStep(files, primaryNames, secondaryNames, open).Ok?
  {
    var calls := StepReads(files, primaryNames, secondaryNames);
    assert calls[0] == Read(primaryNames[0], Get(files, PrimaryKey).value);
  }
}

=== FILE: paths.dfy ===
/** The parts of `pathlib.PurePosixPath` and `os.path.join` the pipeline uses,
    over path strings that are already in normal form (no empty or `.`
    components, no trailing `/`), and a filesystem seen as the set of paths
    that exist. */
module Paths {

  /** The filesystem as far as `Path.exists()` and `Path.is_dir()` can tell. */
  datatype FileSystem = FileSystem(files: set<string>, dirs: set<string>) {

    predicate Exists(p: string) {
      p in files || p in dirs
    }

    predicate IsDir(p: string) {
      p in dirs
    }
  }

  /** Position of the last `c` in `s`, or -1. */
  function LastIndexOf(s: string, c: char): (i: int)
    ensures -1 <= i < |s|
    ensures 0 <= i ==> s[i] == c
    ensures forall k :: i < k < |s| ==> s[k] != c
    decreases |s|
  {
    if |s| == 0 then -1
    else if s[|s| - 1] == c then |s| - 1
    else LastIndexOf(s[..|s| - 1], c)
  }

  /** `Path(p).name`: the final component. */
  function Name(p: string): string {
    if p == "" || p == "." then "" else p[LastIndexOf(p, '/') + 1..]
  }

  /** `Path(p).parent`: everything before the final component. */
  function Parent(p: string): string {
    var i := LastIndexOf(p, '/');
    if i < 0 then "." else if i == 0 then "/" else p[..i]
  }

  /** Position of the dot that starts `name`'s suffix, or -1 when it has none. */
  function SuffixStart(name: string): int {
    var i := LastIndexOf(name, '.');
    if 0 < i < |name| - 1 then i else -1
  }

  /** `Path(name).suffix`: from the last dot, unless that dot leads or ends the name. */
  function Suffix(name: string): string {
    var i := SuffixStart(name);
    if i < 0 then "" else name[i..]
  }

  /** `Path(name).stem`: the name without its suffix. */
  function Stem(name: string): string {
    var i := SuffixStart(name);
    if i < 0 then name else name[..i]
  }

  /** `Path(dir) / name` (and `os.path.join(dir, name)` for a `dir` other than "."). */
  function Join(dir: string, name: string): string {
    if |name| > 0 && name[0] == '/' then name
    else if dir == "" || dir == "." then name
    else if dir[|dir| - 1] == '/' then dir + name
    else dir + "/" + name
  }

  /** Stem and suffix split a name in two. */
  lemma StemSuffixSplit(name: string)
    ensures Stem(name) + Suffix(name) == name
  {
  }

  /** A name ending in `.ext` (with no other dot in `.ext`) has that suffix and the rest as its stem. */
  lemma StemOfExtension(base: string, ext: string)
    requires |base| > 0 && |ext| >= 2 && ext[0] == '.' && '.' !in ext[1..]
    ensures Suffix(base + ext) == ext
    ensures Stem(base + ext) == base
  {
    var s := base + ext;
    var i := LastIndexOf(s, '.');
    assert s[|base|] == '.';
    forall k | |base| < k < |s|
      ensures s[k] != '.'
    {
      assert s[k] == ext[1..][k - |base| - 1];
    }
    assert i == |base|;
  }

  /** Joining a plain name onto a directory and taking it apart again recovers both. */
  lemma NameParentOfJoin(dir: string, name: string)
    requires |dir| > 0 && dir != "." && dir[|dir| - 1] != '/'
    requires |name| > 0 && '/' !in name && name != "."
    ensures Join(dir, name) == dir + "/" + name
    ensures Name(Join(dir, name)) == name
    ensures Parent(Join(dir, name)) == dir
  {
    var p := dir + "/" + name;
    var i := LastIndexOf(p, '/');
    assert p[|dir|] == '/';
    forall k | |dir| < k < |p|
      ensures p[k] != '/'
    {
      assert p[k] == name[k - |dir| - 1];
    }
    assert i == |dir|;
    assert p[i + 1..] == name;
  }
  /** Joining a plain name onto `.` gives the bare name, whose parent is `.` again. */
  lemma NameParentOfDotJoin(name: string)
    requires |name| > 0 && '/' !in name && name != "."
    ensures Join(".", name) == name
    ensures Name(Join(".", name)) == name
    ensures Parent(Join(".", name)) == "."
  {
    assert LastIndexOf(name, '/') < 0;
  }
}

=== FILE: sorting.dfy ===
/** Python's `sorted` and `list.sort` as insertion sorts: by an integer key, and
    by code-point order on strings. */
module Sorting {
  import opened Strings

  predicate SortedBy<T>(s: seq<T>, key: T -> int) {
    forall i, j :: 0 <= i < j < |s| ==> key(s[i]) <= key(s[j])
  }

  /** Places `x` before the first element whose key is not smaller, so equal keys keep their order. */
  function InsertBy<T>(x: T, s: seq<T>, key: T -> int): (r: seq<T>)
    requires SortedBy(s, key)
    ensures SortedBy(r, key)
    ensures multiset(r) == multiset(s) + multiset{x}
  {
    if |s| == 0 then [x]
    else if key(x) <= key(s[0]) then
      ConsSorted(x, s, key);
      [x] + s
    else
      var rest := InsertBy(x, s[1..], key);
      assert s == [s[0]] + s[1..];
      HeadBelow(s, x, rest, key);
      ConsSorted(s[0], rest, key);
      [s[0]] + rest
  }

  /** An element no larger than the first of a sorted sequence can go in front of it. */
  lemma ConsSorted<T>(y: T, rest: seq<T>, key: T -> int)
    requires SortedBy(rest, key) && (|rest| == 0 || key(y) <= key(rest[0]))
    ensures SortedBy([y] + rest, key)
  {
    forall i, j | 0 <= i < j < |rest| + 1
      ensures key(([y] + rest)[i]) <= key(([y] + rest)[j])
    {
      assert ([y] + rest)[j] == rest[j - 1];
      if i > 0 {
        assert ([y] + rest)[i] == rest[i - 1];
      }
    }
  }

  lemma HeadBelow<T>(s: seq<T>, x: T, rest: seq<T>, key: T -> int)
    requires |s| > 0 && SortedBy(s, key) && key(s[0]) < key(x)
    requires multiset(rest) == multiset(s[1..]) + multiset{x}
    ensures |rest| == 0 || key(s[0]) <= key(rest[0])
  {
    if |rest| > 0 {
      assert rest[0] in multiset(rest);
      if rest[0] != x {
        assert rest[0] in multiset(s[1..]);
        var m :| 0 <= m < |s[1..]| && s[1..][m] == rest[0];
        assert s[m + 1] == rest[0];
      }
    }
  }

  function SortBy<T>(s: seq<T>, key: T -> int): (r: seq<T>)
    ensures SortedBy(r, key)
    ensures multiset(r) == multiset(s)
    ensures |r| == |s|
  {
    if |s| == 0 then []
    else
      assert s == [s[0]] + s[1..];
      InsertBy(s[0], SortBy(s[1..], key), key)
  }

  predicate SortedStrings(s: seq<string>) {
    forall i, j :: 0 <= i < j < |s| ==> LexLe(s[i], s[j])
  }

  function InsertString(x: string, s: seq<string>): (r: seq<string>)
    requires SortedStrings(s)
    ensures SortedStrings(r)
    ensures multiset(r) == multiset(s) + multiset{x}
  {
    if |s| == 0 then [x]
    else if LexLe(x, s[0]) then
      forall k | 0 < k < |s|
        ensures LexLe(x, s[k])
      {
        LexLeTransitive(x, s[0], s[k]);
      }
      [x] + s
    else
      LexLeTotal(x, s[0]);
      var rest := InsertString(x, s[1..]);
      assert s == [s[0]] + s[1..];
      forall k | 0 <= k < |rest|
        ensures LexLe(s[0], rest[k])
      {
        assert rest[k] in multiset(s[1..]) + multiset{x};
        if rest[k] != x {
          assert rest[k] in s[1..];
        }
      }
      [s[0]] + rest
  }

  /** `sorted(names)` for strings. */
  function SortStrings(s: seq<string>): (r: seq<string>)
    ensures SortedStrings(r)
    ensures multiset(r) == multiset(s)
    ensures |r| == |s|
  {
    if |s| == 0 then []
    else
      assert s == [s[0]] + s[1..];
      InsertString(s[0], SortStrings(s[1..]))
  }

  predicate Distinct<T(==)>(s: seq<T>) {
    forall i, j :: 0 <= i < j < |s| ==> s[i] != s[j]
  }

  /** A sequence has no repeats exactly when no element occurs twice in its multiset. */
  lemma {:induction false} DistinctByCount<T>(s: seq<T>)
    ensures Distinct(s) <==> forall x :: multiset(s)[x] <= 1
    decreases |s|
  {
    if |s| > 0 {
      DistinctByCount(s[1..]);
      assert s == [s[0]] + s[1..];
      if Distinct(s) {
        assert Distinct(s[1..]) by {
          forall i, j | 0 <= i < j < |s| - 1
            ensures s[1..][i] != s[1..][j]
          {
            assert s[1..][i] == s[i + 1] && s[1..][j] == s[j + 1];
          }
        }
        assert s[0] !in s[1..] by {
          forall k | 0 <= k < |s| - 1
            ensures s[1..][k] != s[0]
          {
            assert s[1..][k] == s[k + 1];
          }
        }
      } else {
        var i, j :| 0 <= i < j < |s| && s[i] == s[j];
        if i == 0 {
          assert s[j] in s[1..] by { assert s[1..][j - 1] == s[j]; }
          assert multiset(s)[s[0]] >= 2;
        } else {
          assert s[1..][i - 1] == s[i] && s[1..][j - 1] == s[j];
          assert !Distinct(s[1..]);
          var x :| multiset(s[1..])[x] > 1;
          assert multiset(s)[x] > 1;
        }
      }
    }
  }

  /** Sorting names keeps them free of repeats. */
  lemma SortStringsDistinct(s: seq<string>)
    requires Distinct(s)
    ensures Distinct(SortStrings(s))
  {
    DistinctByCount(s);
    DistinctByCount(SortStrings(s));
  }
}

=== FILE: strings.dfy ===
/** String helpers with the semantics of the Python built-ins the pipeline
    relies on: `int()` on decimal digits, `str()` of an integer, `%0Nd`
    padding, `str.split`, `str.join`, `str.replace`, clamped slicing,
    `re.findall(r'\d+', ...)` and code-point ordering of strings. */
module Strings {
  import opened Base

  predicate IsDigit(c: char) {
    '0' <= c <= '9'
  }

  predicate AllDigits(s: string) {
    forall i :: 0 <= i < |s| ==> IsDigit(s[i])
  }

  function DigitChar(d: nat): (c: char)
    requires d < 10
    ensures IsDigit(c)
  {
    ('0' as int + d) as char
  }

  function DigitValue(c: char): (d: nat)
    requires IsDigit(c)
    ensures d < 10
  {
    c as int - '0' as int
  }

  /** Value of a string of decimal digits, most significant first; "" is 0. */
  function DigitsValue(s: string): nat
    requires AllDigits(s)
    decreases |s|
  {
    if |s| == 0 then 0 else DigitsValue(s[..|s| - 1]) * 10 + DigitValue(s[|s| - 1])
  }

  lemma AllDigitsConcat(a: string, b: string)
    requires AllDigits(a) && AllDigits(b)
    ensures AllDigits(a + b)
  {
    forall k | 0 <= k < |a + b|
      ensures IsDigit((a + b)[k])
    {
      if k >= |a| {
        assert (a + b)[k] == b[k - |a|];
      }
    }
  }

  /** Python's `int(s)` on a string of ASCII digits; anything else is a ValueError (None). */
  function ParseNat(s: string): Option<nat> {
    if |s| > 0 && AllDigits(s) then Some(DigitsValue(s)) else None
  }

  function Pow10(n: nat): (p: nat)
    ensures p >= 1
  {
    if n == 0 then 1 else 10 * Pow10(n - 1)
  }

  /** `f"{n:0{width}d}"` for a value that fits in `width` digits. */
  function PadDecimal(n: nat, width: nat): (r: string)
    requires n < Pow10(width)
    ensures |r| == width && AllDigits(r)
    decreases width
  {
    if width == 0 then "" else PadDecimal(n / 10, width - 1) + [DigitChar(n % 10)]
  }

  /** Reading a zero-padded field back gives the number that was written. */
  lemma {:induction false} PadDecimalRoundTrip(n: nat, width: nat)
    requires n < Pow10(width)
    ensures ParseNat(PadDecimal(n, width)) == if width == 0 then None else Some(n)
    ensures DigitsValue(PadDecimal(n, width)) == n
    decreases width
  {
    if width > 0 {
      var r := PadDecimal(n, width);
      PadDecimalRoundTrip(n / 10, width - 1);
      assert r[..|r| - 1] == PadDecimal(n / 10, width - 1);
      assert DigitValue(DigitChar(n % 10)) == n % 10;
    }
  }

  /** Python's `str(n)` for a natural number: shortest decimal form. */
  function NatToString(n: nat): (r: string)
    ensures |r| > 0 && AllDigits(r)
  {
    if n < 10 then [DigitChar(n)] else NatToString(n / 10) + [DigitChar(n % 10)]
  }

  lemma {:induction false} NatToStringRoundTrip(n: nat)
    ensures DigitsValue(NatToString(n)) == n
    ensures ParseNat(NatToString(n)) == Some(n)
  {
    var r := NatToString(n);
    if n < 10 {
      assert r[..0] == "";
      assert DigitValue(DigitChar(n)) == n;
    } else {
      NatToStringRoundTrip(n / 10);
      assert r[..|r| - 1] == NatToString(n / 10);
      assert DigitValue(DigitChar(n % 10)) == n % 10;
    }
  }

  /** A number below `10^k` has at most `k` digits. */
  lemma {:induction false} NatToStringLength(n: nat, k: nat)
    requires 1 <= k && n < Pow10(k)
    ensures |NatToString(n)| <= k
    decreases k
  {
    if n >= 10 {
      assert Pow10(1) == 10;
      NatToStringLength(n / 10, k - 1);
    }
  }

  /** Python's `str(i)` for any integer. */
  function IntToString(i: int): string {
    if i < 0 then "-" + NatToString(-i) else NatToString(i)
  }

  /** Python's `s[i:j]` for non-negative bounds: indices past the end are clamped. */
  function Slice(s: string, i: nat, j: nat): (r: string)
    requires i <= j
    ensures |r| <= j - i
    ensures i <= |s| ==> r == s[i..if j <= |s| then j else |s|]
    ensures |s| < i ==> r == ""
  {
    if |s| <= i then "" else if |s| <= j then s[i..] else s[i..j]
  }

  /** Python's `s.split(sep)` for a one-character separator. */
  function Split(s: string, sep: char): (parts: seq<string>)
    ensures |parts| >= 1
    ensures forall k :: 0 <= k < |parts| ==> sep !in parts[k]
    decreases |s|
  {
    if |s| == 0 then [""]
    else
      var rest := Split(s[1..], sep);
      if s[0] == sep then [""] + rest else [[s[0]] + rest[0]] + rest[1..]
  }

  /** Python's `sep.join(parts)`. */
  function JoinWith(parts: seq<string>, sep: string): string
    decreases |parts|
  {
    if |parts| == 0 then ""
    else if |parts| == 1 then parts[0]
    else parts[0] + sep + JoinWith(parts[1..], sep)
  }

  /** Splitting then joining with the same separator gives the string back. */
  lemma {:induction false} JoinSplit(s: string, sep: char)
    ensures JoinWith(Split(s, sep), [sep]) == s
    decreases |s|
  {
    if |s| > 0 {
      var rest := Split(s[1..], sep);
      JoinSplit(s[1..], sep);
      if s[0] == sep {
        assert JoinWith([""] + rest, [sep]) == "" + [sep] + JoinWith(rest, [sep]);
        assert [sep] + s[1..] == s;
      } else if |rest| == 1 {
        assert [s[0]] + s[1..] == s;
      } else {
        var parts := [[s[0]] + rest[0]] + rest[1..];
        assert parts[1..] == rest[1..];
        assert JoinWith(rest, [sep]) == rest[0] + [sep] + JoinWith(rest[1..], [sep]);
        assert [s[0]] + s[1..] == s;
      }
    }
  }

  /** A field free of the separator comes out of `split` whole, followed by the splits of what follows it. */
  lemma {:induction false} SplitLeadingField(a: string, sep: char, t: string)
    requires sep !in a
    ensures Split(a + [sep] + t, sep) == [a] + Split(t, sep)
    decreases |a|
  {
    var s := a + [sep] + t;
    if |a| == 0 {
      assert s[1..] == t;
    } else {
      assert s[1..] == a[1..] + [sep] + t;
      SplitLeadingField(a[1..], sep, t);
      assert [a[0]] + a[1..] == a;
    }
  }

  /** `split` returns the string whole exactly when the separator does not occur in it. */
  lemma {:induction false} SplitWhole(s: string, sep: char)
    ensures sep !in s ==> Split(s, sep) == [s]
    ensures |Split(s, sep)| == 1 <==> sep !in s
    decreases |s|
  {
    if |s| > 0 {
      SplitWhole(s[1..], sep);
      assert s == [s[0]] + s[1..];
    }
  }

  /** True when `pat` occurs in `s` starting at position `i`. */
  predicate OccursAt(s: string, pat: string, i: nat) {
    i + |pat| <= |s| && s[i..i + |pat|] == pat
  }

  /** Python's `s.replace(pat, rep)`: every leftmost non-overlapping occurrence is replaced. */
  function ReplaceAll(s: string, pat: string, rep: string): string
    requires |pat| > 0
    decreases |s|
  {
    if |s| < |pat| then s
    else if s[..|pat|] == pat then rep + ReplaceAll(s[|pat|..], pat, rep)
    else [s[0]] + ReplaceAll(s[1..], pat, rep)
  }

  /** Position of the first `c` in `s`. */
  function FirstIndexOf(s: string, c: char): (i: nat)
    requires c in s
    ensures i < |s| && s[i] == c
    ensures forall k :: 0 <= k < i ==> s[k] != c
  {
    if s[0] == c then 0 else 1 + FirstIndexOf(s[1..], c)
  }

  /** A string lacking one of the pattern's characters is left alone by `replace`. */
  lemma {:induction false} ReplaceAbsent(s: string, pat: string, rep: string, c: char)
    requires |pat| > 0 && c in pat && c !in s
    ensures ReplaceAll(s, pat, rep) == s
    decreases |s|
  {
    if |s| >= |pat| {
      var f := FirstIndexOf(pat, c);
      assert s[..|pat|][f] != pat[f];
      ReplaceAbsent(s[1..], pat, rep, c);
      assert [s[0]] + s[1..] == s;
    }
  }

  /** `x + pat` does not start with `pat` when `x` is non-empty and lacks a character of `pat`. */
  lemma NoMatchBeforeTrailing(x: string, pat: string, c: char)
    requires |x| > 0 && c in pat && c !in x
    ensures (x + pat)[..|pat|] != pat
  {
    var s := x + pat;
    var f := FirstIndexOf(pat, c);
    if f < |x| {
      assert s[f] == x[f];
    } else {
      assert s[f] == pat[f - |x|];
    }
    assert s[..|pat|][f] != pat[f];
  }

  /** When `x` lacks one of the pattern's characters, `replace` on `x + pat` touches only the trailing copy. */
  lemma {:induction false} ReplaceTrailing(x: string, pat: string, rep: string, c: char)
    requires |pat| > 0 && c in pat && c !in x
    ensures ReplaceAll(x + pat, pat, rep) == x + rep
    decreases |x|
  {
    var s := x + pat;
    if |x| == 0 {
      assert s == pat && s[..|pat|] == pat && s[|pat|..] == "";
    } else {
      NoMatchBeforeTrailing(x, pat, c);
      assert |s| >= |pat| && s[..|pat|] != pat;
      assert ReplaceAll(s, pat, rep) == [s[0]] + ReplaceAll(s[1..], pat, rep);
      assert s[1..] == x[1..] + pat;
      ReplaceTrailing(x[1..], pat, rep, c);
      assert [x[0]] + x[1..] == x;
    }
  }

  /** `replace` leaves `x + t` alone when `t` is as long as the pattern but differs from it, and the only place a
      character `c` of the pattern occurs in `x + t` is at the same offset in `t` as in the pattern. */
  lemma {:induction false} ReplaceMissesTrailing(x: string, t: string, pat: string, rep: string, c: char, f: nat)
    requires |t| == |pat| && f < |pat| && pat[f] == c && t != pat
    requires c !in x && forall k :: 0 <= k < |t| && t[k] == c ==> k == f
    ensures ReplaceAll(x + t, pat, rep) == x + t
    decreases |x|
  {
    var s := x + t;
    if |x| == 0 {
      assert s == t && s[..|pat|] == t;
      assert ReplaceAll(s[1..], pat, rep) == s[1..];
      assert [s[0]] + s[1..] == s;
    } else {
      if f < |x| {
        assert s[f] == x[f];
      } else {
        assert s[f] == t[f - |x|];
      }
      assert s[..|pat|][f] != pat[f];
      assert s[1..] == x[1..] + t;
      ReplaceMissesTrailing(x[1..], t, pat, rep, c, f);
      assert [x[0]] + x[1..] == x;
    }
  }

  /** Length of the run of digits at the start of `s`. */
  function LeadingDigits(s: string): (n: nat)
    ensures n <= |s| && AllDigits(s[..n])
    ensures n < |s| ==> !IsDigit(s[n])
  {
    if |s| == 0 || !IsDigit(s[0]) then 0
    else
      var n := 1 + LeadingDigits(s[1..]);
      assert s[..n] == [s[0]] + s[1..][..n - 1];
      n
  }

  /** Python's `[int(m) for m in re.findall(r'\d+', s)]`: the values of the maximal digit runs, left to right. */
  function DigitRuns(s: string): seq<nat>
    decreases |s|
  {
    if |s| == 0 then []
    else if !IsDigit(s[0]) then DigitRuns(s[1..])
    else
      var n := LeadingDigits(s);
      [DigitsValue(s[..n])] + DigitRuns(s[n..])
  }

  predicate NoDigits(s: string) {
    forall i :: 0 <= i < |s| ==> !IsDigit(s[i])
  }

  /** Characters that are not digits contribute no run. */
  lemma {:induction false} RunsSkipNonDigits(p: string, t: string)
    requires NoDigits(p)
    ensures DigitRuns(p + t) == DigitRuns(t)
    decreases |p|
  {
    if |p| == 0 {
      assert p + t == t;
    } else {
      assert (p + t)[1..] == p[1..] + t;
      RunsSkipNonDigits(p[1..], t);
    }
  }

  lemma {:induction false} LeadingDigitsOfRun(d: string, t: string)
    requires AllDigits(d)
    requires |t| == 0 || !IsDigit(t[0])
    ensures LeadingDigits(d + t) == |d|
    decreases |d|
  {
    if |d| == 0 {
      assert d + t == t;
    } else {
      assert (d + t)[1..] == d[1..] + t;
      LeadingDigitsOfRun(d[1..], t);
    }
  }

  /** A maximal run of digits is read as one number. */
  lemma RunsLeadingNumber(d: string, t: string)
    requires |d| > 0 && AllDigits(d)
    requires |t| == 0 || !IsDigit(t[0])
    ensures DigitRuns(d + t) == [DigitsValue(d)] + DigitRuns(t)
  {
    LeadingDigitsOfRun(d, t);
    var s := d + t;
    assert s[..|d|] == d && s[|d|..] == t;
  }

  /** Code-point (lexicographic) order, Python's `<=` on `str`. */
  predicate LexLe(a: string, b: string)
    decreases |a|
  {
    |a| == 0 || (|b| > 0 && (a[0] < b[0] || (a[0] == b[0] && LexLe(a[1..], b[1..]))))
  }

  lemma LexLeTotal(a: string, b: string)
    ensures LexLe(a, b) || LexLe(b, a)
    decreases |a|
  {
    if |a| > 0 && |b| > 0 && a[0] == b[0] {
      LexLeTotal(a[1..], b[1..]);
    }
  }

  lemma LexLeTransitive(a: string, b: string, c: string)
    requires LexLe(a, b) && LexLe(b, c)
    ensures LexLe(a, c)
    decreases |a|
  {
    if |a| > 0 && |b| > 0 && |c| > 0 && a[0] == b[0] && b[0] == c[0] {
      LexLeTransitive(a[1..], b[1..], c[1..]);
    }
  }

  lemma LexLeAntisymmetric(a: string, b: string)
    requires LexLe(a, b) && LexLe(b, a)
    ensures a == b
    decreases |a|
  {
    if |a| > 0 {
      LexLeAntisymmetric(a[1..], b[1..]);
      assert a == [a[0]] + a[1..] && b == [b[0]] + b[1..];
    }
  }
}

=== FILE: time_align.dfy ===
/** `06_nc_zarr.py`: two NetCDF forecasts are joined into one Zarr store after
    the first file's time axis is moved, by one offset, so that it starts 6 hours
    before the second file's; the joined axis is then sorted. Times are integer
    hours. */
module TimeAlign {
  import opened Base
  import opened Sorting

  /** The gap put between the first file's start and the second file's start. */
  const AlignGap := 6

  /** What the script reads from a NetCDF file: whether `time` is a dimension or a coordinate, and its values. */
  datatype NcFile = NcFile(path: string, hasTimeDim: bool, hasTimeCoord: bool, times: seq<int>)

  datatype AlignError = NoTime(path: string) | EmptyTime(path: string)

  /** The first file's moved axis and the merged, sorted axis. */
  datatype Aligned = Aligned(shifted: seq<int>, merged: seq<int>)

  function TimeKey(t: int): int {
    t
  }

  /** `pd.to_datetime(ds1.time.values) + offset`. */
  function Shift(times: seq<int>, offset: int): seq<int> {
    seq(|times|, i requires 0 <= i < |times| => times[i] + offset)
  }

  /** `merge_nc_to_zarr` on the time axes. The missing-time checks come first (file 1, then file 2); indexing the first
      time of file 2, then of file 1, raises IndexError on an empty axis. */
  function MergeTimes(f1: NcFile, f2: NcFile): Result<Aligned, AlignError> {
    if !f1.hasTimeDim && !f1.hasTimeCoord then Err(NoTime(f1.path))
    else if !f2.hasTimeDim && !f2.hasTimeCoord then Err(NoTime(f2.path))
    else if |f2.times| == 0 then Err(EmptyTime(f2.path))
    else if |f1.times| == 0 then Err(EmptyTime(f1.path))
    else
      var offset := (f2.times[0] - AlignGap) - f1.times[0];
      var shifted := Shift(f1.times, offset);
      Ok(Aligned(shifted, SortBy(shifted + f2.times, TimeKey)))
  }

  /** A file without `time` is rejected before any shift, the first file first. */
  lemma MissingTimeRejected(f1: NcFile, f2: NcFile)
    ensures !f1.hasTimeDim && !f1.hasTimeCoord ==> MergeTimes(f1, f2) == Err(NoTime(f1.path))
    ensures (f1.hasTimeDim || f1.hasTimeCoord) && !f2.hasTimeDim && !f2.hasTimeCoord ==>
      MergeTimes(f1, f2) == Err(NoTime(f2.path))
    ensures MergeTimes(f1, f2).Ok? <==>
      (f1.hasTimeDim || f1.hasTimeCoord) && (f2.hasTimeDim || f2.hasTimeCoord) && |f1.times| > 0 && |f2.times| > 0
  {
  }

  /** After the shift the first file starts exactly 6 hours before the second, and every gap inside the first file is
      as it was. */
  lemma ShiftAligns(f1: NcFile, f2: NcFile)
    requires MergeTimes(f1, f2).Ok?
    ensures var a := MergeTimes(f1, f2).value;
      && |a.shifted| == |f1.times|
      && a.shifted[0] == f2.times[0] - 6
      && forall i, j :: 0 <= i < |a.shifted| && 0 <= j < |a.shifted| ==>
           a.shifted[i] - a.shifted[j] == f1.times[i] - f1.times[j]
  {
  }

  /** The merged axis is sorted and holds the moved first axis and the untouched second axis, every entry as often as
      in the two together. */
  lemma MergedIsSortedUnion(f1: NcFile, f2: NcFile)
    requires MergeTimes(f1, f2).Ok?
    ensures var a := MergeTimes(f1, f2).value;
      && |a.merged| == |f1.times| + |f2.times|
      && multiset(a.merged) == multiset(a.shifted) + multiset(f2.times)
      && forall i, j :: 0 <= i < j < |a.merged| ==> a.merged[i] <= a.merged[j]
  {
    var a := MergeTimes(f1, f2).value;
    assert SortedBy(a.merged, TimeKey);
  }

  /** The merged axis starts no later than 6 hours before the second file's first time. */
  lemma MergedStartsBeforeSecond(f1: NcFile, f2: NcFile)
    requires MergeTimes(f1, f2).Ok?
    ensures MergeTimes(f1, f2).value.merged[0] <= f2.times[0] - 6
  {
    var a := MergeTimes(f1, f2).value;
    MergedIsSortedUnion(f1, f2);
    ShiftAligns(f1, f2);
    assert a.shifted[0] in multiset(a.merged);
    var k :| 0 <= k < |a.merged| && a.merged[k] == a.shifted[0];
    if k > 0 {
      assert a.merged[0] <= a.merged[k];
    }
  }

  /** Outcome of the command line. */
  datatype CliOutcome = Usage | Merged(output: string, result: Result<Aligned, AlignError>)

  /** The `__main__` block: exactly three arguments (two NetCDF paths and the output store), otherwise usage and exit
      status 1. `read` stands for opening a path. */
  function Cli(argv: seq<string>, read: string -> NcFile): (r: CliOutcome)
    ensures r.Usage? <==> |argv| != 4
    ensures r.Merged? ==> r.output == argv[3] && r.result == MergeTimes(read(argv[1]), read(argv[2]))
  {
    if |argv| != 4 then Usage else Merged(argv[3], MergeTimes(read(argv[1]), read(argv[2])))
  }
}

=== FILE: zarr_keys.dfy ===
/** `04_zarr.py`: two forecast steps named by keys `YYYYMMDD_HH_NNN` are read
    from `extraction_data/<key>_pgrba.grib2` (required) and
    `<key>_pgrbb.grib2` (optional) and written as one two-step Zarr store in
    `outputs/`. */
module ZarrKeys {
  import opened Base
  import opened Paths
  import opened Dicts
  import opened GribSteps

  /** `DATA_DIR` and `OUTPUT_DIR` (pathlib drops the leading `./`). */
  const DataDir := "extraction_data"
  const OutputDir := "outputs"

  /** The `validate_dataset` names of the datasets opened from each part, in opening order. */
  const PrimaryReaders := ["isobaric_ds1", "surface_2m", "surface_10m", "land/sea mask"]
  const SecondaryReaders := ["isobaric_ds2"]

  /** `find_forecast_files`: the parts of step `key` present in the data directory. */
  function FindForecastFiles(fs: FileSystem, key: string): Dict<string> {
    FilesAt(fs, DataDir, key)
  }

  /** The result maps `pgrb2` to `extraction_data/<key>_pgrba.grib2` exactly when that file exists, `pgrb2b` to
      `extraction_data/<key>_pgrbb.grib2` exactly when that one exists, and has no other key. */
  lemma FindForecastFilesContents(fs: FileSystem, key: string)
    ensures Get(FindForecastFiles(fs, key), PrimaryKey) ==
      (if fs.Exists(Join(DataDir, key + "_pgrba.grib2")) then Some(Join(DataDir, key + "_pgrba.grib2")) else None)
    ensures Get(FindForecastFiles(fs, key), SecondaryKey) ==
      (if fs.Exists(Join(DataDir, key + "_pgrbb.grib2")) then Some(Join(DataDir, key + "_pgrbb.grib2")) else None)
    ensures forall k :: HasKey(FindForecastFiles(fs, key), k) ==> k == PrimaryKey || k == SecondaryKey
  {
    FilesAtContents(fs, DataDir, key);
  }

  /** `merge_forecast_step`: the datasets merged for one step. */
  function MergeForecastStep(files: Dict<string>, open: Read -> Option<nat>): Result<seq<Read>, StepError> {
    MergeStep(files, PrimaryReaders, SecondaryReaders, open)
  }

  /** Four datasets from `pgrb2` plus one from `pgrb2b`; FileNotFoundError exactly when neither part is there. */
  lemma MergeForecastStepCount(files: Dict<string>, open: Read -> Option<nat>)
    ensures MergeForecastStep(files, open) == Err(NoGribFiles) <==>
      !HasKey(files, PrimaryKey) && !HasKey(files, SecondaryKey)
    ensures MergeForecastStep(files, open).Ok? ==>
      |MergeForecastStep(files, open).value| ==
        (if HasKey(files, PrimaryKey) then 4 else 0) + (if HasKey(files, SecondaryKey) then 1 else 0)
    ensures MergeForecastStep(files, open).Ok? ==>
      forall i :: 0 <= i < |MergeForecastStep(files, open).value| ==>
        var r := MergeForecastStep(files, open).value[i];
        Get(files, if r.name == "isobaric_ds2" then SecondaryKey else PrimaryKey) == Some(r.file)
  {
    MergeStepShape(files, PrimaryReaders, SecondaryReaders, open);
  }

  /** Why `process_two_forecasts` stops: `sys.exit` on a key without its `pgrb2` part, or an error of one step. */
  datatype ProcessError = MissingPrimary(key: string) | StepFailed(key: string, error: StepError)

  /** The Zarr store written: its path and its time steps, each with the datasets merged into it. */
  datatype Output = Output(path: string, steps: seq<(nat, seq<Read>)>)

  /** `process_two_forecasts`. */
  function ProcessTwoForecasts(fs: FileSystem, key1: string, key2: string, open: Read -> Option<nat>)
    : Result<Output, ProcessError>
  {
    var files1 := FindForecastFiles(fs, key1);
    var files2 := FindForecastFiles(fs, key2);
    if !HasKey(files1, PrimaryKey) then Err(MissingPrimary(key1))
    else if !HasKey(files2, PrimaryKey) then Err(MissingPrimary(key2))
    else
      match MergeForecastStep(files1, open)
      case Err(e) => Err(StepFailed(key1, e))
      case Ok(ds1) =>
        match MergeForecastStep(files2, open)
        case Err(e) => Err(StepFailed(key2, e))
        case Ok(ds2) => Ok(Output(Join(OutputDir, key1 + "_output.zarr"), [(0, ds1), (1, ds2)]))
  }

  /** The required part is checked for the first key before the second. */
  lemma RequiredPartChecks(fs: FileSystem, key1: string, key2: string, open: Read -> Option<nat>)
    ensures !fs.Exists(Join(DataDir, key1 + "_pgrba.grib2")) ==>
      ProcessTwoForecasts(fs, key1, key2, open) == Err(MissingPrimary(key1))
    ensures fs.Exists(Join(DataDir, key1 + "_pgrba.grib2")) && !fs.Exists(Join(DataDir, key2 + "_pgrba.grib2")) ==>
      ProcessTwoForecasts(fs, key1, key2, open) == Err(MissingPrimary(key2))
  {
    FindForecastFilesContents(fs, key1);
    FindForecastFilesContents(fs, key2);
  }

  /** The optional part never stops a run: with both required parts present and every dataset valid, the run
      completes whether or not the `pgrbb` files exist. */
  lemma OptionalPartOptional(fs: FileSystem, key1: string, key2: string, open: Read -> Option<nat>)
    requires fs.Exists(Join(DataDir, key1 + "_pgrba.grib2")) && fs.Exists(Join(DataDir, key2 + "_pgrba.grib2"))
    requires forall r :: Passes(open, r)
    ensures ProcessTwoForecasts(fs, key1, key2, open).Ok?
  {
    FindForecastFilesContents(fs, key1);
    FindForecastFilesContents(fs, key2);
    MergeStepSucceeds(FindForecastFiles(fs, key1), PrimaryReaders, SecondaryReaders, open);
    MergeStepSucceeds(FindForecastFiles(fs, key2), PrimaryReaders, SecondaryReaders, open);
  }

  /** A run writes `outputs/<key1>_output.zarr` holding the first key's step at time 0 and the second's at time 1. */
  lemma ProcessTwoForecastsOutput(fs: FileSystem, key1: string, key2: string, open: Read -> Option<nat>)
    ensures ProcessTwoForecasts(fs, key1, key2, open).Ok? ==>
      && fs.Exists(Join(DataDir, key1 + "_pgrba.grib2"))
      && fs.Exists(Join(DataDir, key2 + "_pgrba.grib2"))
      && MergeForecastStep(FindForecastFiles(fs, key1), open).Ok?
      && MergeForecastStep(FindForecastFiles(fs, key2), open).Ok?
    ensures ProcessTwoForecasts(fs, key1, key2, open).Ok? ==>
      var out := ProcessTwoForecasts(fs, key1, key2, open).value;
      && out.path == Join(OutputDir, key1 + "_output.zarr")
      && |out.steps| == 2 && out.steps[0].0 == 0 && out.steps[1].0 == 1
      && out.steps[0].1 == MergeForecastStep(FindForecastFiles(fs, key1), open).value
      && out.steps[1].1 == MergeForecastStep(FindForecastFiles(fs, key2), open).value
  {
    FindForecastFilesContents(fs, key1);
    FindForecastFilesContents(fs, key2);
  }

  /** Exit status of the command line. */
  datatype MainOutcome = Usage | Ran(result: Result<Output, ProcessError>)

  const UsageText := "Usage: ./04_zarr.py yyyymmdd_hh_### yyyymmdd_hh_###"

  /** `main`: exactly two keys after the program name, otherwise usage and exit status 1. */
  function Main(argv: seq<string>, fs: FileSystem, open: Read -> Option<nat>): (r: MainOutcome)
    ensures r.Usage? <==> |argv| != 3
    ensures r.Ran? ==> r.result == ProcessTwoForecasts(fs, argv[1], argv[2], open)
  {
    if |argv| != 3 then Usage else Ran(ProcessTwoForecasts(fs, argv[1], argv[2], open))
  }
}

=== FILE: zarr_keys_legacy.dfy ===
/** `old_code/04_zarr.py`: the earlier two-step merge, whose keys may also be
    paths to a GRIB file or to a prefix, resolved by three rules, with a list
    of directories to search, six datasets per `pgrba` part, one error naming
    every key without its `pgrba` part, and both Zarr and NetCDF output. */
module ZarrKeysLegacy {
  import opened Base
  import opened Strings
  import opened Paths
  import opened Dicts
  import opened GribSteps

  const PrimaryReaders := ["isobaric_ds1", "surface_2m", "surface_10m", "land/sea mask",
                           "surface geopotential", "surface solar radiation"]
  const SecondaryReaders := ["isobaric_ds2"]

  /** The stem of an existing GRIB file: its name with both part endings removed. */
  function FileStem(p: string): string {
    ReplaceAll(ReplaceAll(Name(p), PrimaryEnding, ""), SecondaryEnding, "")
  }

  /** Rule 1 applies: the argument names an existing `.grib2` file. */
  predicate IsGribFile(fs: FileSystem, p: string) {
    Suffix(Name(p)) == ".grib2" && fs.Exists(p)
  }

  /** Rule 2 applies: the argument has an existing parent directory other than `.`, and a name. */
  predicate HasPrefixDir(fs: FileSystem, p: string) {
    Parent(p) != "." && fs.Exists(Parent(p)) && Name(p) != ""
  }

  /** Rule 3: the loop over `search_dirs`, stopping after the first directory that adds a file. */
  function SearchDirs(fs: FileSystem, key: string, dirs: seq<string>, files: Dict<string>): Dict<string>
    decreases |dirs|
  {
    if |dirs| == 0 then files
    else
      var found := AddCandidates(fs, files, dirs[0], key);
      if |found| > 0 then found else SearchDirs(fs, key, dirs[1..], found)
  }

  /** `find_forecast_files(key_or_path, search_dirs)`. */
  function FindForecastFiles(fs: FileSystem, p: string, dirs: seq<string>): Dict<string> {
    if IsGribFile(fs, p) then FilesAt(fs, Parent(p), FileStem(p))
    else if HasPrefixDir(fs, p) then FilesAt(fs, Parent(p), Name(p))
    else SearchDirs(fs, p, dirs, [])
  }

  /** Directory `d` holds at least one part of step `key`. */
  predicate HoldsPart(fs: FileSystem, d: string, key: string) {
    fs.Exists(Candidates(d, key).0) || fs.Exists(Candidates(d, key).1)
  }

  /** `d` is the first directory of `dirs` holding a part of `key`. */
  predicate FirstHolder(fs: FileSystem, key: string, dirs: seq<string>, i: int) {
    && 0 <= i < |dirs|
    && HoldsPart(fs, dirs[i], key)
    && forall j :: 0 <= j < i ==> !HoldsPart(fs, dirs[j], key)
  }

  /** The scan gives the parts found in the first directory holding either part (so both come from that directory,
      and one holding only `pgrbb` ends the search), or nothing when no directory holds a part. */
  lemma {:induction false} SearchStopsAtFirstHolder(fs: FileSystem, key: string, dirs: seq<string>)
    ensures (forall i :: 0 <= i < |dirs| ==> !HoldsPart(fs, dirs[i], key)) ==> SearchDirs(fs, key, dirs, []) == []
    ensures forall i :: FirstHolder(fs, key, dirs, i) ==> SearchDirs(fs, key, dirs, []) == FilesAt(fs, dirs[i], key)
    decreases |dirs|
  {
    if |dirs| > 0 {
      FilesAtContents(fs, dirs[0], key);
      SearchStopsAtFirstHolder(fs, key, dirs[1..]);
      if !HoldsPart(fs, dirs[0], key) {
        assert FilesAt(fs, dirs[0], key) == [];
        forall i | FirstHolder(fs, key, dirs, i)
          ensures FirstHolder(fs, key, dirs[1..], i - 1)
        {
          assert i != 0;
          forall j | 0 <= j < i - 1
            ensures !HoldsPart(fs, dirs[1..][j], key)
          {
            assert dirs[1..][j] == dirs[j + 1];
          }
        }
        if forall i :: 0 <= i < |dirs| ==> !HoldsPart(fs, dirs[i], key) {
          forall i | 0 <= i < |dirs| - 1
            ensures !HoldsPart(fs, dirs[1..][i], key)
          {
            assert dirs[1..][i] == dirs[i + 1];
          }
        }
      } else {
        forall i | FirstHolder(fs, key, dirs, i)
          ensures i == 0
        {
        }
      }
    }
  }

  /** Rule 2 consults only the argument's own directory: the search directories make no difference. */
  lemma PrefixIgnoresSearchDirs(fs: FileSystem, p: string, dirs: seq<string>, others: seq<string>)
    requires !IsGribFile(fs, p) && HasPrefixDir(fs, p)
    ensures FindForecastFiles(fs, p, dirs) == FindForecastFiles(fs, p, others) == FilesAt(fs, Parent(p), Name(p))
  {
  }

  lemma NoCharIn(s: string, c: char)
    requires c !in s
    ensures forall k :: 0 <= k < |s| ==> s[k] != c
  {
  }

  /** Rule 1 on an existing `<dir>/<X>_pgrba.grib2`: its stem is `X`, it is itself the `pgrb2` part, and its
      `_pgrbb` sibling is the `pgrb2b` part when that file exists. */
  lemma GribFileMapsToItself(fs: FileSystem, dir: string, x: string, dirs: seq<string>)
    requires |dir| > 0 && dir != "." && dir[|dir| - 1] != '/'
    requires |x| > 0 && '/' !in x && '.' !in x
    requires fs.Exists(Join(dir, x + PrimaryEnding))
    ensures FileStem(Join(dir, x + PrimaryEnding)) == x
    ensures FindForecastFiles(fs, Join(dir, x + PrimaryEnding), dirs) == FilesAt(fs, dir, x)
    ensures Get(FindForecastFiles(fs, Join(dir, x + PrimaryEnding), dirs), PrimaryKey) == Some(Join(dir, x + PrimaryEnding))
    ensures Get(FindForecastFiles(fs, Join(dir, x + PrimaryEnding), dirs), SecondaryKey) ==
      (if fs.Exists(Join(dir, x + SecondaryEnding)) then Some(Join(dir, x + SecondaryEnding)) else None)
  {
    StemOfTagged(dir, x, "_pgrba", PrimaryEnding);
    ReplaceTrailing(x, PrimaryEnding, "", '.');
    assert x + "" == x;
    ReplaceAbsent(x, SecondaryEnding, "", '.');
    FilesAtContents(fs, dir, x);
  }

  /** Rule 1 on an existing `<dir>/<X>_pgrbb.grib2`: its stem is also `X`, so the `pgrb2` part is its `_pgrba`
      sibling when that file exists, and it is itself the `pgrb2b` part. */
  lemma SecondaryFileFindsSibling(fs: FileSystem, dir: string, x: string, dirs: seq<string>)
    requires |dir| > 0 && dir != "." && dir[|dir| - 1] != '/'
    requires |x| > 0 && '/' !in x && '.' !in x
    requires fs.Exists(Join(dir, x + SecondaryEnding))
    ensures FileStem(Join(dir, x + SecondaryEnding)) == x
    ensures FindForecastFiles(fs, Join(dir, x + SecondaryEnding), dirs) == FilesAt(fs, dir, x)
    ensures Get(FindForecastFiles(fs, Join(dir, x + SecondaryEnding), dirs), PrimaryKey) ==
      (if fs.Exists(Join(dir, x + PrimaryEnding)) then Some(Join(dir, x + PrimaryEnding)) else None)
    ensures Get(FindForecastFiles(fs, Join(dir, x + SecondaryEnding), dirs), SecondaryKey) == Some(Join(dir, x + SecondaryEnding))
  {
    StemOfTagged(dir, x, "_pgrbb", SecondaryEnding);
    SecondaryFileStem(x);
    FilesAtContents(fs, dir, x);
  }

  /** Removing both part endings from `X_pgrbb.grib2` leaves `X`: the `_pgrba` ending never matches inside it. */
  lemma SecondaryFileStem(x: string)
    requires '.' !in x
    ensures ReplaceAll(ReplaceAll(x + SecondaryEnding, PrimaryEnding, ""), SecondaryEnding, "") == x
  {
    assert SecondaryEnding[5] != PrimaryEnding[5];
    forall k | 0 <= k < |SecondaryEnding| && SecondaryEnding[k] == '.'
      ensures k == 6
    {
    }
    ReplaceMissesTrailing(x, SecondaryEnding, PrimaryEnding, "", '.', 6);
    ReplaceTrailing(x, SecondaryEnding, "", '.');
    assert x + "" == x;
  }

  datatype ProcessError = MissingRequired(keys: seq<string>) | StepFailed(key: string, error: StepError)

  /** The FileNotFoundError message for the keys without their `pgrb2` part. */
  function MissingMessage(keys: seq<string>): string {
    "Missing required files: " + JoinWith(seq(|keys|, i requires 0 <= i < |keys| => "pgrb2 for " + keys[i]), ", ")
  }

  /** The name both outputs are derived from: the first key's stem without its part tag. */
  function OutputStem(key1: string): string {
    ReplaceAll(ReplaceAll(Stem(Name(key1)), "_pgrba", ""), "_pgrbb", "")
  }

  /** The Zarr and NetCDF files written and the two time steps stored in them. */
  datatype Output = Output(zarrPath: string, ncPath: string, steps: seq<(nat, seq<Read>)>)

  /** `process_two_forecasts(key1, key2, search_dirs, output_dir)`. */
  function ProcessTwoForecasts(fs: FileSystem, key1: string, key2: string, dirs: seq<string>, outputDir: string,
                               open: Read -> Option<nat>): Result<Output, ProcessError>
  {
    var files1 := FindForecastFiles(fs, key1, dirs);
    var files2 := FindForecastFiles(fs, key2, dirs);
    var missing := (if HasKey(files1, PrimaryKey) then [] else [key1]) + (if HasKey(files2, PrimaryKey) then [] else [key2]);
    if |missing| > 0 then Err(MissingRequired(missing))
    else
      match MergeStep(files1, PrimaryReaders, SecondaryReaders, open)
      case Err(e) => Err(StepFailed(key1, e))
      case Ok(ds1) =>
        match MergeStep(files2, PrimaryReaders, SecondaryReaders, open)
        case Err(e) => Err(StepFailed(key2, e))
        case Ok(ds2) =>
          var stem := OutputStem(key1);
          Ok(Output(Join(outputDir, stem + "_output.zarr"), Join(outputDir, stem + "_output.nc"), [(0, ds1), (1, ds2)]))
  }

  /** Both keys are checked before the single error, which lists exactly the keys lacking their `pgrb2` part, in
      argument order. */
  lemma MissingListsEveryKey(fs: FileSystem, key1: string, key2: string, dirs: seq<string>, outputDir: string,
                             open: Read -> Option<nat>)
    ensures var r := ProcessTwoForecasts(fs, key1, key2, dirs, outputDir, open);
      var lack1 := !HasKey(FindForecastFiles(fs, key1, dirs), PrimaryKey);
      var lack2 := !HasKey(FindForecastFiles(fs, key2, dirs), PrimaryKey);
      && ((r.Err? && r.error.MissingRequired?) <==> lack1 || lack2)
      && (r.Err? && r.error.MissingRequired? ==>
            r.error.keys == (if lack1 then [key1] else []) + (if lack2 then [key2] else []))
  {
  }

  /** The raised text names each key lacking its `pgrb2` part as `pgrb2 for <key>`, in argument order. */
  lemma MissingRequiredMessage(fs: FileSystem, key1: string, key2: string, dirs: seq<string>, outputDir: string,
                               open: Read -> Option<nat>)
    ensures var r := ProcessTwoForecasts(fs, key1, key2, dirs, outputDir, open);
      var lack1 := !HasKey(FindForecastFiles(fs, key1, dirs), PrimaryKey);
      var lack2 := !HasKey(FindForecastFiles(fs, key2, dirs), PrimaryKey);
      r.Err? && r.error.MissingRequired? ==>
        MissingMessage(r.error.keys) ==
          "Missing required files: " +
          (if lack1 && lack2 then "pgrb2 for " + key1 + ", pgrb2 for " + key2
           else if lack1 then "pgrb2 for " + key1
           else "pgrb2 for " + key2)
  {
    MissingListsEveryKey(fs, key1, key2, dirs, outputDir, open);
    MissingMessageText(key1, key2, !HasKey(FindForecastFiles(fs, key1, dirs), PrimaryKey),
                       !HasKey(FindForecastFiles(fs, key2, dirs), PrimaryKey));
  }

  /** The message for the keys found lacking `pgrb2`: each as `pgrb2 for <key>`, separated by `, `. */
  lemma MissingMessageText(key1: string, key2: string, lack1: bool, lack2: bool)
    ensures lack1 || lack2 ==>
      MissingMessage((if lack1 then [key1] else []) + (if lack2 then [key2] else [])) ==
        "Missing required files: " +
        (if lack1 && lack2 then "pgrb2 for " + key1 + ", pgrb2 for " + key2
         else if lack1 then "pgrb2 for " + key1
         else "pgrb2 for " + key2)
  {
    var keys := (if lack1 then [key1] else []) + (if lack2 then [key2] else []);
    var parts := seq(|keys|, i requires 0 <= i < |keys| => "pgrb2 for " + keys[i]);
    if lack1 && lack2 {
      assert parts == ["pgrb2 for " + key1, "pgrb2 for " + key2];
      assert parts[1..] == ["pgrb2 for " + key2];
      assert JoinWith(parts, ", ") == ("pgrb2 for " + key1) + ", " + ("pgrb2 for " + key2);
    }
  }

  /** Six datasets from `pgrb2` plus one from `pgrb2b`; FileNotFoundError exactly when neither part is there. */
  lemma MergeStepCount(files: Dict<string>, open: Read -> Option<nat>)
    ensures MergeStep(files, PrimaryReaders, SecondaryReaders, open) == Err(NoGribFiles) <==>
      !HasKey(files, PrimaryKey) && !HasKey(files, SecondaryKey)
    ensures MergeStep(files, PrimaryReaders, SecondaryReaders, open).Ok? ==>
      |MergeStep(files, PrimaryReaders, SecondaryReaders, open).value| ==
        (if HasKey(files, PrimaryKey) then 6 else 0) + (if HasKey(files, SecondaryKey) then 1 else 0)
  {
    MergeStepShape(files, PrimaryReaders, SecondaryReaders, open);
  }

  /** A successful run writes `<stem>_output.zarr` and `<stem>_output.nc` in the output directory, with the first key's
      step at time 0 and the second's at time 1. */
  lemma OutputNaming(fs: FileSystem, key1: string, key2: string, dirs: seq<string>, outputDir: string,
                     open: Read -> Option<nat>)
    ensures ProcessTwoForecasts(fs, key1, key2, dirs, outputDir, open).Ok? ==>
      var out := ProcessTwoForecasts(fs, key1, key2, dirs, outputDir, open).value;
      && out.zarrPath == Join(outputDir, OutputStem(key1) + "_output.zarr")
      && out.ncPath == Join(outputDir, OutputStem(key1) + "_output.nc")
      && |out.steps| == 2 && out.steps[0].0 == 0 && out.steps[1].0 == 1
  {
  }

  /** The text of a forecast key such as `20250720_06_004`: digits and underscores. */
  predicate IsKeyText(x: string) {
    |x| > 0 && forall k :: 0 <= k < |x| ==> IsDigit(x[k]) || x[k] == '_'
  }

  lemma KeyTextLacks(x: string, c: char)
    requires IsKeyText(x) && !IsDigit(c) && c != '_'
    ensures c !in x
  {
    forall k | 0 <= k < |x|
      ensures x[k] != c
    {
    }
  }

  lemma AbsentFromConcat(a: string, b: string, c: char)
    requires c !in a && c !in b
    ensures c !in a + b
  {
    forall k | 0 <= k < |a + b|
      ensures (a + b)[k] != c
    {
      if k < |a| {
        assert (a + b)[k] == a[k];
      } else {
        assert (a + b)[k] == b[k - |a|];
      }
    }
  }

  /** A bare key is its own output stem. */
  lemma OutputStemOfBareKey(x: string)
    requires IsKeyText(x)
    ensures OutputStem(x) == x
  {
    KeyTextLacks(x, '/');
    KeyTextLacks(x, '.');
    KeyTextLacks(x, 'p');
    assert Name(x) == x by {
      assert LastIndexOf(x, '/') == -1;
    }
    assert Stem(x) == x by {
      assert LastIndexOf(x, '.') == -1;
    }
    ReplaceAbsent(x, "_pgrba", "", 'p');
    ReplaceAbsent(x, "_pgrbb", "", 'p');
  }

  /** Given as the path of its `pgrba` part, a key still gives itself as the output stem. */
  lemma OutputStemOfPrimaryPath(dir: string, x: string)
    requires |dir| > 0 && dir != "." && dir[|dir| - 1] != '/'
    requires IsKeyText(x)
    ensures OutputStem(Join(dir, x + PrimaryEnding)) == x
  {
    KeyTextLacks(x, '/');
    KeyTextLacks(x, '.');
    KeyTextLacks(x, 'p');
    StemOfTagged(dir, x, "_pgrba", PrimaryEnding);
    ReplaceTrailing(x, "_pgrba", "", 'p');
    assert x + "" == x;
    ReplaceAbsent(x, "_pgrbb", "", 'p');
  }

  /** Given as the path of its `pgrbb` part, a key still gives itself as the output stem. */
  lemma OutputStemOfSecondaryPath(dir: string, x: string)
    requires |dir| > 0 && dir != "." && dir[|dir| - 1] != '/'
    requires IsKeyText(x)
    ensures OutputStem(Join(dir, x + SecondaryEnding)) == x
  {
    KeyTextLacks(x, '/');
    KeyTextLacks(x, '.');
    KeyTextLacks(x, 'p');
    KeyTextLacks(x, 'a');
    StemOfTagged(dir, x, "_pgrbb", SecondaryEnding);
    AbsentFromConcat(x, "_pgrbb", 'a');
    ReplaceAbsent(x + "_pgrbb", "_pgrba", "", 'a');
    ReplaceTrailing(x, "_pgrbb", "", 'p');
    assert x + "" == x;
  }

  /** The stem of the name of `<dir>/<X><tag>.grib2` is `X<tag>`. */
  lemma StemOfTagged(dir: string, x: string, tag: string, ending: string)
    requires |dir| > 0 && dir != "." && dir[|dir| - 1] != '/'
    requires |x| > 0 && '/' !in x && '.' !in x
    requires ending == tag + ".grib2" && '/' !in tag
    ensures Name(Join(dir, x + ending)) == x + ending && Parent(Join(dir, x + ending)) == dir
    ensures Suffix(x + ending) == ".grib2"
    ensures Stem(Name(Join(dir, x + ending))) == x + tag
  {
    var name := x + ending;
    assert '/' !in name by {
      forall k | 0 <= k < |name|
        ensures name[k] != '/'
      {
        if k < |x| {
          assert name[k] == x[k];
        } else if k < |x| + |tag| {
          assert name[k] == tag[k - |x|];
        } else {
          assert name[k] == ".grib2"[k - |x| - |tag|];
        }
      }
    }
    NameParentOfJoin(dir, name);
    assert name == (x + tag) + ".grib2";
    StemOfExtension(x + tag, ".grib2");
  }
}
